=== FILE: README.md ===
# Jobs data pipeline — a Dafny model of its data logic

The pipeline fetches job listings from a listings API, stages the recent
captures into one table, keeps the listings relevant to British Columbia or
remote work, enriches them with a provider URL field and with skills and a
sector produced by a generative model, loads the result into MySQL (or
PostgreSQL) with an upsert keyed by listing id, and mails a daily report.

This project models the pure part of every step as Dafny functions over
immutable sequences, records and `map<string, seq<string>>` tables, and
proves what each step promises:

- `Types` (`types.dfy`): `Option` and `Result`. A `Result` stands for an
  exception that aborts a step.
- `Seqs`, `Text`, `Dates` (`seqs.dfy`, `text.dfy`, `dates.dfy`): the Python
  and pandas primitives the steps rely on. They cover order-preserving
  filtering, the subsequence relation, `lower()`, `in`, case-insensitive
  search, `split`/`join` on a literal separator, `strip()` and one-character
  `replace`. They also cover `strptime`/`strftime` with `%d-%m-%Y` and the
  day numbering `datetime` computes with.
- `Jobs` (`jobs.dfy`): the listing, the staged row and the eleven-column
  serving row.
- `JsonToStaged` (`json_to_staged.dfy`): the four-day window over the
  capture directories. It tags each listing with its directory's name,
  concatenates the rows, and drops repeated ids keeping the first.
- `StagedToServing` and `LlmFields` (`staged_to_serving.dfy`,
  `llm_fields.dfy`): the relevance filter and the two-tier URL field. Also
  the skills/sector generation, with the model passed in as a function, and
  the projection sorted by the capture-date text.
- `Upsert`, `ServingToMysql`, `ServingToPostgres` (`upsert.dfy`,
  `serving_to_mysql.dfy`, `serving_to_postgres.dfy`): the table as a map from
  id to the other columns, and `executemany` as an in-order fold of
  insert-or-overwrite inside one transaction that is committed or rolled
  back whole. MySQL creates the table only if it is absent. PostgreSQL drops
  the table and creates it again.
- `FetchJson` (`fetch_json.dfy`): the query-major expansion of queries and
  page indices, and what a response's status code leads to. When a response
  is saved it also gives the file path.
- `AnalyzeServing` (`analyze_serving.dfy`): the report's figures. These are
  the latest-date count, the top-five tallies, the education filter with its
  presence check, and the newline replacement.

Some behaviours of the code are easy to misread, and the model follows
the code in each:

- Staging drops repeated ids keeping the **first** row. `drop_duplicates`
  keeps the first by default.
- A URL counts as a priority URL when "linkedin", "glassdoor" or "indeed"
  occurs **anywhere** in it, case-sensitively. The host name is not
  inspected.
- The text to cut is the model's answer with a sentinel put in front or
  behind on the one-sided branches. When that text does not cut into
  exactly two pieces at "|||", the unpacking raises and the whole run
  aborts. There is no fallback to the sentinels (see Findings).
- The PostgreSQL loader drops the table on every run, so rows from earlier
  runs are deleted.

The PostgreSQL loader binds nine values per row, but the serving data has
eleven columns. So on serving data the driver raises while binding the first
row, the exception is not one the handler catches, and the table is left
empty (`ServingToPostgres.ServingRowsRaiseOnPostgres`).

## Model

In the tables, D stands for the skills/sector delimiter, three vertical bars.

| member | source | states |
|---|---|---|
| `StagedToServing.GetFeasibleLocationData` | src/process_staged_to_serving.py:30-37 | the kept rows are an order-preserving subsequence of the input, every kept row meets the location-or-description condition, every row that meets it is kept, and each row is kept exactly as often as it occurs |
| `StagedToServing.FeasibleIffLowerContains` | src/process_staged_to_serving.py:30-36 | a row is kept iff its lower-cased location contains "bc", "anywhere" or "vancouver", or its lower-cased description contains "remote" or "anywhere"; a missing cell never matches |
| `StagedToServing.BareSubstringMatches` | src/process_staged_to_serving.py:30-32 | "bc" is a bare substring, so a location "ABC Ltd" is kept |
| `StagedToServing.SampleTableKeepsThree` | tests/test_process_staged_to_serving.py:12-35 | of the test's four rows (BC, Vancouver, Toronto with a remote description, no location), exactly three are kept |
| `StagedToServing.ProviderUrls` | src/process_staged_to_serving.py:59-61 | the URLs collected from providers are never empty: missing and empty urls are skipped |
| `StagedToServing.CollectTiers` | src/process_staged_to_serving.py:55-65 | the loop's two lists are exactly the priority and the other kept urls, each in provider order |
| `StagedToServing.OrderedUrls` | src/process_staged_to_serving.py:66 | the combined list is the priority urls in provider order followed by the other urls in provider order; so it is a permutation of the kept urls with every priority url before every other url |
| `StagedToServing.FetchUrls` | src/process_staged_to_serving.py:55-67 | the field is empty iff no provider has a non-empty url; for urls without line breaks, splitting the field at the blank line gives back the ordered urls |
| `StagedToServing.FetchUrlsIdempotent` | src/process_staged_to_serving.py:55-67 | rebuilding the field from the urls of a built field gives the same field |
| `StagedToServing.PriorityUrlsComeFirst` | src/process_staged_to_serving.py:62-67 | providers (priority, other, priority) give "priority1, priority2, other" joined by blank lines |
| `StagedToServing.SameTierKeepsOrder` | tests/test_process_staged_to_serving.py:38-66 | when all urls fall in one tier the field is the urls joined in provider order, as both test rows expect |
| `StagedToServing.ExamplePriorityUrls` | tests/test_process_staged_to_serving.py:44-46 | the linkedin, glassdoor and indeed test urls are priority urls |
| `StagedToServing.ExampleOtherUrls` | tests/test_process_staged_to_serving.py:49-50 | the example.com and anotherexample.com test urls are not priority urls |
| `StagedToServing.NoBoardLetters` | src/process_staged_to_serving.py:56-62 | a url without the letter d names no preferred board, since each board name holds one |
| `StagedToServing.Project` | src/process_staged_to_serving.py:167-179 | the serving row carries the listing's id, title, company, location, employment type, salary range, posting date and capture tag unchanged, its URL field, and the generated skills and sector |
| `StagedToServing.SortByCaptureDesc` | src/process_staged_to_serving.py:181 | the output is a permutation of its input, sorted non-increasing by the capture-date text |
| `StagedToServing.GenerateServingData` | src/process_staged_to_serving.py:161-181 | the serving data is sorted by capture text, has one row per relevant staged row, and is a permutation of the enriched rows |
| `StagedToServing.ServingRowsFromFeasible` | src/process_staged_to_serving.py:163-181 | every serving row is the projection of some relevant row with its fields, and every relevant row yields one |
| `StagedToServing.GenerateServingDataAsWritten` | src/process_staged_to_serving.py:161-181 | the run as written completes iff every row's text cuts into two pieces; its output is then sorted by capture text, has one row per relevant row and is a permutation of those rows enriched with the fields as written; otherwise it reports the loop's error |
| `StagedToServing.ServingDataAgreesWithAsWritten` | src/process_staged_to_serving.py:135-181 | when the run as written completes (and description-only answers cut cleanly), its output is exactly the corrected serving data |
| `StagedToServing.CaptureOrderIsTextual` | src/process_staged_to_serving.py:181 | the sort compares "dd-mm-yyyy" text: a day with a larger tens digit sorts first whatever the month or year |
| `LlmFields.PromptWith` | src/process_staged_to_serving.py:100-125 | no prompt iff both description and company are blank; otherwise the prompt ends with the instruction, starts with the company (or the description when there is no company), and holds the description before the instruction |
| `LlmFields.GenerateLlm` | src/process_staged_to_serving.py:100-130 | the text to cut has no line break; it is the sentinel pair when there is no call or the call raised; otherwise, with only a company it is the skills sentinel, D and the answer; with only a description it is the answer, D and the sector sentinel; with both it is the answer; the answer always has its line breaks removed |
| `LlmFields.SplitFields` | src/process_staged_to_serving.py:137-139 | the unpacking succeeds iff the cut at D gives exactly two pieces, and both results are stripped |
| `LlmFields.SplitFieldsOfPair` | src/process_staged_to_serving.py:137-139 | a well-formed "skills D sector" text cuts back into both fields, stripped |
| `LlmFields.FailedResultSplits` | src/process_staged_to_serving.py:103 | the sentinel pair cuts into "skills fetch failed" and "unknown" |
| `LlmFields.AsWrittenFields` | src/process_staged_to_serving.py:135-139 | one iteration as written: a failure names the row it happened at |
| `LlmFields.GenerateLlmFieldsAsWritten` | src/process_staged_to_serving.py:132-143 | the loop as written gives one pair per row in row order iff every row's text cuts into two pieces; otherwise it stops at the first row that does not |
| `LlmFields.Classify` | src/process_staged_to_serving.py:100-139 | corrected fields: the sentinels when there is no answer or nothing to ask; with both inputs, the answer's two pieces stripped when it cuts into two, else the sentinels; with only a company, the skills sentinel and the answer's sector piece; with only a description, the answer's skills piece and the sector sentinel; both results stripped |
| `LlmFields.PiecesOfPair` | src/process_staged_to_serving.py:100-139 | an answer "a D b" (no bar or line break in a or b) gives (a, b) stripped to a prompt with both inputs, and a stripped or b stripped as the one field a one-sided prompt wants |
| `LlmFields.PiecesOfUndelimited` | src/process_staged_to_serving.py:100-139 | an answer with no D gives the sentinel pair to a prompt with both inputs, and the whole answer stripped to a one-sided prompt |
| `LlmFields.PiecesOfTriple` | src/process_staged_to_serving.py:100-139 | an answer with D twice gives the sentinel pair to a prompt with both inputs, and the sentinel to a one-sided prompt |
| `LlmFields.ClassifyWellFormed` | src/process_staged_to_serving.py:93-95 | with both inputs, an answer in the requested "skills D sector" shape gives back both parts, stripped |
| `LlmFields.ClassifyAgreesWithAsWritten` | src/process_staged_to_serving.py:100-139 | wherever the code as written produces fields, and no description-only answer ends in a vertical bar, the corrected fields are the same |
| `LlmFields.CompanyOnlyCut` | src/process_staged_to_serving.py:108 | as written, the company-only text cuts into two pieces only when the answer has no delimiter, giving the sentinel and the whole answer |
| `LlmFields.DescriptionOnlyCut` | src/process_staged_to_serving.py:117 | as written, the description-only text cuts into two pieces only when the answer has no delimiter, giving the whole answer and the sentinel |
| `LlmFields.GenerateLlmFields` | src/process_staged_to_serving.py:132-143 | corrected loop: exactly one field pair per row, in row order, each the row's corrected classification |
| `LlmFields.GenerateLlmFieldsAgrees` | src/process_staged_to_serving.py:132-143 | when the loop as written completes and no description-only answer ends in a vertical bar, its field pairs are exactly the corrected loop's |
| `LlmFields.TrailingBarShiftsCut` | src/process_staged_to_serving.py:114-117 | with only a description, an answer a followed by one vertical bar gives, as written, skills a and the sector "unknown" with the bar in front; the corrected fields are the whole answer and "unknown"; so the agreement lemmas need their extra condition |
| `LlmFields.CompanyOnlyAnswerStopsRun` | src/process_staged_to_serving.py:107-108 | with only a company, a well-formed answer "a D b" yields a three-piece text, so the run stops; corrected: skills sentinel and sector b |
| `LlmFields.DescriptionOnlyAnswerStopsRun` | src/process_staged_to_serving.py:114-117 | with only a description, a well-formed answer "a D b" yields a three-piece text, so the run stops; corrected: skills a and the sector sentinel |
| `LlmFields.UndelimitedAnswerStopsRun` | src/process_staged_to_serving.py:124-127 | with both inputs, an answer without the delimiter stops the run; corrected: the sentinel pair |
| `JsonToStaged.GetLatestDirs` | src/process_json_to_staged.py:29-39 | raises iff some directory name is not a dd-mm-yyyy date, naming the first such directory; otherwise it returns exactly the recent directories, in listing order, skipping plain files |
| `JsonToStaged.WindowInDays` | src/process_json_to_staged.py:29-37 | the window `now - 4 days <= d <= now` for a date at midnight is the four days ending today, or five when the clock reads exactly midnight |
| `JsonToStaged.JobsOf` | src/process_json_to_staged.py:64-71 | every listing read comes from one of the files, and every listing of every file is read |
| `JsonToStaged.Tag` | src/process_json_to_staged.py:74 | every row of a directory carries that directory's name as its capture date, one row per listing, in order |
| `JsonToStaged.ConcatDirectories` | src/process_json_to_staged.py:58-75 | concatenation succeeds iff there is a directory and each holds a `.json` file; every row then comes from a `.json` file of a directory and carries that directory's name, and every listing of every such file appears with its directory's name |
| `JsonToStaged.DirectoriesGiveRows` | src/process_json_to_staged.py:61-75 | every listing of every `.json` file of a directory is among the concatenated rows, tagged with that directory's name |
| `JsonToStaged.RowsFromDirectories` | src/process_json_to_staged.py:61-75 | every concatenated row comes from a JSON file of its tagging directory |
| `JsonToStaged.KeepFirst` | src/process_json_to_staged.py:77 | after deduplication ids are unique and every input id is still present |
| `JsonToStaged.KeepFirstKeepsFirsts` | src/process_json_to_staged.py:77 | the survivors are a subsequence of the input, each the first row with its id |
| `JsonToStaged.KeepFirstOfUnique` | src/process_json_to_staged.py:77 | rows with unique ids are left as they are |
| `JsonToStaged.KeepFirstIdempotent` | src/process_json_to_staged.py:77 | deduplicating twice is deduplicating once |
| `JsonToStaged.DropDuplicates` | src/process_json_to_staged.py:77 | the one-pass deduplication equals `KeepFirst`: unique ids, no id lost, input order kept, the first row of each id |
| `JsonToStaged.WriteStagedData` | src/process_json_to_staged.py:55-77 | the run succeeds iff the window scan and the concatenation do; the staged rows are then exactly the concatenated rows minus later duplicates, in input order: unique ids, the ids of all rows read, the first row of each id, and a recent directory's name as capture date |
| `Upsert.StringifyFrame` | src/process_serving_to_mysql.py:32-34 | every cell becomes its text (a missing one "None"), with the frame's shape kept |
| `Upsert.UpsertOne` | src/process_serving_to_mysql.py:64-78 | a new id is added; an existing id has all its other columns overwritten; every other row is unchanged |
| `Upsert.FoldKeys` | src/process_serving_to_mysql.py:80-84 | after the batch the ids are those of the table and of the batch: nothing is deleted |
| `Upsert.FoldUntouched` | src/process_serving_to_mysql.py:80-84 | an id the batch does not mention keeps its row |
| `Upsert.FoldLastWins` | src/process_serving_to_mysql.py:80-84 | the last record with an id decides that id's row |
| `Upsert.FoldUpserts` | src/process_serving_to_mysql.py:64-84 | the in-order fold meets the upsert specification |
| `Upsert.UpsertedUnique` | src/process_serving_to_mysql.py:64-84 | the upsert specification determines the table uniquely |
| `Upsert.UpsertedTwice` | src/process_serving_to_mysql.py:64-85 | upserting the same batch again changes nothing |
| `Upsert.ExecuteMany` | src/process_serving_to_mysql.py:83-88 | the batch succeeds iff every record is accepted, and the table is then upserted; otherwise it reports the first refused record and why |
| `ServingToMysql.LoadParquetToMysql` | src/process_serving_to_mysql.py:28-91 | the load never raises; it commits iff every record has eleven values and is accepted, and the table is then upserted over the created table, ids compared as exact strings; a rollback leaves the created table as it was; existing ids are never lost |
| `ServingToMysql.LoadTwiceMysql` | src/process_serving_to_mysql.py:41-88 | loading the same data a second time gives the same outcome and table |
| `ServingToMysql.ServingRecords` | src/process_serving_to_mysql.py:80 | each serving row binds as its id followed by its ten other values in INSERT order |
| `ServingToMysql.ServingRowsLoadIntoMysql` | src/process_serving_to_mysql.py:41-80 | the serving columns are the table's columns in order; a committed load holds the old ids and the serving ids, each with the values of its last serving row |
| `ServingToMysql.ServingTable` | src/process_serving_to_mysql.py:64-84 | a table upserted with serving records holds the base ids and the serving ids, each with its last row's values |
| `ServingToPostgres.LoadParquetToPostgres` | src/process_serving_to_postgres.py:13-70 | a committed load holds exactly the batch keyed by id, last record winning, whatever the table held before; otherwise the table is the fresh empty one, raised when a record does not have nine values and rolled back when the server refuses one |
| `ServingToPostgres.ServingRowsRaiseOnPostgres` | src/process_serving_to_postgres.py:45-63 | eleven-column serving data makes the load raise at its first row and leaves the table empty |
| `FetchJson.ProductLength` | src/fetch_json_response.py:77-89 | there are exactly queries × indices requests |
| `FetchJson.ProductAt` | src/fetch_json_response.py:77-88 | request i·n + j is query i with index j: query-major, index inner |
| `FetchJson.ProductPosition` | src/fetch_json_response.py:77-88 | every request position belongs to one (query, index) pair |
| `FetchJson.ProductShares` | src/fetch_json_response.py:79-87 | every request carries the configured location, language, remoteOnly, datePosted and employmentTypes |
| `FetchJson.GetQueryStrings` | src/fetch_json_response.py:69-89 | the nested loops build the query-major expansion, of length queries × indices, every request sharing the configured values |
| `FetchJson.ReadTimestamp` | src/fetch_json_response.py:42 | the `%Y%m%d_%H%M%S` stamp reads back as the clock reading, to the second |
| `FetchJson.WriteJsonData` | src/fetch_json_response.py:34-52 | a body that is not JSON raises, after logging the status only on the third branch; otherwise a file is written iff the status is 200, to raw/day/job_data_stamp.json where day is the `%d-%m-%Y` text of the date, which parses back to it, and the stamp reads back as the clock reading; 429 logs a plan error; any other status logs itself |
| `FetchJson.UntilRaise` | src/fetch_json_response.py:112-114 | a loop ended by an exception performs a prefix of its actions: none of them raises but the last, which raises whenever the loop stops early; with no raising action all are performed |
| `FetchJson.GenerateJsons` | src/fetch_json_response.py:111-114 | each response is handled in turn, in query order; the run ends early only right after a response that raised, so with JSON bodies every query string is handled |
| `AnalyzeServing.ConvertDateColumn` | src/analyze_serving_and_deliver.py:85 | conversion succeeds iff every capture text parses as dd-mm-yyyy (texts pandas reads as missing count as failures), each row then paired with its parsed date; otherwise it fails at the first row that does not parse |
| `AnalyzeServing.ConvertFormattedDates` | src/analyze_serving_and_deliver.py:85 | capture texts written with `%d-%m-%Y` always convert, each to its own date |
| `AnalyzeServing.LatestDate` | src/analyze_serving_and_deliver.py:103 | the chronological maximum of the capture dates, which is one of them; none for no rows |
| `AnalyzeServing.CountJobs` | src/analyze_serving_and_deliver.py:103-106 | the number of rows captured on the latest date: 0 for no rows, otherwise between 1 and the row count |
| `AnalyzeServing.TallyOf` | src/analyze_serving_and_deliver.py:124 | each distinct value with its exact count, every value present |
| `AnalyzeServing.SortDesc` | src/analyze_serving_and_deliver.py:124 | a permutation of the tally with non-increasing counts |
| `AnalyzeServing.TopCounts` | src/analyze_serving_and_deliver.py:124 | at most k entries with distinct values, exact counts and non-increasing counts; a value left out means k entries were taken, none counting less than it |
| `AnalyzeServing.IdentifyTopLocations` | src/analyze_serving_and_deliver.py:123-124 | at most five locations of the latest-date rows, distinct, non-increasing, each counted exactly among the latest-date cells, with counts adding up to at most the latest-date count; a location left out means five were taken, none counting less than it |
| `AnalyzeServing.PresentValues` | src/analyze_serving_and_deliver.py:124 | the present cells' values, each value exactly as often as cells hold it |
| `AnalyzeServing.IdentifyTopSectors` | src/analyze_serving_and_deliver.py:142 | at most five sectors over all rows, distinct, non-increasing, exactly counted, with counts adding up to at most the row count; a sector left out means five were taken, none counting less than it |
| `AnalyzeServing.MentionsEduIsEducation` | src/analyze_serving_and_deliver.py:160-180 | the presence check's test ("edu" in the lower-cased sector) and the filter's case-insensitive search agree on every row |
| `AnalyzeServing.CheckEducationJobsPresence` | src/analyze_serving_and_deliver.py:160-162 | true iff some row's lower-cased sector contains "edu" |
| `AnalyzeServing.FilterEducationJobs` | src/analyze_serving_and_deliver.py:180 | exactly the rows whose sector contains "edu" ignoring case, in order, each as often as in the input; non-empty iff the presence check holds |
| `AnalyzeServing.ReplaceNewlineWithSpace` | src/analyze_serving_and_deliver.py:198 | each line break becomes a blank: the length is kept, every other character is kept, and no line break is left |
| `AnalyzeServing.ReplaceNewlineFree` | src/analyze_serving_and_deliver.py:198 | a cell without line breaks is unchanged, so replacing twice is replacing once |
| `AnalyzeServing.ReplaceJoinedUrls` | src/analyze_serving_and_deliver.py:198 | a URL field joined with blank lines becomes the same urls separated by two blanks |
| `Text.IgnoreCaseIsLowerContains` | src/process_staged_to_serving.py:30-35 | a case-insensitive search finds a pattern iff the lower-cased pattern occurs in the lower-cased text |
| `Text.JoinSplit` | src/process_staged_to_serving.py:137 | joining the pieces of a split gives back the text |
| `Text.SplitJoin` | src/process_staged_to_serving.py:67 | splitting a join gives back the pieces when no piece holds the separator's first character |
| `Text.Strip` | src/process_staged_to_serving.py:138-139 | the result is a piece of the input with only white space around it, and it neither starts nor ends with white space |
| `Dates.ParseDate` | src/process_json_to_staged.py:36 | a name parses only to a date that exists in the calendar |
| `Dates.ParseFormatDate` | src/fetch_json_response.py:39-40 | a directory name written with `%d-%m-%Y` parses back to its date |

## Findings

| source | as written | input that shows it | evidently intended | confidence | as-written member | corrected member |
|---|---|---|---|---|---|---|
| src/process_staged_to_serving.py:108 | with only a company, the answer is put behind "skills fetch failed D " whole | blank description, company "Acme", answer "python, sql D education": the text "skills fetch failed D python, sql D education" cuts into three pieces, the unpacking raises and the run aborts | skills sentinel and the answer's sector "education" | not executed | `LlmFields.CompanyOnlyAnswerStopsRun` | `LlmFields.Classify` |
| src/process_staged_to_serving.py:117 | with only a description, " D unknown" is put behind the whole answer | description "Remote role", no company, answer "python, sql D education": the text cuts into three pieces and the run aborts | the answer's skills "python, sql" and the sector sentinel | not executed | `LlmFields.DescriptionOnlyAnswerStopsRun` | `LlmFields.Classify` |
| src/process_staged_to_serving.py:127 | with both inputs, the answer is cut as it comes, outside the `try` | description and company present, answer "python, sql" with no delimiter: one piece, the unpacking raises and the run aborts | the sentinel pair, as for a failed call | not executed | `LlmFields.UndelimitedAnswerStopsRun` | `LlmFields.Classify` |

The serving pipeline (`StagedToServing.GenerateServingData`) uses the
corrected `LlmFields.GenerateLlmFields`. `StagedToServing.ServingDataAgreesWithAsWritten`
shows that both versions write the same data whenever the code as written
completes. That lemma needs one extra condition: a description-only answer
must not end in "|". With an answer "abc|", the code as written cuts
"abc||||unknown" into "abc" and "|unknown", while the corrected version
gives "abc|" and "unknown" (`LlmFields.TrailingBarShiftsCut`).

## Left out

- The generative-model client, its API key and the five-second pause
  between calls. The model is a parameter `(row position, prompt) -> Option<string>`,
  with `None` for a call that raised. The pause only throttles calls and
  affects no result.
- The HTTP request, the JSON dump, `os.makedirs` and `datetime.now()`. The
  status code, whether the body is JSON, and the two clock readings are
  parameters of `FetchJson.WriteJsonData`, and logging is modelled as the
  returned action. A failing `os.makedirs`, `open` or `json.dump` is not
  modelled.
- Directory scanning, file reading, the parquet and CSV reads and writes,
  and the progress bars. Directory listings, file contents and data frames
  are input sequences, and written files are returned values.
- Connection setup, the orchestration script and configuration loading hold
  no logic. src/connections.py, src/main.py and src/utils/config.py are not
  part of this model.
- The HTML rendering, the CSS and the e-mail delivery of the report are
  string templating over external libraries.
- Server-side SQL behaviour beyond upsert and rollback. Which rows a server
  refuses is a parameter (`rejects`).
- `StagedToServing.SortByCaptureDesc`: the order among rows with equal capture
  text is not stated, because pandas' default sort is not stable and promises
  no order for them.
- `AnalyzeServing.TopCounts`: the order among values with equal counts is not
  stated, because `value_counts` does not specify it.
- `AnalyzeServing.ConvertDateColumn`: a capture text that pandas reads as
  missing ("NaT", "nat", "NAT", "nan", "NaN", "NAN", and the empty text in
  pandas 2) becomes NaT in the code, which `max()` and the equality count
  then skip; the model instead reports it as a conversion failure. A year
  after 2262 makes pandas 2 raise OutOfBoundsDatetime, while the model
  converts it. Neither case arises from the pipeline itself: every capture
  text is a directory name that parsed as dd-mm-yyyy within four days of the
  run (`JsonToStaged.GetLatestDirs`).
- `ServingToMysql.LoadParquetToMysql`: ids are compared as exact strings, as
  under a binary collation. MySQL's default collation for the `VARCHAR`
  primary key ignores case and accents, so a batch with ids "a1" and then
  "A1" leaves one row there (keyed "a1", holding the second record's values)
  but two rows in the model. The same holds for
  `ServingToMysql.ServingRowsLoadIntoMysql` and `ServingToMysql.LoadTwiceMysql`.
  PostgreSQL's `TEXT` key compares exactly, so `ServingToPostgres` is not
  affected.
- `Text.Lower`: only ASCII letters are lower-cased. Python's full Unicode case
  mapping is not modelled, and the same holds for the case-insensitive
  search.
- `Upsert.StringifyFrame`: every missing cell becomes "None", as for an
  object column. The "nan" text of a missing value in a numeric column is not
  modelled, since all the serving columns hold text.
- `LlmFields.GenerateLlmFieldsAgrees`: agreement of the loop as written with
  the corrected loop is promised only when no description-only answer ends
  in "|". Such an answer is cut one character early as written
  (`LlmFields.TrailingBarShiftsCut`), so the two differ there. The same
  condition holds for `LlmFields.ClassifyAgreesWithAsWritten` and
  `StagedToServing.ServingDataAgreesWithAsWritten`.
- A listing without an `id` or without a `jobProviders` array is not
  modelled: `Jobs.Job` has no value for either. In the code a missing
  `jobProviders` cell makes the loop over providers in
  src/process_staged_to_serving.py:59 raise, which aborts the serving step.
- `Dates.ParseDate`: `strptime` is modelled for ASCII digits only, with a
  one- or two-digit day and month and a four-digit year. Other digit forms
  `strptime` accepts are not modelled.

=== FILE: analyze_serving.dfy ===
/** The figures of the daily report built from the serving data: the
    capture dates parsed, the number of rows captured on the latest date,
    the five most frequent locations (latest date only) and sectors (all
    rows), the education-sector rows and whether there are any, and the
    urls cell with its line breaks turned into blanks. The HTML rendering
    and the e-mail are not modelled. */
module AnalyzeServing {
  import opened Types
  import opened Seqs
  import opened Text
  import opened Dates
  import opened Jobs
  import opened StagedToServing

  /** A serving row once its `date_captured` text was parsed. */
  datatype DatedRow = DatedRow(row: ServingRow, captured: Date)

  function ParseRow(r: ServingRow): Result<DatedRow, ()>
  {
    match ParseDate(r.dateCaptured)
    case None => Err(())
    case Some(d) => Ok(DatedRow(r, d))
  }

  /** `convert_date_column`: `pd.to_datetime` with the format `%d-%m-%Y`,
      which raises on the first cell that does not parse (its position is
      the error). */
  function ConvertDateColumn(rows: seq<ServingRow>): (r: Result<seq<DatedRow>, nat>)
    ensures r.Ok? <==> forall i :: 0 <= i < |rows| ==> ParseDate(rows[i].dateCaptured).Some?
    ensures r.Ok? ==> |r.value| == |rows|
    ensures r.Ok? ==> forall i :: 0 <= i < |rows| ==>
              r.value[i].row == rows[i] && ParseDate(rows[i].dateCaptured) == Some(r.value[i].captured)
    ensures r.Err? ==> r.error < |rows| && ParseDate(rows[r.error].dateCaptured).None?
    ensures r.Err? ==> forall i :: 0 <= i < r.error ==> ParseDate(rows[i].dateCaptured).Some?
  {
    var parsed := seq(|rows|, i requires 0 <= i < |rows| => ParseRow(rows[i]));
    assert forall i :: 0 <= i < |rows| ==> (parsed[i].Ok? <==> ParseDate(rows[i].dateCaptured).Some?);
    Collect(parsed)
  }

  /** Serving rows whose capture dates were written with `%d-%m-%Y` always
      convert, each to the date it was written from. */
  lemma ConvertFormattedDates(rows: seq<ServingRow>, dates: seq<Date>)
    requires |dates| == |rows|
    requires forall i :: 0 <= i < |rows| ==> ValidDate(dates[i]) && rows[i].dateCaptured == FormatDate(dates[i])
    ensures ConvertDateColumn(rows).Ok?
    ensures forall i :: 0 <= i < |rows| ==> ConvertDateColumn(rows).value[i] == DatedRow(rows[i], dates[i])
  {
    forall i | 0 <= i < |rows| ensures ParseDate(rows[i].dateCaptured) == Some(dates[i]) {
      ParseFormatDate(dates[i]);
    }
  }

  /** The capture dates, row by row. */
  function Captured(ds: seq<DatedRow>): (r: seq<Date>)
    ensures |r| == |ds| && forall i :: 0 <= i < |ds| ==> r[i] == ds[i].captured
  {
    seq(|ds|, i requires 0 <= i < |ds| => ds[i].captured)
  }

  /** `df["date_captured"].max()`: the chronologically latest date, none
      for an empty frame. */
  function LatestDate(ds: seq<DatedRow>): (r: Option<Date>)
    ensures r.None? <==> ds == []
    ensures r.Some? ==> exists i :: 0 <= i < |ds| && ds[i].captured == r.value
    ensures r.Some? ==> forall i :: 0 <= i < |ds| ==> DateLe(ds[i].captured, r.value)
  {
    if ds == [] then None
    else
      var n := |ds| - 1;
      assert forall i :: 0 <= i < n ==> ds[..n][i] == ds[i];
      match LatestDate(ds[..n])
      case None => Some(ds[n].captured)
      case Some(m) => if DateLe(m, ds[n].captured) then Some(ds[n].captured) else Some(m)
  }

  /** The rows captured on the latest date, in order. */
  function LatestRows(ds: seq<DatedRow>): seq<DatedRow>
  {
    match LatestDate(ds)
    case None => []
    case Some(d) => Filter((x: DatedRow) => x.captured == d, ds)
  }

  lemma {:induction false} FilterDateCount(ds: seq<DatedRow>, d: Date)
    ensures |Filter((x: DatedRow) => x.captured == d, ds)| == Occ(Captured(ds), d)
  {
    if ds != [] {
      FilterDateCount(ds[1..], d);
      assert Captured(ds)[1..] == Captured(ds[1..]);
    }
  }

  /** `count_jobs`: how many rows were captured on the latest date. */
  function CountJobs(ds: seq<DatedRow>): (n: nat)
    ensures ds == [] ==> n == 0
    ensures ds != [] ==> 1 <= n <= |ds|
    ensures ds != [] ==> n == Occ(Captured(ds), LatestDate(ds).value)
  {
    if ds == [] then 0
    else
      var d := LatestDate(ds).value;
      var i :| 0 <= i < |ds| && ds[i].captured == d;
      assert ds[i] in LatestRows(ds);
      FilterDateCount(ds, d);
      |LatestRows(ds)|
  }

  /** A `value_counts` result: each value with its number of occurrences. */
  type Tally = seq<(string, nat)>

  predicate DistinctKeys(t: Tally)
  {
    forall i, j :: 0 <= i < j < |t| ==> t[i].0 != t[j].0
  }

  predicate CountsDesc(t: Tally)
  {
    forall i, j :: 0 <= i < j < |t| ==> t[i].1 >= t[j].1
  }

  /** Every entry of `t` counts its value's occurrences in `vs`. */
  predicate ExactCounts(t: Tally, vs: seq<string>)
  {
    forall i :: 0 <= i < |t| ==> t[i].0 in vs && t[i].1 == Occ(vs, t[i].0)
  }

  predicate IsKeyOf(t: Tally, v: string)
  {
    exists i :: 0 <= i < |t| && t[i].0 == v
  }

  /** The distinct values of `vs`, in order of first appearance. */
  function Keys(vs: seq<string>): (ks: seq<string>)
    ensures Distinct(ks)
    ensures forall i :: 0 <= i < |vs| ==> vs[i] in ks
    ensures forall i :: 0 <= i < |ks| ==> ks[i] in vs
  {
    if vs == [] then []
    else
      var n := |vs| - 1;
      var ks := Keys(vs[..n]);
      assert forall i :: 0 <= i < n ==> vs[..n][i] == vs[i];
      if vs[n] in ks then ks else ks + [vs[n]]
  }

  /** Each distinct value with its count, in order of first appearance. */
  function TallyOf(vs: seq<string>): (t: Tally)
    ensures DistinctKeys(t) && ExactCounts(t, vs)
    ensures forall i :: 0 <= i < |vs| ==> (vs[i], Occ(vs, vs[i])) in t
  {
    var ks := Keys(vs);
    var t := seq(|ks|, i requires 0 <= i < |ks| => (ks[i], Occ(vs, ks[i])));
    assert forall i :: 0 <= i < |vs| ==> (vs[i], Occ(vs, vs[i])) in t by {
      forall i | 0 <= i < |vs| ensures (vs[i], Occ(vs, vs[i])) in t {
        var k :| 0 <= k < |ks| && ks[k] == vs[i];
        assert t[k] == (vs[i], Occ(vs, vs[i]));
      }
    }
    t
  }

  /** Inserts `x` before the first entry with a smaller count. */
  function InsertDesc(x: (string, nat), t: Tally): (r: Tally)
    ensures multiset(r) == multiset(t) + multiset{x}
    ensures CountsDesc(t) ==> CountsDesc(r)
  {
    if t == [] then [x]
    else if x.1 >= t[0].1 then [x] + t
    else
      var rest := InsertDesc(x, t[1..]);
      assert t == [t[0]] + t[1..];
      assert CountsDesc(t) ==> CountsDesc([t[0]] + rest) by {
        if CountsDesc(t) {
          InsertBelowHead(x, t, rest);
        }
      }
      [t[0]] + rest
  }

  /** Inserting below the head of a sorted tally keeps the head first. */
  lemma InsertBelowHead(x: (string, nat), t: Tally, rest: Tally)
    requires t != [] && CountsDesc(t) && x.1 < t[0].1
    requires multiset(rest) == multiset(t[1..]) + multiset{x} && CountsDesc(rest)
    ensures CountsDesc([t[0]] + rest)
  {
    forall k | 0 <= k < |rest| ensures rest[k].1 <= t[0].1 {
      assert rest[k] in multiset(rest);
      if rest[k] != x {
        assert rest[k] in multiset(t[1..]);
        var m :| 0 <= m < |t[1..]| && t[1..][m] == rest[k];
        assert t[m + 1] == rest[k];
      }
    }
    var r := [t[0]] + rest;
    forall i, j | 0 <= i < j < |r| ensures r[i].1 >= r[j].1 {
      assert r[j] == rest[j - 1];
      if i > 0 {
        assert r[i] == rest[i - 1];
      }
    }
  }

  /** Sorts a tally into non-increasing counts. */
  function SortDesc(t: Tally): (r: Tally)
    ensures multiset(r) == multiset(t)
    ensures CountsDesc(r)
  {
    if t == [] then []
    else
      assert t == [t[0]] + t[1..];
      InsertDesc(t[0], SortDesc(t[1..]))
  }

  function Min(a: int, b: int): int
  {
    if a <= b then a else b
  }

  /** The sorted tally of `vs` counts exactly, has distinct keys, and
      holds every value of `vs`. */
  lemma SortedTally(vs: seq<string>)
    ensures DistinctKeys(SortDesc(TallyOf(vs))) && ExactCounts(SortDesc(TallyOf(vs)), vs)
    ensures forall i :: 0 <= i < |vs| ==> (vs[i], Occ(vs, vs[i])) in SortDesc(TallyOf(vs))
  {
    var t := TallyOf(vs);
    var s := SortDesc(t);
    forall i | 0 <= i < |s| ensures s[i].0 in vs && s[i].1 == Occ(vs, s[i].0) {
      assert s[i] in multiset(t);
    }
    assert Distinct(t) by {
      forall i, j | 0 <= i < j < |t| ensures t[i] != t[j] { }
    }
    DistinctPermutation(t, s);
    forall i | 0 <= i < |vs| ensures (vs[i], Occ(vs, vs[i])) in s {
      assert (vs[i], Occ(vs, vs[i])) in multiset(t);
    }
  }

  /** An entry left out of a prefix of a sorted tally counts no more than
      the prefix's last entry, and the prefix is not the whole tally. */
  lemma PrefixMaximal(s: Tally, n: nat, e: (string, nat))
    requires CountsDesc(s) && n <= |s| && e in s && !IsKeyOf(s[..n], e.0)
    ensures n < |s| && (n == 0 || e.1 <= s[n - 1].1)
  {
    var m :| 0 <= m < |s| && s[m] == e;
    if m < n {
      assert false;
    }
  }

  /** A prefix of a tally keeps its distinct keys, exact counts and
      order. */
  lemma PrefixKeeps(s: Tally, n: nat, vs: seq<string>)
    requires n <= |s| && DistinctKeys(s) && ExactCounts(s, vs) && CountsDesc(s)
    ensures DistinctKeys(s[..n]) && ExactCounts(s[..n], vs) && CountsDesc(s[..n])
  {
    assert forall i :: 0 <= i < n ==> s[..n][i] == s[i];
  }

  /** No value outside the top `k` entries of a sorted tally that holds
      every value's count counts more than the last of them. */
  lemma TopMaximal(s: Tally, vs: seq<string>, k: nat)
    requires CountsDesc(s)
    requires forall i :: 0 <= i < |vs| ==> (vs[i], Occ(vs, vs[i])) in s
    ensures var r := s[..Min(k, |s|)];
            forall v :: v in vs && !IsKeyOf(r, v) ==> |r| == k && (k == 0 || Occ(vs, v) <= r[k - 1].1)
  {
    var n := Min(k, |s|);
    forall v | v in vs && !IsKeyOf(s[..n], v)
      ensures |s[..n]| == k && (k == 0 || Occ(vs, v) <= s[..n][k - 1].1)
    {
      var i :| 0 <= i < |vs| && vs[i] == v;
      PrefixMaximal(s, n, (v, Occ(vs, v)));
    }
  }

  /** `value_counts().head(k)`: the `k` most frequent values with their
      counts, most frequent first. Among equal counts the order is not
      specified, and none is promised here. */
  function TopCounts(vs: seq<string>, k: nat): (r: Tally)
    ensures |r| <= k
    ensures DistinctKeys(r) && ExactCounts(r, vs) && CountsDesc(r)
    ensures forall v :: v in vs && !IsKeyOf(r, v) ==> |r| == k && (k == 0 || Occ(vs, v) <= r[k - 1].1)
  {
    var s := SortDesc(TallyOf(vs));
    SortedTally(vs);
    PrefixKeeps(s, Min(k, |s|), vs);
    TopMaximal(s, vs, k);
    s[..Min(k, |s|)]
  }

  function SumCounts(t: Tally): nat
  {
    if t == [] then 0 else t[0].1 + SumCounts(t[1..])
  }

  function KeySeq(t: Tally): (ks: seq<string>)
    ensures |ks| == |t| && forall i :: 0 <= i < |t| ==> ks[i] == t[i].0
  {
    seq(|t|, i requires 0 <= i < |t| => t[i].0)
  }

  lemma {:induction false} SumCountsIsSumOcc(t: Tally, vs: seq<string>)
    requires ExactCounts(t, vs)
    ensures SumCounts(t) == SumOcc(KeySeq(t), vs)
  {
    if t != [] {
      assert KeySeq(t)[1..] == KeySeq(t[1..]);
      SumCountsIsSumOcc(t[1..], vs);
    }
  }

  /** The counts of a tally add up to at most the number of values tallied. */
  lemma TallySumBound(t: Tally, vs: seq<string>)
    requires DistinctKeys(t) && ExactCounts(t, vs)
    ensures SumCounts(t) <= |vs|
  {
    SumCountsIsSumOcc(t, vs);
    SumOccBound(KeySeq(t), vs);
  }

  /** The present values of a column; `value_counts` skips missing ones. */
  function PresentValues(cells: seq<Option<string>>): (vs: seq<string>)
    ensures |vs| <= |cells|
    ensures forall i :: 0 <= i < |cells| && cells[i].Some? ==> cells[i].value in vs
    ensures forall v :: Occ(vs, v) == Occ(cells, Some(v))
  {
    if cells == [] then []
    else
      var rest := PresentValues(cells[1..]);
      assert forall i :: 1 <= i < |cells| ==> cells[1..][i - 1] == cells[i];
      var vs := if cells[0].Some? then [cells[0].value] + rest else rest;
      assert cells[0].Some? ==> vs[1..] == rest;
      vs
  }

  function LocationCells(ds: seq<DatedRow>): seq<Option<string>>
  {
    seq(|ds|, i requires 0 <= i < |ds| => ds[i].row.location)
  }

  function Sectors(ds: seq<DatedRow>): seq<string>
  {
    seq(|ds|, i requires 0 <= i < |ds| => ds[i].row.sector)
  }

  /** `identify_top_locations`: the five most frequent locations among the
      rows of the latest date; a missing location is not counted. */
  function IdentifyTopLocations(ds: seq<DatedRow>): (r: Tally)
    ensures |r| <= 5 && DistinctKeys(r) && CountsDesc(r)
    ensures forall i :: 0 <= i < |r| ==> r[i].1 == Occ(PresentValues(LocationCells(LatestRows(ds))), r[i].0)
    ensures SumCounts(r) <= CountJobs(ds)
    ensures forall i :: 0 <= i < |r| ==> r[i].1 == Occ(LocationCells(LatestRows(ds)), Some(r[i].0))
    ensures forall v :: v in PresentValues(LocationCells(LatestRows(ds))) && !IsKeyOf(r, v) ==>
      |r| == 5 && Occ(PresentValues(LocationCells(LatestRows(ds))), v) <= r[4].1
  {
    var vs := PresentValues(LocationCells(LatestRows(ds)));
    var r := TopCounts(vs, 5);
    TallySumBound(r, vs);
    r
  }

  /** `identify_top_sectors`: the five most frequent sectors over all rows,
      whatever their capture date. */
  function IdentifyTopSectors(ds: seq<DatedRow>): (r: Tally)
    ensures |r| <= 5 && DistinctKeys(r) && CountsDesc(r)
    ensures forall i :: 0 <= i < |r| ==> r[i].1 == Occ(Sectors(ds), r[i].0)
    ensures SumCounts(r) <= |ds|
    ensures forall v :: v in Sectors(ds) && !IsKeyOf(r, v) ==> |r| == 5 && Occ(Sectors(ds), v) <= r[4].1
  {
    var r := TopCounts(Sectors(ds), 5);
    TallySumBound(r, Sectors(ds));
    r
  }

  /** The row's sector mentions "edu", in any letter case. */
  predicate IsEducation(x: DatedRow)
  {
    ContainsIgnoreCase(x.row.sector, "edu")
  }

  /** The presence check's own test: "edu" occurs in the lower-cased
      sector. */
  predicate MentionsEdu(x: DatedRow)
  {
    Contains(Lower(x.row.sector), "edu")
  }

  /** The presence check's test and the filter's agree on every row. */
  lemma MentionsEduIsEducation(x: DatedRow)
    ensures MentionsEdu(x) <==> IsEducation(x)
  {
    IgnoreCaseIsLowerContains(x.row.sector, "edu");
    LowerOfLowerCase("edu");
  }

  /** `check_education_jobs_presence`: whether some sector, lower-cased,
      contains "edu". */
  function CheckEducationJobsPresence(ds: seq<DatedRow>): (b: bool)
    ensures b <==> exists i :: 0 <= i < |ds| && MentionsEdu(ds[i])
  {
    if ds == [] then false
    else
      assert forall i :: 1 <= i < |ds| ==> ds[1..][i - 1] == ds[i];
      MentionsEdu(ds[0]) || CheckEducationJobsPresence(ds[1..])
  }

  /** `filter_education_jobs`: the education rows, in order; there are some
      exactly when the presence check says so. */
  function FilterEducationJobs(ds: seq<DatedRow>): (r: seq<DatedRow>)
    ensures IsSubseq(r, ds)
    ensures forall i :: 0 <= i < |r| ==> IsEducation(r[i])
    ensures forall i :: 0 <= i < |ds| && IsEducation(ds[i]) ==> ds[i] in r
    ensures r != [] <==> CheckEducationJobsPresence(ds)
    ensures forall x :: multiset(r)[x] == if IsEducation(x) then multiset(ds)[x] else 0
  {
    FilterIsSubseq(IsEducation, ds);
    FilterMultiset(IsEducation, ds);
    var r := Filter(IsEducation, ds);
    forall i | 0 <= i < |ds| ensures MentionsEdu(ds[i]) <==> IsEducation(ds[i]) {
      MentionsEduIsEducation(ds[i]);
    }
    assert r != [] ==> CheckEducationJobsPresence(ds) by {
      if r != [] {
        var i :| 0 <= i < |ds| && ds[i] == r[0];
      }
    }
    r
  }

  /** `replace_newline_with_space` on one urls cell. */
  function ReplaceNewlineWithSpace(s: string): (r: string)
    ensures |r| == |s| && '\n' !in r
    ensures forall i :: 0 <= i < |s| ==> r[i] == if s[i] == '\n' then ' ' else s[i]
  {
    ReplaceChar(s, '\n', ' ')
  }

  lemma ReplaceAppend(a: string, b: string)
    ensures ReplaceNewlineWithSpace(a + b) == ReplaceNewlineWithSpace(a) + ReplaceNewlineWithSpace(b)
  {
    var l, r := ReplaceNewlineWithSpace(a + b), ReplaceNewlineWithSpace(a) + ReplaceNewlineWithSpace(b);
    forall k | 0 <= k < |l| ensures l[k] == r[k] {
      if k < |a| {
        assert (a + b)[k] == a[k];
      } else {
        assert (a + b)[k] == b[k - |a|];
      }
    }
  }

  /** A cell without line breaks is left as it is; so replacing twice is
      replacing once. */
  lemma ReplaceNewlineFree(s: string)
    requires '\n' !in s
    ensures ReplaceNewlineWithSpace(s) == s
  {
  }

  /** A urls cell joined with blank lines reads, after the replacement, as
      the same urls separated by two blanks. */
  lemma {:induction false} ReplaceJoinedUrls(urls: seq<string>)
    requires forall i :: 0 <= i < |urls| ==> '\n' !in urls[i]
    ensures ReplaceNewlineWithSpace(Join(urls, UrlSeparator)) == Join(urls, "  ")
  {
    if |urls| == 1 {
      ReplaceNewlineFree(urls[0]);
    } else if |urls| > 1 {
      ReplaceJoinedUrls(urls[1..]);
      ReplaceAppend(urls[0] + UrlSeparator, Join(urls[1..], UrlSeparator));
      ReplaceAppend(urls[0], UrlSeparator);
      ReplaceNewlineFree(urls[0]);
      assert ReplaceNewlineWithSpace(UrlSeparator) == "  ";
    }
  }
}

=== FILE: dates.dfy ===
/** Calendar dates as the pipeline names its capture directories: parsing
    with the `%d-%m-%Y` format, formatting with `strftime`, and the
    proleptic Gregorian day numbering Python's `datetime` computes with. */
module Dates {
  import opened Types
  import opened Text

  datatype Date = Date(year: int, month: int, day: int)

  /** A clock reading: a date and a time of day down to the microsecond. */
  datatype DateTime = DateTime(date: Date, hour: int, minute: int, second: int, microsecond: int)

  predicate IsLeapYear(y: int)
  {
    y % 4 == 0 && (y % 100 != 0 || y % 400 == 0)
  }

  function DaysInMonth(y: int, m: int): int
    requires 1 <= m <= 12
  {
    if m == 2 then (if IsLeapYear(y) then 29 else 28)
    else if m == 4 || m == 6 || m == 9 || m == 11 then 30
    else 31
  }

  /** The dates `datetime.date` can represent. */
  predicate ValidDate(d: Date)
  {
    1 <= d.year <= 9999 && 1 <= d.month <= 12 && 1 <= d.day <= DaysInMonth(d.year, d.month)
  }

  predicate ValidDateTime(t: DateTime)
  {
    ValidDate(t.date) && 0 <= t.hour < 24 && 0 <= t.minute < 60 && 0 <= t.second < 60 &&
    0 <= t.microsecond < 1000000
  }

  /** Chronological order of dates, comparing year, then month, then day. */
  predicate DateLe(a: Date, b: Date)
  {
    a.year < b.year ||
    (a.year == b.year && (a.month < b.month || (a.month == b.month && a.day <= b.day)))
  }

  predicate IsDigit(c: char)
  {
    '0' <= c <= '9'
  }

  function DigitValue(c: char): int
    requires IsDigit(c)
  {
    c as int - '0' as int
  }

  function DigitChar(n: int): (c: char)
    requires 0 <= n <= 9
    ensures IsDigit(c) && DigitValue(c) == n
  {
    (n + '0' as int) as char
  }

  /** Value of two decimal digits. */
  function TwoDigits(a: char, b: char): int
    requires IsDigit(a) && IsDigit(b)
  {
    10 * DigitValue(a) + DigitValue(b)
  }

  /** A `%d` field: one digit 1-9, a blank then a digit 1-9, or two digits
      with value 01-31. */
  function DayField(t: string): (r: Option<int>)
    ensures r.Some? ==> 1 <= r.value <= 31
  {
    if |t| == 1 && IsDigit(t[0]) && t[0] != '0' then Some(DigitValue(t[0]))
    else if |t| == 2 && t[0] == ' ' && IsDigit(t[1]) && t[1] != '0' then Some(DigitValue(t[1]))
    else if |t| == 2 && IsDigit(t[0]) && IsDigit(t[1]) && 1 <= TwoDigits(t[0], t[1]) <= 31 then
      Some(TwoDigits(t[0], t[1]))
    else None
  }

  /** A `%m` field: one digit 1-9, or two digits with value 01-12. */
  function MonthField(t: string): (r: Option<int>)
    ensures r.Some? ==> 1 <= r.value <= 12
  {
    if |t| == 1 && IsDigit(t[0]) && t[0] != '0' then Some(DigitValue(t[0]))
    else if |t| == 2 && IsDigit(t[0]) && IsDigit(t[1]) && 1 <= TwoDigits(t[0], t[1]) <= 12 then
      Some(TwoDigits(t[0], t[1]))
    else None
  }

  /** A `%Y` field: exactly four digits. */
  function YearField(t: string): (r: Option<int>)
    ensures r.Some? ==> 0 <= r.value <= 9999
  {
    if |t| == 4 && IsDigit(t[0]) && IsDigit(t[1]) && IsDigit(t[2]) && IsDigit(t[3]) then
      Some(100 * TwoDigits(t[0], t[1]) + TwoDigits(t[2], t[3]))
    else None
  }

  /** `datetime.strptime(s, "%d-%m-%Y")`; `None` is the `ValueError`. None
      of the three fields can hold a hyphen, so the first two hyphens of
      `s` delimit them; the whole string must be consumed, and the date
      must exist in the calendar. */
  function ParseDate(s: string): (r: Option<Date>)
    ensures r.Some? ==> ValidDate(r.value)
  {
    match FindFrom(s, "-", 0)
    case None => None
    case Some(i) =>
      var rest := s[i + 1..];
      match FindFrom(rest, "-", 0)
      case None => None
      case Some(j) =>
        match (DayField(s[..i]), MonthField(rest[..j]), YearField(rest[j + 1..]))
        case (Some(d), Some(m), Some(y)) =>
          if ValidDate(Date(y, m, d)) then Some(Date(y, m, d)) else None
        case _ => None
  }

  /** A number below 100 as two zero-padded digits. */
  function Pad2(n: int): (s: string)
    requires 0 <= n < 100
    ensures |s| == 2 && IsDigit(s[0]) && IsDigit(s[1]) && TwoDigits(s[0], s[1]) == n
  {
    [DigitChar(n / 10), DigitChar(n % 10)]
  }

  /** A number below 10000 as four zero-padded digits. */
  function Pad4(n: int): (s: string)
    requires 0 <= n < 10000
    ensures |s| == 4 && forall k :: 0 <= k < 4 ==> IsDigit(s[k])
    ensures 100 * TwoDigits(s[0], s[1]) + TwoDigits(s[2], s[3]) == n
  {
    Pad2(n / 100) + Pad2(n % 100)
  }

  /** `d.strftime("%d-%m-%Y")`, with the year written as four digits. */
  function FormatDate(d: Date): string
    requires ValidDate(d)
  {
    Pad2(d.day) + "-" + Pad2(d.month) + "-" + Pad4(d.year)
  }

  /** The hyphen at index `k` is the first one in `s`. */
  lemma FirstHyphen(s: string, k: nat)
    requires k < |s| && s[k] == '-'
    requires forall j :: 0 <= j < k ==> s[j] != '-'
    ensures FindFrom(s, "-", 0) == Some(k)
  {
    assert OccursAt(s, "-", k) by {
      assert s[k..k + 1] == [s[k]];
    }
    forall j | 0 <= j < k ensures !OccursAt(s, "-", j) {
      assert s[j..j + 1] == [s[j]];
    }
    FindFromIs(s, "-", k);
  }

  /** A directory name written by `FormatDate` parses back to its date. */
  lemma ParseFormatDate(d: Date)
    requires ValidDate(d)
    ensures ParseDate(FormatDate(d)) == Some(d)
  {
    var dd, mm, yy := Pad2(d.day), Pad2(d.month), Pad4(d.year);
    var s := FormatDate(d);
    assert s == dd + "-" + mm + "-" + yy;
    FirstHyphen(s, 2);
    var rest := s[3..];
    assert rest == mm + "-" + yy;
    FirstHyphen(rest, 2);
    assert s[..2] == dd;
    assert rest[..2] == mm;
    assert rest[3..] == yy;
    assert DayField(dd) == Some(d.day);
    assert MonthField(mm) == Some(d.month);
    assert YearField(yy) == Some(d.year);
  }

  /** Days in the years before `y`, as `datetime` counts them. */
  function DaysBeforeYear(y: int): int
    requires y >= 1
  {
    var p := y - 1;
    p * 365 + p / 4 - p / 100 + p / 400
  }

  /** Days in the months of year `y` before month `m`. */
  function DaysBeforeMonth(y: int, m: int): int
    requires 1 <= m <= 12
  {
    if m == 1 then 0 else DaysBeforeMonth(y, m - 1) + DaysInMonth(y, m - 1)
  }

  /** `d.toordinal()`: 1 for 0001-01-01, counting one per day. */
  function Ordinal(d: Date): int
    requires ValidDate(d)
  {
    DaysBeforeYear(d.year) + DaysBeforeMonth(d.year, d.month) + d.day
  }

  const MicrosPerDay: int := 86_400_000_000

  /** Microseconds since the start of the day. */
  function TimeOfDay(t: DateTime): int
  {
    ((t.hour * 60 + t.minute) * 60 + t.second) * 1000000 + t.microsecond
  }

  /** A clock reading as a microsecond count, the scale `datetime`
      arithmetic works on. */
  function Instant(t: DateTime): int
    requires ValidDate(t.date)
  {
    Ordinal(t.date) * MicrosPerDay + TimeOfDay(t)
  }
}

=== FILE: fetch_json.dfy ===
/** The fetch step: `get_query_strings` expands the configured queries and
    result-page indices into one API request each, and `write_json_data`
    decides, from a response's status code, whether the listings are saved
    and under which path. The HTTP request, the JSON dump and the clock are
    not modelled: the status code and the two clock readings are
    parameters. */
module FetchJson {
  import opened Types
  import opened Text
  import opened Dates

  /** The `job_params` section of the configuration. The values that are
      only passed through to the API are kept as text. */
  datatype JobParams = JobParams(
    queries: seq<string>,
    location: string,
    language: string,
    remoteOnly: string,
    datePosted: string,
    employmentTypes: string,
    indices: seq<int>)

  /** The parameters of one API request. */
  datatype QueryString = QueryString(
    query: string,
    location: string,
    language: string,
    remoteOnly: string,
    datePosted: string,
    employmentTypes: string,
    index: int)

  /** The request for one query and one page index. */
  function MakeQuery(p: JobParams, query: string, index: int): QueryString
  {
    QueryString(query, p.location, p.language, p.remoteOnly, p.datePosted, p.employmentTypes, index)
  }

  /** The request carries the configured values every request shares. */
  predicate SharesParams(q: QueryString, p: JobParams)
  {
    q.location == p.location && q.language == p.language && q.remoteOnly == p.remoteOnly &&
    q.datePosted == p.datePosted && q.employmentTypes == p.employmentTypes
  }

  /** The requests for one query, one per page index, in index order. */
  function QueryRow(p: JobParams, query: string, indices: seq<int>): (r: seq<QueryString>)
    ensures |r| == |indices|
    ensures forall j :: 0 <= j < |indices| ==> r[j] == MakeQuery(p, query, indices[j])
  {
    seq(|indices|, j requires 0 <= j < |indices| => MakeQuery(p, query, indices[j]))
  }

  /** The requests for some queries, query by query. */
  function Product(p: JobParams, queries: seq<string>): seq<QueryString>
  {
    if queries == [] then []
    else
      var m := |queries| - 1;
      Product(p, queries[..m]) + QueryRow(p, queries[m], p.indices)
  }

  lemma MulMono(a: int, b: int, n: nat)
    requires a <= b
    ensures a * n <= b * n
  {
  }

  /** Position `i * n + j` lies in the block of row `i`. */
  lemma BlockBounds(i: int, j: int, m: int, n: int)
    requires 0 <= i < m && 0 <= j < n
    ensures i * n <= i * n + j < (i + 1) * n <= m * n
  {
    MulMono(i + 1, m, n);
  }

  lemma {:induction false} ProductLength(p: JobParams, queries: seq<string>)
    ensures |Product(p, queries)| == |queries| * |p.indices|
  {
    if queries != [] {
      var m := |queries| - 1;
      ProductLength(p, queries[..m]);
      assert |queries| * |p.indices| == m * |p.indices| + |p.indices|;
    }
  }

  /** Request `i * |indices| + j` is query `i` with index `j`: queries in
      the outer order, indices in the inner. */
  lemma {:induction false} ProductAt(p: JobParams, queries: seq<string>, i: int, j: int)
    requires 0 <= i < |queries| && 0 <= j < |p.indices|
    ensures i * |p.indices| + j < |Product(p, queries)|
    ensures Product(p, queries)[i * |p.indices| + j] == MakeQuery(p, queries[i], p.indices[j])
  {
    var n := |p.indices|;
    var m := |queries| - 1;
    var init := queries[..m];
    var prev := Product(p, init);
    var row := QueryRow(p, queries[m], p.indices);
    ProductLength(p, init);
    ProductLength(p, queries);
    BlockBounds(i, j, |queries|, n);
    var k := i * n + j;
    if i < m {
      BlockBounds(i, j, m, n);
      ProductAt(p, init, i, j);
      assert (prev + row)[k] == prev[k];
    } else {
      assert k - |prev| == j;
      assert (prev + row)[k] == row[j];
    }
  }

  /** Euclidean division by a positive divisor splits a position into a
      block and an offset within it. */
  lemma DivBlock(k: int, m: int, n: int)
    requires 0 <= k < m * n && n > 0
    ensures 0 <= k / n < m && 0 <= k % n < n
  {
    var i := k / n;
    assert k == i * n + k % n;
    if i >= m {
      MulMono(m, i, n);
    }
  }

  /** Every request position belongs to one query and one index. */
  lemma ProductPosition(p: JobParams, queries: seq<string>, k: int)
    requires 0 <= k < |Product(p, queries)|
    ensures 0 < |p.indices| && k / |p.indices| < |queries|
    ensures Product(p, queries)[k] == MakeQuery(p, queries[k / |p.indices|], p.indices[k % |p.indices|])
  {
    ProductLength(p, queries);
    var n := |p.indices|;
    assert n > 0;
    DivBlock(k, |queries|, n);
    var i, j := k / n, k % n;
    assert k == i * n + j;
    ProductAt(p, queries, i, j);
  }

  /** Every request of the expansion carries the shared configured
      values. */
  lemma {:induction false} ProductShares(p: JobParams, queries: seq<string>)
    ensures forall k :: 0 <= k < |Product(p, queries)| ==> SharesParams(Product(p, queries)[k], p)
  {
    if queries != [] {
      var m := |queries| - 1;
      var prev := Product(p, queries[..m]);
      var row := QueryRow(p, queries[m], p.indices);
      ProductShares(p, queries[..m]);
      forall k | 0 <= k < |prev + row| ensures SharesParams((prev + row)[k], p) {
        if k < |prev| {
          assert (prev + row)[k] == prev[k];
        } else {
          assert (prev + row)[k] == row[k - |prev|];
        }
      }
    }
  }

  /** `get_query_strings`: for each query, for each page index, one request
      appended, so the result is the query-major expansion (see `ProductAt`
      and `ProductPosition` for its order), and every request shares the
      other configured values. */
  method GetQueryStrings(p: JobParams) returns (qs: seq<QueryString>)
    ensures qs == Product(p, p.queries)
    ensures |qs| == |p.queries| * |p.indices|
    ensures forall k :: 0 <= k < |qs| ==> SharesParams(qs[k], p)
  {
    qs := [];
    var a := 0;
    while a < |p.queries|
      invariant 0 <= a <= |p.queries|
      invariant qs == Product(p, p.queries[..a])
    {
      var query := p.queries[a];
      var b := 0;
      while b < |p.indices|
        invariant 0 <= b <= |p.indices|
        invariant qs == Product(p, p.queries[..a]) + QueryRow(p, query, p.indices[..b])
      {
        qs := qs + [MakeQuery(p, query, p.indices[b])];
        b := b + 1;
        assert QueryRow(p, query, p.indices[..b]) ==
               QueryRow(p, query, p.indices[..b - 1]) + [MakeQuery(p, query, p.indices[b - 1])];
      }
      assert p.indices[..b] == p.indices;
      assert p.queries[..a + 1][..a] == p.queries[..a];
      a := a + 1;
    }
    assert p.queries[..a] == p.queries;
    ProductLength(p, p.queries);
    ProductShares(p, p.queries);
  }

  /** `os.path.join(a, b)` for two components on POSIX. */
  function PathJoin(a: string, b: string): string
  {
    if |b| > 0 && b[0] == '/' then b
    else if a == [] || a[|a| - 1] == '/' then a + b
    else a + "/" + b
  }

  /** `t.strftime("%Y%m%d_%H%M%S")`. */
  function Timestamp(t: DateTime): string
    requires ValidDateTime(t)
  {
    Pad4(t.date.year) + Pad2(t.date.month) + Pad2(t.date.day) + "_" +
    Pad2(t.hour) + Pad2(t.minute) + Pad2(t.second)
  }

  /** Reads a `%Y%m%d_%H%M%S` stamp back; the stamp has no microseconds. */
  function ReadStamp(s: string): Option<DateTime>
  {
    if |s| == 15 && s[8] == '_' &&
       (forall k :: 0 <= k < 15 && k != 8 ==> IsDigit(s[k]))
    then
      Some(DateTime(
        Date(100 * TwoDigits(s[0], s[1]) + TwoDigits(s[2], s[3]),
             TwoDigits(s[4], s[5]), TwoDigits(s[6], s[7])),
        TwoDigits(s[9], s[10]), TwoDigits(s[11], s[12]), TwoDigits(s[13], s[14]), 0))
    else None
  }

  /** A stamp reads back as the clock reading it was written from, to the
      second. */
  lemma ReadTimestamp(t: DateTime)
    requires ValidDateTime(t)
    ensures ReadStamp(Timestamp(t)) == Some(t.(microsecond := 0))
  {
    var y, mo, d := Pad4(t.date.year), Pad2(t.date.month), Pad2(t.date.day);
    var h, mi, se := Pad2(t.hour), Pad2(t.minute), Pad2(t.second);
    var s := Timestamp(t);
    assert s == y + mo + d + "_" + h + mi + se;
    assert s[..4] == y && s[4..6] == mo && s[6..8] == d;
    assert s[9..11] == h && s[11..13] == mi && s[13..15] == se;
    assert s[8] == '_';
  }

  /** What `write_json_data` does with a response. `Raise` is the
      exception from `response.json()` on a body that is not JSON; it
      carries the status when that was logged first. */
  datatype Action = SaveJson(path: string) | LogPlanUpgrade | LogError(status: int) | Raise(logged: Option<int>)

  /** `write_json_data` for a response with status `status` whose body
      `bodyIsJson` or not, the raw-data folder `raw`, and the clock read
      twice: `dayClock` names the day's folder, `stampClock` stamps the
      file name. */
  function WriteJsonData(raw: string, status: int, bodyIsJson: bool,
                         dayClock: DateTime, stampClock: DateTime): (a: Action)
    requires ValidDateTime(dayClock) && ValidDateTime(stampClock)
    ensures a.Raise? <==> !bodyIsJson
    ensures a.SaveJson? <==> status == 200 && bodyIsJson
    ensures a.LogPlanUpgrade? <==> status == 429 && bodyIsJson
    ensures a.LogError? <==> status != 200 && status != 429 && bodyIsJson
    ensures a.LogError? ==> a.status == status
    // only the third branch logs the status before decoding the body
    ensures a.Raise? ==> (a.logged.Some? <==> status != 200 && status != 429)
    ensures a.Raise? && a.logged.Some? ==> a.logged.value == status
    ensures a.SaveJson? ==>
              exists folder, stamp ::
                a.path == PathJoin(PathJoin(raw, folder), "job_data_" + stamp + ".json") &&
                folder == FormatDate(dayClock.date) && |folder| == 10 &&
                ParseDate(folder) == Some(dayClock.date) &&
                stamp == Timestamp(stampClock) &&
                ReadStamp(stamp) == Some(stampClock.(microsecond := 0))
  {
    if status == 200 then
      if !bodyIsJson then Raise(None)
      else
        var folder := FormatDate(dayClock.date);
        var stamp := Timestamp(stampClock);
        ParseFormatDate(dayClock.date);
        ReadTimestamp(stampClock);
        SaveJson(PathJoin(PathJoin(raw, folder), "job_data_" + stamp + ".json"))
    else if status == 429 then
      if bodyIsJson then LogPlanUpgrade else Raise(None)
    else if bodyIsJson then LogError(status)
    else Raise(Some(status))
  }

  /** One server response: its status, whether its body is JSON, and the
      clock readings taken while handling it. */
  datatype Response = Response(status: int, bodyIsJson: bool, dayClock: DateTime, stampClock: DateTime)

  predicate ValidClocks(rs: seq<Response>)
  {
    forall i :: 0 <= i < |rs| ==> ValidDateTime(rs[i].dayClock) && ValidDateTime(rs[i].stampClock)
  }

  function Handle(raw: string, r: Response): Action
    requires ValidDateTime(r.dayClock) && ValidDateTime(r.stampClock)
  {
    WriteJsonData(raw, r.status, r.bodyIsJson, r.dayClock, r.stampClock)
  }

  /** The actions in order up to and including the first `Raise`: what a
      loop does when an exception ends it. */
  function UntilRaise(acts: seq<Action>): (r: seq<Action>)
    ensures r <= acts
    ensures forall i :: 0 <= i < |r| - 1 ==> !r[i].Raise?
    ensures |r| < |acts| ==> r != [] && r[|r| - 1].Raise?
    ensures (forall i :: 0 <= i < |acts| ==> !acts[i].Raise?) ==> r == acts
  {
    if acts == [] then []
    else if acts[0].Raise? then [acts[0]]
    else
      var rest := UntilRaise(acts[1..]);
      assert acts == [acts[0]] + acts[1..];
      [acts[0]] + rest
  }

  /** Every response handled, in order. */
  function HandleAll(raw: string, rs: seq<Response>): (acts: seq<Action>)
    requires ValidClocks(rs)
    ensures |acts| == |rs|
    ensures forall i :: 0 <= i < |rs| ==> acts[i] == Handle(raw, rs[i])
  {
    seq(|rs|, i requires 0 <= i < |rs| => Handle(raw, rs[i]))
  }

  /** The loop of `generate_jsons`, given the response to each query string
      in order: each response is handled in turn, and the first one that
      raises ends the run. */
  function GenerateJsons(raw: string, rs: seq<Response>): (acts: seq<Action>)
    requires ValidClocks(rs)
    ensures |acts| <= |rs|
    ensures forall i :: 0 <= i < |acts| ==> acts[i] == Handle(raw, rs[i])
    ensures forall i :: 0 <= i < |acts| - 1 ==> !acts[i].Raise?
    ensures |acts| < |rs| ==> acts != [] && acts[|acts| - 1].Raise?
    ensures (forall i :: 0 <= i < |rs| ==> rs[i].bodyIsJson) ==> |acts| == |rs|
  {
    var all := HandleAll(raw, rs);
    var acts := UntilRaise(all);
    assert forall i :: 0 <= i < |acts| ==> acts[i] == all[i];
    acts
  }
}

=== FILE: jobs.dfy ===
/** The records that flow through the pipeline: a listing as the listings
    API returns it, the staged row, and the serving row. A text field that
    a listing's JSON object lacks (a null cell of the data frame) is
    `None`. The `id` and the `jobProviders` array are taken to be present
    in every listing: the type has no value for a missing one. */
module Jobs {
  import opened Types

  /** One entry of a listing's `jobProviders` array; only `url` is read. */
  datatype Provider = Provider(url: Option<string>)

  /** One job listing, one element of a response's `jobs` array. */
  datatype Job = Job(
    id: string,
    title: Option<string>,
    company: Option<string>,
    location: Option<string>,
    description: Option<string>,
    employmentType: Option<string>,
    salaryRange: Option<string>,
    datePosted: Option<string>,
    jobProviders: seq<Provider>)

  /** A staged row: a listing tagged (`date_captured`) with the name of the
      capture directory it was read from. */
  datatype StagedRow = StagedRow(job: Job, dateCaptured: string)

  /** A row of the serving data: the eleven output columns. */
  datatype ServingRow = ServingRow(
    id: string,
    title: Option<string>,
    company: Option<string>,
    skills: string,
    sector: string,
    location: Option<string>,
    employmentType: Option<string>,
    salaryRange: Option<string>,
    urls: string,
    datePosted: Option<string>,
    dateCaptured: string)

  /** The serving data's columns, in output order. */
  const ServingColumns: seq<string> := [
    "id", "title", "company", "skills_llm_gen", "sector_llm_gen", "location",
    "employmentType", "salaryRange", "urls", "datePosted", "date_captured"]

  /** A serving row's cells, in `ServingColumns` order, as
      `itertuples` yields them. */
  function ServingCells(r: ServingRow): (cells: seq<Option<string>>)
    ensures |cells| == |ServingColumns|
  {
    [Some(r.id), r.title, r.company, Some(r.skills), Some(r.sector), r.location,
     r.employmentType, r.salaryRange, Some(r.urls), r.datePosted, Some(r.dateCaptured)]
  }
}

=== FILE: json_to_staged.dfy ===
/** Staging (`process_json_to_staged.py`): choose the capture directories
    of the last four days, read every JSON response in them, tag each
    listing with its directory's name, concatenate, and drop repeated
    listing ids keeping the first. The directory listing, the files' parsed
    contents and the clock are given as values. */
module JsonToStaged {
  import opened Types
  import opened Seqs
  import opened Text
  import opened Dates
  import opened Jobs

  /** A file of a capture directory, with the `jobs` array of its JSON
      content (only `.json` files are ever opened). */
  datatype File = File(name: string, jobs: seq<Job>)

  /** An entry of the raw-data directory, in `os.listdir` order. */
  datatype Entry = Entry(name: string, isDir: bool, files: seq<File>)

  /** The exceptions of a staging run: `strptime` rejecting a directory name,
      and `pd.concat` of an empty list. */
  datatype StageError = BadDirectoryName(name: string) | NothingToConcatenate

  /** `now - timedelta(days=4) <= d <= now`, for `d` at midnight. */
  predicate InWindow(d: Date, now: DateTime)
    requires ValidDate(d) && ValidDate(now.date)
  {
    Instant(now) - 4 * MicrosPerDay <= Ordinal(d) * MicrosPerDay <= Instant(now)
  }

  /** A directory whose name `strptime` rejects. */
  predicate IsBadDir(e: Entry)
  {
    e.isDir && ParseDate(e.name).None?
  }

  /** Entry `i` is the first directory whose name `strptime` rejects. */
  predicate IsFirstBadDir(entries: seq<Entry>, i: int)
  {
    0 <= i < |entries| && IsBadDir(entries[i]) && forall j :: 0 <= j < i ==> !IsBadDir(entries[j])
  }

  /** A directory whose name is a date inside the window. */
  predicate IsRecent(e: Entry, now: DateTime)
    requires ValidDateTime(now)
  {
    e.isDir && ParseDate(e.name).Some? && InWindow(ParseDate(e.name).value, now)
  }

  /** `get_latest_dirs`: the recent directories, in listing order. Plain
      files are skipped; the first directory whose name is not a
      `dd-mm-yyyy` date raises. */
  function GetLatestDirs(entries: seq<Entry>, now: DateTime): (r: Result<seq<Entry>, StageError>)
    requires ValidDateTime(now)
    ensures r.Err? <==> exists i :: 0 <= i < |entries| && IsBadDir(entries[i])
    ensures r.Err? ==> exists i :: IsFirstBadDir(entries, i) && r.error == BadDirectoryName(entries[i].name)
    ensures r.Ok? ==> IsSubseq(r.value, entries)
    ensures r.Ok? ==> forall e :: e in r.value <==> e in entries && IsRecent(e, now)
  {
    if entries == [] then Ok([])
    else if IsBadDir(entries[0]) then Err(BadDirectoryName(entries[0].name))
    else
      match GetLatestDirs(entries[1..], now)
      case Err(err) =>
        assert exists i :: IsFirstBadDir(entries, i) && err == BadDirectoryName(entries[i].name) by {
          var i :| IsFirstBadDir(entries[1..], i) && err == BadDirectoryName(entries[1..][i].name);
          assert forall j :: 1 <= j < i + 1 ==> entries[j] == entries[1..][j - 1];
          assert IsFirstBadDir(entries, i + 1);
        }
        Err(err)
      case Ok(rest) =>
        if IsRecent(entries[0], now) then
          assert ([entries[0]] + rest)[1..] == rest;
          Ok([entries[0]] + rest)
        else Ok(rest)
  }

  /** The window counted in whole days: the four days ending today, or five
      when the clock reads exactly midnight. */
  lemma WindowInDays(d: Date, now: DateTime)
    requires ValidDate(d) && ValidDateTime(now)
    ensures InWindow(d, now) <==>
      Ordinal(now.date) - (if TimeOfDay(now) == 0 then 4 else 3) <= Ordinal(d) <= Ordinal(now.date)
  {
    var n, t, k := Ordinal(now.date), TimeOfDay(now), Ordinal(d);
    assert 0 <= t < MicrosPerDay;
    assert Instant(now) == n * MicrosPerDay + t;
    var delta := k - n + 4;
    assert k * MicrosPerDay - (Instant(now) - 4 * MicrosPerDay) == delta * MicrosPerDay - t;
    assert Instant(now) - k * MicrosPerDay == (n - k) * MicrosPerDay + t;
    if delta <= 0 {
      assert delta * MicrosPerDay <= 0;
    } else {
      assert delta * MicrosPerDay >= MicrosPerDay;
    }
    if n - k < 0 {
      assert (n - k) * MicrosPerDay <= -MicrosPerDay;
    } else {
      assert (n - k) * MicrosPerDay >= 0;
    }
  }

  predicate IsJsonFile(f: File)
  {
    EndsWith(f.name, ".json")
  }

  /** The JSON files of a directory, in listing order. */
  function JsonFiles(e: Entry): seq<File>
  {
    Filter(IsJsonFile, e.files)
  }

  /** The listings of some files, file by file. */
  function JobsOf(files: seq<File>): (jobs: seq<Job>)
    ensures forall j :: j in jobs ==> exists f :: f in files && j in f.jobs
    ensures forall f, j :: f in files && j in f.jobs ==> j in jobs
  {
    if files == [] then [] else files[0].jobs + JobsOf(files[1..])
  }

  /** Listings tagged with a capture directory's name. */
  function Tag(jobs: seq<Job>, name: string): (rows: seq<StagedRow>)
    ensures |rows| == |jobs|
    ensures forall k :: 0 <= k < |jobs| ==> rows[k].job == jobs[k] && rows[k].dateCaptured == name
  {
    seq(|jobs|, k requires 0 <= k < |jobs| => StagedRow(jobs[k], name))
  }

  /** The rows of some directories, directory by directory. */
  function RowsOf(dirs: seq<Entry>): seq<StagedRow>
  {
    if dirs == [] then [] else Tag(JobsOf(JsonFiles(dirs[0])), dirs[0].name) + RowsOf(dirs[1..])
  }

  /** A row comes from a JSON file of one of `dirs` and carries that
      directory's name. */
  predicate FromDirectory(row: StagedRow, dirs: seq<Entry>)
  {
    exists e :: e in dirs && row.dateCaptured == e.name &&
      exists f :: f in JsonFiles(e) && row.job in f.jobs
  }

  /** The concatenation step of `write_staged_data`: each directory must
      hold a JSON file, and there must be a directory, or `pd.concat` of an
      empty list raises. */
  function ConcatDirectories(dirs: seq<Entry>): (r: Result<seq<StagedRow>, StageError>)
    ensures r.Ok? <==> dirs != [] && forall e :: e in dirs ==> JsonFiles(e) != []
    ensures r.Err? ==> r.error == NothingToConcatenate
    ensures r.Ok? ==> r.value == RowsOf(dirs)
    ensures r.Ok? ==> forall row :: row in r.value ==> FromDirectory(row, dirs)
    ensures r.Ok? ==> forall row :: FromDirectory(row, dirs) ==> row in r.value
  {
    if dirs == [] || exists e :: e in dirs && JsonFiles(e) == [] then Err(NothingToConcatenate)
    else
      RowsFromDirectories(dirs);
      DirectoriesGiveRows(dirs);
      Ok(RowsOf(dirs))
  }

  lemma {:induction false} DirectoriesGiveRows(dirs: seq<Entry>)
    ensures forall row :: FromDirectory(row, dirs) ==> row in RowsOf(dirs)
  {
    if dirs != [] {
      DirectoriesGiveRows(dirs[1..]);
      var e := dirs[0];
      var jobs := JobsOf(JsonFiles(e));
      var tagged := Tag(jobs, e.name);
      forall row | FromDirectory(row, dirs) ensures row in RowsOf(dirs) {
        var d :| d in dirs && row.dateCaptured == d.name &&
          exists f :: f in JsonFiles(d) && row.job in f.jobs;
        if d == e {
          assert row.job in jobs;
          var k :| 0 <= k < |jobs| && jobs[k] == row.job;
          assert tagged[k] == row;
          assert row in tagged;
        } else {
          assert d in dirs[1..];
          assert FromDirectory(row, dirs[1..]);
        }
      }
    }
  }

  lemma {:induction false} RowsFromDirectories(dirs: seq<Entry>)
    ensures forall row :: row in RowsOf(dirs) ==> FromDirectory(row, dirs)
  {
    if dirs != [] {
      RowsFromDirectories(dirs[1..]);
      var e := dirs[0];
      var tagged := Tag(JobsOf(JsonFiles(e)), e.name);
      forall row | row in RowsOf(dirs) ensures FromDirectory(row, dirs) {
        if row in tagged {
          var k :| 0 <= k < |tagged| && tagged[k] == row;
          assert row.job in JobsOf(JsonFiles(e));
          var f :| f in JsonFiles(e) && row.job in f.jobs;
          assert e in dirs && row.dateCaptured == e.name;
        } else {
          assert row in RowsOf(dirs[1..]);
          var d :| d in dirs[1..] && row.dateCaptured == d.name &&
            exists f :: f in JsonFiles(d) && row.job in f.jobs;
          assert d in dirs;
        }
      }
    }
  }

  /** The listing ids of some rows. */
  function Ids(rows: seq<StagedRow>): set<string>
  {
    set r | r in rows :: r.job.id
  }

  /** No listing id occurs twice. */
  predicate UniqueIds(rows: seq<StagedRow>)
  {
    forall i, j :: 0 <= i < j < |rows| ==> rows[i].job.id != rows[j].job.id
  }

  /** Row `k` is the first row with its id. */
  predicate IsFirstWithId(rows: seq<StagedRow>, k: int)
    requires 0 <= k < |rows|
  {
    forall j :: 0 <= j < k ==> rows[j].job.id != rows[k].job.id
  }

  /** `x` is the first row of `rows` with its id. */
  predicate IsFirstOf(rows: seq<StagedRow>, x: StagedRow)
  {
    exists k :: 0 <= k < |rows| && rows[k] == x && IsFirstWithId(rows, k)
  }

  /** Each row of `out` is the first row of `rows` with its id. */
  predicate FirstsOf(out: seq<StagedRow>, rows: seq<StagedRow>)
  {
    forall i :: 0 <= i < |out| ==> IsFirstOf(rows, out[i])
  }

  /** Rows that were firsts of `init` stay firsts once a row is appended. */
  lemma FirstsOfExtend(prev: seq<StagedRow>, init: seq<StagedRow>, last: StagedRow)
    requires FirstsOf(prev, init)
    ensures FirstsOf(prev, init + [last])
  {
    var rows := init + [last];
    forall i | 0 <= i < |prev|
      ensures IsFirstOf(rows, prev[i])
    {
      var k :| 0 <= k < |init| && init[k] == prev[i] && IsFirstWithId(init, k);
      assert forall j :: 0 <= j < |init| ==> rows[j] == init[j];
      assert IsFirstWithId(rows, k);
      assert 0 <= k < |rows| && rows[k] == prev[i];
    }
    assert FirstsOf(prev, rows);
  }

  /** Appending a row with a new id adds one more first. */
  lemma FirstsOfAppendNew(prev: seq<StagedRow>, init: seq<StagedRow>, last: StagedRow)
    requires FirstsOf(prev, init)
    requires last.job.id !in Ids(init)
    ensures FirstsOf(prev + [last], init + [last])
  {
    var rows := init + [last];
    FirstsOfExtend(prev, init, last);
    assert IsFirstWithId(rows, |rows| - 1) by {
      forall j | 0 <= j < |rows| - 1 ensures rows[j].job.id != last.job.id {
        assert rows[j] == init[j] && init[j] in init;
      }
    }
    var out := prev + [last];
    forall i | 0 <= i < |out|
      ensures IsFirstOf(rows, out[i])
    {
      if i < |prev| {
        assert out[i] == prev[i];
      } else {
        assert rows[|rows| - 1] == out[i];
      }
    }
  }

  /** Appending a row with a new id keeps ids unique. */
  lemma UniqueIdsAppend(prev: seq<StagedRow>, last: StagedRow)
    requires UniqueIds(prev) && last.job.id !in Ids(prev)
    ensures UniqueIds(prev + [last])
  {
    var out := prev + [last];
    forall i, j | 0 <= i < j < |out| ensures out[i].job.id != out[j].job.id {
      if j == |prev| {
        assert out[i] == prev[i] && prev[i] in prev;
      } else {
        assert out[i] == prev[i] && out[j] == prev[j];
      }
    }
  }

  /** `drop_duplicates(subset=["id"])` with its default `keep="first"`,
      defined row by row from the end: a row survives when no earlier row
      has its id. */
  function KeepFirst(rows: seq<StagedRow>): (out: seq<StagedRow>)
    ensures UniqueIds(out)
    ensures Ids(out) == Ids(rows)
  {
    if rows == [] then []
    else
      var init, last := rows[..|rows| - 1], rows[|rows| - 1];
      var prev := KeepFirst(init);
      assert rows == init + [last];
      assert Ids(rows) == Ids(init) + {last.job.id};
      if last.job.id in Ids(init) then prev
      else
        UniqueIdsAppend(prev, last);
        assert Ids(prev + [last]) == Ids(prev) + {last.job.id};
        prev + [last]
  }

  /** The survivors keep their relative order, and each is the first row
      of the input with its id. */
  lemma {:induction false} KeepFirstKeepsFirsts(rows: seq<StagedRow>)
    ensures IsSubseq(KeepFirst(rows), rows)
    ensures FirstsOf(KeepFirst(rows), rows)
  {
    if rows != [] {
      var init, last := rows[..|rows| - 1], rows[|rows| - 1];
      var prev := KeepFirst(init);
      KeepFirstKeepsFirsts(init);
      assert rows == init + [last];
      if last.job.id in Ids(init) {
        SubseqAppendRight(prev, init, last);
        FirstsOfExtend(prev, init, last);
      } else {
        SubseqAppendBoth(prev, init, last);
        FirstsOfAppendNew(prev, init, last);
      }
    }
  }

  /** Rows whose ids are already unique lose nothing to deduplication. */
  lemma {:induction false} KeepFirstOfUnique(rows: seq<StagedRow>)
    requires UniqueIds(rows)
    ensures KeepFirst(rows) == rows
  {
    if rows != [] {
      var init, last := rows[..|rows| - 1], rows[|rows| - 1];
      assert UniqueIds(init) by {
        forall i, j | 0 <= i < j < |init| ensures init[i].job.id != init[j].job.id {
          assert init[i] == rows[i] && init[j] == rows[j];
        }
      }
      KeepFirstOfUnique(init);
      assert last.job.id !in Ids(init) by {
        forall r | r in init ensures r.job.id != last.job.id {
          var j :| 0 <= j < |init| && init[j] == r;
          assert rows[j] == r;
        }
      }
      assert rows == init + [last];
      assert KeepFirst(rows) == KeepFirst(init) + [last];
    }
  }

  /** Deduplicating twice is deduplicating once. */
  lemma KeepFirstIdempotent(rows: seq<StagedRow>)
    ensures KeepFirst(KeepFirst(rows)) == KeepFirst(rows)
  {
    KeepFirstOfUnique(KeepFirst(rows));
  }

  /** `drop_duplicates` as pandas computes it: one pass in order with the
      set of ids seen so far. */
  method DropDuplicates(rows: seq<StagedRow>) returns (out: seq<StagedRow>)
    ensures out == KeepFirst(rows)
    ensures UniqueIds(out)
    ensures Ids(out) == Ids(rows)
    ensures IsSubseq(out, rows)
    ensures FirstsOf(out, rows)
  {
    out := [];
    var seen: set<string> := {};
    var i := 0;
    while i < |rows|
      invariant 0 <= i <= |rows|
      invariant out == KeepFirst(rows[..i])
      invariant seen == Ids(rows[..i])
    {
      assert rows[..i + 1][..i] == rows[..i];
      assert Ids(rows[..i + 1]) == Ids(rows[..i]) + {rows[i].job.id};
      if rows[i].job.id !in seen {
        out := out + [rows[i]];
        seen := seen + {rows[i].job.id};
      }
      i := i + 1;
    }
    assert rows[..i] == rows;
    KeepFirstKeepsFirsts(rows);
  }

  /** `write_staged_data`: the staged rows of a run, or the exception that
      aborts it. */
  method WriteStagedData(entries: seq<Entry>, now: DateTime) returns (r: Result<seq<StagedRow>, StageError>)
    requires ValidDateTime(now)
    ensures r.Ok? <==>
      (GetLatestDirs(entries, now).Ok? && ConcatDirectories(GetLatestDirs(entries, now).value).Ok?)
    ensures r.Ok? ==> UniqueIds(r.value)
    ensures r.Ok? ==> Ids(r.value) == Ids(RowsOf(GetLatestDirs(entries, now).value))
    ensures r.Ok? ==> FirstsOf(r.value, RowsOf(GetLatestDirs(entries, now).value))
    ensures r.Ok? ==> IsSubseq(r.value, RowsOf(GetLatestDirs(entries, now).value))
    ensures r.Ok? ==> r.value == KeepFirst(RowsOf(GetLatestDirs(entries, now).value))
    ensures r.Ok? ==> forall row :: row in r.value ==>
      exists e :: e in entries && IsRecent(e, now) && row.dateCaptured == e.name
  {
    var latest := GetLatestDirs(entries, now);
    if latest.Err? {
      return Err(latest.error);
    }
    var combined := ConcatDirectories(latest.value);
    if combined.Err? {
      return Err(combined.error);
    }
    var out := DropDuplicates(combined.value);
    forall row | row in out
      ensures exists e :: e in entries && IsRecent(e, now) && row.dateCaptured == e.name
    {
      var i :| 0 <= i < |out| && out[i] == row;
      assert IsFirstOf(combined.value, out[i]);
      var k :| 0 <= k < |combined.value| && combined.value[k] == out[i] && IsFirstWithId(combined.value, k);
      assert FromDirectory(combined.value[k], latest.value);
    }
    return Ok(out);
  }
}

=== FILE: llm_fields.dfy ===
/** Skills and sector generation (`generate_llm_fields` in
    `process_staged_to_serving.py`). For each relevant listing a prompt is
    built from its company and description, a generative model answers in
    the form "skills|||sector", and the answer is cut at the delimiter.

    The model is a parameter: given the row's position and the prompt it
    returns the response text, or `None` when the call raises (the source
    logs the error and falls back to the sentinel pair).

    Two versions are given. `GenerateLlm`, `SplitFields` and
    `GenerateLlmFieldsAsWritten` follow the code as written, where an answer that
    does not cut into exactly two pieces stops the whole run. `Classify`
    and `GenerateLlmFields` are the corrected behaviour that the serving pipeline
    uses; `ClassifyAgreesWithAsWritten` shows the two agree wherever the
    code as written succeeds. */
module LlmFields {
  import opened Types
  import opened Seqs
  import opened Text
  import opened Jobs

  /** Skills value when no skills could be generated. */
  const SkillsFailed: string := "skills fetch failed"
  /** Sector value when no sector could be generated. */
  const UnknownSector: string := "unknown"
  /** Separates skills from sector in a model answer. */
  const FieldDelimiter: string := "|||"

  /** The instruction appended to every prompt (a triple-quoted template
      whose `format()` has nothing to substitute). */
  const BasePrompt: string :=
    "\n    Read the job description and the company name, then provide keywords of the top 8 required skills and the sector the company belongs to.\n    Format this as a string\n    skill1, skill2, skill3, skill4, skill5, skill6, skill7, skill8|||sector\n\n    No explanations, unique keywords, no duplicates. Be brief.\n    "

  /** The generative model: row position and prompt to the response text,
      `None` when the call raises. */
  type Model = (nat, string) -> Option<string>

  /** A null or empty cell (`pd.isnull(x) or x == ""`). */
  predicate IsBlank(cell: Option<string>)
  {
    cell.None? || cell.value == ""
  }

  /** The prompt sent for a listing: company and/or description, each
      followed by a newline, then the instruction. There is none when both
      are blank. */
  function Prompt(description: Option<string>, company: Option<string>): Option<string>
  {
    PromptWith(description, company, BasePrompt)
  }

  /** The prompt built around any instruction text. */
  function PromptWith(description: Option<string>, company: Option<string>, instruction: string): (r: Option<string>)
    ensures r.None? <==> IsBlank(description) && IsBlank(company)
    ensures r.Some? ==> EndsWith(r.value, instruction)
    ensures r.Some? && !IsBlank(company) ==> company.value + "\n" <= r.value
    ensures r.Some? && IsBlank(company) ==> description.value + "\n" <= r.value
    ensures r.Some? && !IsBlank(description) ==> Contains(r.value, description.value + "\n" + instruction)
  {
    if IsBlank(description) then
      if IsBlank(company) then None else Some(company.value + "\n" + instruction)
    else
      var tail := description.value + "\n" + instruction;
      var p := if IsBlank(company) then tail else company.value + "\n" + tail;
      assert OccursAt(p, tail, |p| - |tail|);
      Some(p)
  }

  /** The model's answer for the row at position `i`: no call at all when
      there is no prompt. */
  function Reply(row: StagedRow, i: nat, model: Model): Option<string>
  {
    match Prompt(row.job.description, row.job.company)
    case None => None
    case Some(p) => model(i, p)
  }

  /** The sentinel pair, joined as the code returns it. */
  const FailedResult: string := SkillsFailed + FieldDelimiter + UnknownSector

  // ---------------------------------------------------------------------
  // As written

  /** `generate_llm` as written: the text to be cut into skills and sector.
      Newlines are removed from the model's answer; with only a company the
      skills sentinel is put in front, with only a description the sector
      sentinel is put behind, and with both the answer is used as is. */
  function GenerateLlm(description: Option<string>, company: Option<string>,
                       reply: Option<string>): (r: string)
    ensures '\n' !in r
    ensures reply.None? || (IsBlank(description) && IsBlank(company)) ==> r == FailedResult
    ensures IsBlank(description) ==> SkillsFailed + FieldDelimiter <= r
    ensures !IsBlank(description) && IsBlank(company) ==> EndsWith(r, FieldDelimiter + UnknownSector)
    ensures reply.Some? && IsBlank(description) && !IsBlank(company) ==>
      r == SkillsFailed + FieldDelimiter + RemoveChar(reply.value, '\n')
    ensures reply.Some? && !IsBlank(description) && IsBlank(company) ==>
      r == RemoveChar(reply.value, '\n') + FieldDelimiter + UnknownSector
    ensures reply.Some? && !IsBlank(description) && !IsBlank(company) ==>
      r == RemoveChar(reply.value, '\n')
  {
    if reply.None? || (IsBlank(description) && IsBlank(company)) then FailedResult
    else
      var t := RemoveChar(reply.value, '\n');
      if IsBlank(description) then SkillsFailed + FieldDelimiter + t
      else if IsBlank(company) then
        var r := t + FieldDelimiter + UnknownSector;
        assert r[|r| - |FieldDelimiter + UnknownSector|..] == FieldDelimiter + UnknownSector;
        r
      else t
  }

  /** `skills, sector = result.split("|||")` followed by `strip()` of both:
      defined only when the cut gives exactly two pieces; otherwise the
      unpacking raises. */
  function SplitFields(result: string): (r: Option<(string, string)>)
    ensures r.Some? <==> |Split(result, FieldDelimiter)| == 2
    ensures r.Some? ==> IsTrimmed(r.value.0) && IsTrimmed(r.value.1)
  {
    var parts := Split(result, FieldDelimiter);
    if |parts| == 2 then Some((Strip(parts[0]), Strip(parts[1]))) else None
  }

  /** A text that cuts into two pieces gives those pieces, stripped. */
  lemma SplitFieldsOfTwo(g: string, a: string, b: string)
    requires Split(g, FieldDelimiter) == [a, b]
    ensures SplitFields(g) == Some((Strip(a), Strip(b)))
  {
  }

  /** Cutting a well-formed "skills|||sector" text gives back both fields,
      stripped. */
  lemma SplitFieldsOfPair(a: string, b: string)
    requires '|' !in a && '|' !in b
    ensures SplitFields(a + FieldDelimiter + b) == Some((Strip(a), Strip(b)))
  {
    assert FieldDelimiter[0] == '|';
    SplitPrefix(a, b, FieldDelimiter);
    NoOccurrenceWithoutFirstChar(b, FieldDelimiter);
    assert Split(b, FieldDelimiter) == [b];
    assert Split(a + FieldDelimiter + b, FieldDelimiter) == [a, b];
  }

  lemma SentinelsFree()
    ensures '|' !in SkillsFailed && '|' !in UnknownSector
  {
  }

  /** Neither sentinel has white space at its ends. */
  lemma SentinelsTrimmed()
    ensures IsTrimmed(SkillsFailed) && IsTrimmed(UnknownSector)
  {
    assert SkillsFailed[0] == 's' && SkillsFailed[|SkillsFailed| - 1] == 'd';
    assert UnknownSector[0] == 'u' && UnknownSector[|UnknownSector| - 1] == 'n';
  }

  /** Cutting a well-formed text whose fields are already stripped gives
      back exactly those fields. */
  lemma SplitFieldsOfTrimmedPair(a: string, b: string)
    requires '|' !in a && '|' !in b && IsTrimmed(a) && IsTrimmed(b)
    ensures SplitFields(a + FieldDelimiter + b) == Some((a, b))
  {
    SplitFieldsOfPair(a, b);
    StripTrimmed(a);
    StripTrimmed(b);
  }

  /** The sentinel pair survives the cut unchanged. */
  lemma FailedResultSplits(r: string)
    requires r == FailedResult
    ensures SplitFields(r) == Some((SkillsFailed, UnknownSector))
  {
    SentinelsFree();
    SentinelsTrimmed();
    SplitFieldsOfTrimmedPair(SkillsFailed, UnknownSector);
  }

  /** Why a run stopped: the row at position `row` gave a text that cut
      into `pieces` pieces instead of two. */
  datatype EnrichError = UnpackError(row: nat, pieces: nat)

  /** One loop iteration as written. */
  function AsWrittenFields(row: StagedRow, i: nat, model: Model): (r: Result<(string, string), EnrichError>)
    ensures r.Err? ==> r.error.row == i
  {
    var result := GenerateLlm(row.job.description, row.job.company, Reply(row, i, model));
    match SplitFields(result)
    case None => Err(UnpackError(i, |Split(result, FieldDelimiter)|))
    case Some(fields) => Ok(fields)
  }

  /** Each row's outcome as written, in order. */
  function AsWrittenResults(rows: seq<StagedRow>, model: Model): (rs: seq<Result<(string, string), EnrichError>>)
    ensures |rs| == |rows|
    ensures forall i :: 0 <= i < |rows| ==> rs[i] == AsWrittenFields(rows[i], i, model)
  {
    seq(|rows|, i requires 0 <= i < |rows| => AsWrittenFields(rows[i], i, model))
  }

  /** The loop over all rows as written: the first row whose text does not
      cut into two pieces stops the run; otherwise one field pair per row,
      in order. */
  function GenerateLlmFieldsAsWritten(rows: seq<StagedRow>, model: Model): (r: Result<seq<(string, string)>, EnrichError>)
    ensures r.Ok? <==> forall i :: 0 <= i < |rows| ==> AsWrittenFields(rows[i], i, model).Ok?
    ensures r.Ok? ==> |r.value| == |rows|
    ensures r.Ok? ==> forall i :: 0 <= i < |rows| ==> r.value[i] == AsWrittenFields(rows[i], i, model).value
    ensures r.Err? ==> r.error.row < |rows|
    ensures r.Err? ==> AsWrittenFields(rows[r.error.row], r.error.row, model) == Err(r.error)
    ensures r.Err? ==> forall i :: 0 <= i < r.error.row ==> AsWrittenFields(rows[i], i, model).Ok?
  {
    var rs := AsWrittenResults(rows, model);
    match Collect(rs)
    case Ok(v) => Ok(v)
    case Err(k) => Err(rs[k].error)
  }

  // ---------------------------------------------------------------------
  // Corrected

  /** The pieces of an answer, newlines removed, cut at the delimiter. */
  function AnswerPieces(answer: string): seq<string>
  {
    Split(RemoveChar(answer, '\n'), FieldDelimiter)
  }

  /** The skills and sector for one listing, as the prompt and the
      fallbacks intend: the sentinels when there is no answer; with only a
      company the skills sentinel and the answer's sector part (the whole
      answer when it has no delimiter); with only a description the answer's
      skills part and the sector sentinel; with both, the two parts of a
      well-formed answer or the sentinels for a malformed one. */
  function Classify(description: Option<string>, company: Option<string>,
                    reply: Option<string>): (r: (string, string))
    ensures reply.None? || (IsBlank(description) && IsBlank(company)) ==> r == (SkillsFailed, UnknownSector)
    ensures IsBlank(description) ==> r.0 == SkillsFailed
    ensures !IsBlank(description) && IsBlank(company) ==> r.1 == UnknownSector
    ensures IsTrimmed(r.0) && IsTrimmed(r.1)
    // with both present: the two stripped pieces of a well-formed answer, else the sentinels
    ensures reply.Some? && !IsBlank(description) && !IsBlank(company) ==>
      r == BothPieces(reply.value)
    // with only a company: the sector piece, or the whole answer when it has no delimiter
    ensures reply.Some? && IsBlank(description) && !IsBlank(company) ==>
      r.1 == OnePiece(reply.value, 1, UnknownSector)
    // with only a description: the skills piece, or the whole answer when it has no delimiter
    ensures reply.Some? && !IsBlank(description) && IsBlank(company) ==>
      r.0 == OnePiece(reply.value, 0, SkillsFailed)
  {
    if reply.None? || (IsBlank(description) && IsBlank(company)) then (SkillsFailed, UnknownSector)
    else
      if IsBlank(description) then (SkillsFailed, OnePiece(reply.value, 1, UnknownSector))
      else if IsBlank(company) then (OnePiece(reply.value, 0, SkillsFailed), UnknownSector)
      else BothPieces(reply.value)
  }

  /** Both fields from an answer to a prompt with both inputs: the two
      pieces, stripped, of an answer that cuts into two; the sentinels
      otherwise. */
  function BothPieces(answer: string): (r: (string, string))
    ensures |AnswerPieces(answer)| == 2 ==> r == (Strip(AnswerPieces(answer)[0]), Strip(AnswerPieces(answer)[1]))
    ensures |AnswerPieces(answer)| != 2 ==> r == (SkillsFailed, UnknownSector)
    ensures IsTrimmed(r.0) && IsTrimmed(r.1)
  {
    var parts := AnswerPieces(answer);
    if |parts| == 2 then (Strip(parts[0]), Strip(parts[1])) else (SkillsFailed, UnknownSector)
  }

  /** The one field a one-sided answer supplies: the whole answer
      (newlines removed), stripped, when it has no delimiter; piece `k` of a
      two-piece answer, stripped; otherwise the sentinel `fallback`. */
  function OnePiece(answer: string, k: nat, fallback: string): (r: string)
    requires k < 2
    ensures |AnswerPieces(answer)| == 1 ==> r == Strip(RemoveChar(answer, '\n'))
    ensures |AnswerPieces(answer)| == 2 ==> r == Strip(AnswerPieces(answer)[k])
    ensures |AnswerPieces(answer)| > 2 ==> r == fallback
    ensures IsTrimmed(fallback) ==> IsTrimmed(r)
  {
    var parts := AnswerPieces(answer);
    if |parts| == 1 then Strip(RemoveChar(answer, '\n')) else if |parts| == 2 then Strip(parts[k]) else fallback
  }

  /** An answer of the requested shape "a|||b" gives both stripped parts
      to a two-sided prompt and the wanted stripped part to a one-sided one. */
  lemma PiecesOfPair(a: string, b: string, fallback: string)
    requires '|' !in a && '|' !in b && '\n' !in a && '\n' !in b
    ensures BothPieces(a + FieldDelimiter + b) == (Strip(a), Strip(b))
    ensures OnePiece(a + FieldDelimiter + b, 0, fallback) == Strip(a)
    ensures OnePiece(a + FieldDelimiter + b, 1, fallback) == Strip(b)
  {
    RemoveAbsentChar(a + FieldDelimiter + b, '\n');
    assert FieldDelimiter[0] == '|';
    SplitPrefix(a, b, FieldDelimiter);
    NoOccurrenceWithoutFirstChar(b, FieldDelimiter);
    assert Split(b, FieldDelimiter) == [b];
    assert AnswerPieces(a + FieldDelimiter + b) == [a, b];
  }

  /** An answer without the delimiter is malformed for a two-sided prompt
      and is taken whole, stripped, by a one-sided one. */
  lemma PiecesOfUndelimited(a: string, k: nat, fallback: string)
    requires k < 2
    requires '|' !in a && '\n' !in a
    ensures BothPieces(a) == (SkillsFailed, UnknownSector)
    ensures OnePiece(a, k, fallback) == Strip(a)
  {
    RemoveAbsentChar(a, '\n');
    assert FieldDelimiter[0] == '|';
    NoOccurrenceWithoutFirstChar(a, FieldDelimiter);
    assert AnswerPieces(a) == [a];
  }

  /** An answer with the delimiter twice is malformed for either prompt
      and gives the sentinels. */
  lemma PiecesOfTriple(a: string, b: string, c: string, k: nat, fallback: string)
    requires k < 2
    requires '|' !in a && '|' !in b && '|' !in c && '\n' !in a && '\n' !in b && '\n' !in c
    ensures BothPieces(a + FieldDelimiter + b + FieldDelimiter + c) == (SkillsFailed, UnknownSector)
    ensures OnePiece(a + FieldDelimiter + b + FieldDelimiter + c, k, fallback) == fallback
  {
    var t := b + FieldDelimiter + c;
    assert a + FieldDelimiter + b + FieldDelimiter + c == a + FieldDelimiter + t;
    RemoveAbsentChar(a + FieldDelimiter + t, '\n');
    assert FieldDelimiter[0] == '|';
    SplitPrefix(a, t, FieldDelimiter);
    SplitPrefix(b, c, FieldDelimiter);
    NoOccurrenceWithoutFirstChar(c, FieldDelimiter);
    assert Split(c, FieldDelimiter) == [c];
    assert |AnswerPieces(a + FieldDelimiter + t)| == 3;
  }

  /** With both a description and a company, an answer of the requested
      shape "skills|||sector" gives back both parts, stripped. */
  lemma ClassifyWellFormed(description: Option<string>, company: Option<string>, a: string, b: string)
    requires !IsBlank(description) && !IsBlank(company)
    requires '|' !in a && '|' !in b && '\n' !in a && '\n' !in b
    ensures Classify(description, company, Some(a + FieldDelimiter + b)) == (Strip(a), Strip(b))
  {
    RemoveAbsentChar(a + FieldDelimiter + b, '\n');
    SplitFieldsOfPair(a, b);
  }

  /** The condition under which the description-only branch as written
      cuts where intended: the answer (newlines removed) does not end with
      the delimiter's character. */
  predicate CutsCleanly(description: Option<string>, company: Option<string>, reply: Option<string>)
  {
    reply.Some? && !IsBlank(description) && IsBlank(company) ==>
      EndsOtherThan(RemoveChar(reply.value, '\n'), '|')
  }

  /** Wherever the code as written produces fields, the corrected version
      produces the same ones. */
  lemma ClassifyAgreesWithAsWritten(description: Option<string>, company: Option<string>,
                                    reply: Option<string>)
    requires SplitFields(GenerateLlm(description, company, reply)).Some?
    requires CutsCleanly(description, company, reply)
    ensures SplitFields(GenerateLlm(description, company, reply)).value == Classify(description, company, reply)
  {
    if reply.None? || (IsBlank(description) && IsBlank(company)) {
      FailedResultSplits(GenerateLlm(description, company, reply));
    } else if IsBlank(description) {
      CompanyOnlyAgrees(description, company, reply.value);
    } else if IsBlank(company) {
      DescriptionOnlyAgrees(description, company, reply.value);
    } else {
      BothPresentAgrees(description, company, reply.value);
    }
  }

  /** Agreement with only a company. */
  lemma CompanyOnlyAgrees(description: Option<string>, company: Option<string>, answer: string)
    requires IsBlank(description) && !IsBlank(company)
    requires SplitFields(GenerateLlm(description, company, Some(answer))).Some?
    ensures SplitFields(GenerateLlm(description, company, Some(answer))).value == Classify(description, company, Some(answer))
  {
    var t := RemoveChar(answer, '\n');
    var g := GenerateLlm(description, company, Some(answer));
    assert g == SkillsFailed + FieldDelimiter + t;
    assert |Split(g, FieldDelimiter)| == 2;
    CompanyOnlyFields(t);
    assert SplitFields(g).value == (SkillsFailed, Strip(t));
    assert AnswerPieces(answer) == [t];
    assert OnePiece(answer, 1, UnknownSector) == Strip(t);
    assert Classify(description, company, Some(answer)) == (SkillsFailed, OnePiece(answer, 1, UnknownSector));
  }

  /** Agreement with only a description, for an answer that cuts cleanly. */
  lemma DescriptionOnlyAgrees(description: Option<string>, company: Option<string>, answer: string)
    requires !IsBlank(description) && IsBlank(company)
    requires EndsOtherThan(RemoveChar(answer, '\n'), '|')
    requires SplitFields(GenerateLlm(description, company, Some(answer))).Some?
    ensures SplitFields(GenerateLlm(description, company, Some(answer))).value == Classify(description, company, Some(answer))
  {
    var t := RemoveChar(answer, '\n');
    var g := GenerateLlm(description, company, Some(answer));
    assert g == t + FieldDelimiter + UnknownSector;
    assert |Split(g, FieldDelimiter)| == 2;
    SentinelsFree();
    SentinelsTrimmed();
    DescriptionOnlyFields(t, UnknownSector);
    assert SplitFields(g).value == (Strip(t), UnknownSector);
    assert AnswerPieces(answer) == [t];
    assert OnePiece(answer, 0, SkillsFailed) == Strip(t);
    assert Classify(description, company, Some(answer)) == (OnePiece(answer, 0, SkillsFailed), UnknownSector);
  }

  /** Agreement with both inputs present. */
  lemma BothPresentAgrees(description: Option<string>, company: Option<string>, answer: string)
    requires !IsBlank(description) && !IsBlank(company)
    requires SplitFields(GenerateLlm(description, company, Some(answer))).Some?
    ensures SplitFields(GenerateLlm(description, company, Some(answer))).value == Classify(description, company, Some(answer))
  {
    var g := GenerateLlm(description, company, Some(answer));
    assert g == RemoveChar(answer, '\n');
    assert Split(g, FieldDelimiter) == AnswerPieces(answer);
  }

  /** The company-only text as written, when it cuts into two pieces. */
  lemma CompanyOnlyFields(t: string)
    requires |Split(SkillsFailed + FieldDelimiter + t, FieldDelimiter)| == 2
    ensures Split(t, FieldDelimiter) == [t]
    ensures SplitFields(SkillsFailed + FieldDelimiter + t) == Some((SkillsFailed, Strip(t)))
  {
    SentinelsFree();
    SentinelsTrimmed();
    SentinelFirstFields(SkillsFailed, t);
  }

  /** A text that is a trimmed sentinel `a`, the delimiter and an answer `t`,
      when it cuts into two pieces. */
  lemma SentinelFirstFields(a: string, t: string)
    requires '|' !in a && IsTrimmed(a)
    requires |Split(a + FieldDelimiter + t, FieldDelimiter)| == 2
    ensures Split(t, FieldDelimiter) == [t]
    ensures SplitFields(a + FieldDelimiter + t) == Some((a, Strip(t)))
  {
    CompanyOnlyCut(a, t);
    SplitFieldsOfTwo(a + FieldDelimiter + t, a, t);
    StripTrimmed(a);
  }

  /** The description-only text as written (sentinel `b` behind), when it
      cuts into two pieces. */
  lemma DescriptionOnlyFields(t: string, b: string)
    requires '|' !in b && IsTrimmed(b) && EndsOtherThan(t, '|')
    requires |Split(t + FieldDelimiter + b, FieldDelimiter)| == 2
    ensures Split(t, FieldDelimiter) == [t]
    ensures SplitFields(t + FieldDelimiter + b) == Some((Strip(t), b))
  {
    DescriptionOnlyCut(t, b);
    SplitFieldsOfTwo(t + FieldDelimiter + b, t, b);
    StripTrimmed(b);
  }

  /** As written, the company-only text (sentinel `a` in front) cuts into
      two pieces only when the answer `t` has no delimiter, and the pieces
      are then the sentinel and the whole answer. */
  lemma CompanyOnlyCut(a: string, t: string)
    requires '|' !in a
    requires |Split(a + FieldDelimiter + t, FieldDelimiter)| == 2
    ensures Split(t, FieldDelimiter) == [t]
    ensures Split(a + FieldDelimiter + t, FieldDelimiter) == [a, t]
  {
    SplitPrefix(a, t, FieldDelimiter);
    SplitSingle(t, FieldDelimiter);
  }

  /** As written, the description-only text (sentinel `b` behind) cuts into
      two pieces only when the answer `t` has no delimiter, given it does
      not end with the delimiter's character, and the pieces are then the
      whole answer and the sentinel. */
  lemma DescriptionOnlyCut(t: string, b: string)
    requires '|' !in b && EndsOtherThan(t, '|')
    requires |Split(t + FieldDelimiter + b, FieldDelimiter)| == 2
    ensures Split(t, FieldDelimiter) == [t]
    ensures Split(t + FieldDelimiter + b, FieldDelimiter) == [t, b]
  {
    assert IsRun(FieldDelimiter);
    SplitSuffix(t, b, FieldDelimiter);
    SplitSingle(t, FieldDelimiter);
  }

  /** The corrected field pair of the row at position `i`. */
  function ClassifyRow(row: StagedRow, i: nat, model: Model): (string, string)
  {
    Classify(row.job.description, row.job.company, Reply(row, i, model))
  }

  /** The corrected loop: one field pair per row, in order; never stops. */
  function GenerateLlmFields(rows: seq<StagedRow>, model: Model): (r: seq<(string, string)>)
    ensures |r| == |rows|
    ensures forall i :: 0 <= i < |rows| ==> r[i] == ClassifyRow(rows[i], i, model)
  {
    seq(|rows|, i requires 0 <= i < |rows| => ClassifyRow(rows[i], i, model))
  }

  /** Whole-run agreement: when the run as written completes, and every
      description-only answer cuts cleanly, its fields are the corrected
      ones. */
  lemma GenerateLlmFieldsAgrees(rows: seq<StagedRow>, model: Model)
    requires GenerateLlmFieldsAsWritten(rows, model).Ok?
    requires forall i :: 0 <= i < |rows| ==>
      CutsCleanly(rows[i].job.description, rows[i].job.company, Reply(rows[i], i, model))
    ensures GenerateLlmFieldsAsWritten(rows, model).value == GenerateLlmFields(rows, model)
  {
    var w := GenerateLlmFieldsAsWritten(rows, model).value;
    forall i | 0 <= i < |rows| ensures w[i] == ClassifyRow(rows[i], i, model) {
      assert AsWrittenFields(rows[i], i, model).Ok?;
      ClassifyAgreesWithAsWritten(rows[i].job.description, rows[i].job.company, Reply(rows[i], i, model));
    }
  }

  // ---------------------------------------------------------------------
  // The discrepancies, on concrete answers

  /** With only a company, a well-formed answer "a|||b" is put behind the
      skills sentinel, the text then cuts into three pieces, and the run
      stops; the corrected version keeps the answer's sector. */
  lemma CompanyOnlyAnswerStopsRun(company: Option<string>, a: string, b: string)
    requires !IsBlank(company)
    requires '|' !in a && '|' !in b && '\n' !in a && '\n' !in b
    ensures |Split(GenerateLlm(None, company, Some(a + FieldDelimiter + b)), FieldDelimiter)| == 3
    ensures SplitFields(GenerateLlm(None, company, Some(a + FieldDelimiter + b))).None?
    ensures Classify(None, company, Some(a + FieldDelimiter + b)) == (SkillsFailed, Strip(b))
  {
    var t := a + FieldDelimiter + b;
    RemoveAbsentChar(t, '\n');
    SentinelsFree();
    SplitPrefix(a, b, FieldDelimiter);
    NoOccurrenceWithoutFirstChar(b, FieldDelimiter);
    SplitPrefix(SkillsFailed, t, FieldDelimiter);
  }

  /** With only a description, a well-formed answer "a|||b" gets the sector
      sentinel appended, the text then cuts into three pieces, and the run
      stops; the corrected version keeps the answer's skills. */
  lemma DescriptionOnlyAnswerStopsRun(description: Option<string>, a: string, b: string)
    requires !IsBlank(description)
    requires '|' !in a && '|' !in b && '\n' !in a && '\n' !in b
    ensures |Split(GenerateLlm(description, None, Some(a + FieldDelimiter + b)), FieldDelimiter)| == 3
    ensures SplitFields(GenerateLlm(description, None, Some(a + FieldDelimiter + b))).None?
    ensures Classify(description, None, Some(a + FieldDelimiter + b)) == (Strip(a), UnknownSector)
  {
    var t := a + FieldDelimiter + b;
    assert '\n' !in t;
    GenerateDescriptionOnly(description, t);
    SentinelsFree();
    ThreePieces(a, b, UnknownSector);
    TwoPieces(a, b);
    ClassifyDescriptionOnly(description, t, a, b);
  }

  /** With only a description, a newline-free answer gets the sector
      sentinel appended. */
  lemma GenerateDescriptionOnly(description: Option<string>, t: string)
    requires !IsBlank(description) && '\n' !in t
    ensures GenerateLlm(description, None, Some(t)) == t + FieldDelimiter + UnknownSector
  {
    RemoveAbsentChar(t, '\n');
  }

  /** With only a description, the corrected version keeps the first piece
      of an answer that cuts into two. */
  lemma ClassifyDescriptionOnly(description: Option<string>, t: string, a: string, b: string)
    requires !IsBlank(description) && '\n' !in t && Split(t, FieldDelimiter) == [a, b]
    ensures Classify(description, None, Some(t)) == (Strip(a), UnknownSector)
  {
    RemoveAbsentChar(t, '\n');
    assert AnswerPieces(t) == [a, b];
    assert OnePiece(t, 0, SkillsFailed) == Strip(a);
    assert IsBlank(None);
  }

  /** Two delimiter-free fields joined by the delimiter cut back into two
      pieces. */
  lemma TwoPieces(a: string, b: string)
    requires '|' !in a && '|' !in b
    ensures Split(a + FieldDelimiter + b, FieldDelimiter) == [a, b]
  {
    SplitPrefix(a, b, FieldDelimiter);
    NoOccurrenceWithoutFirstChar(b, FieldDelimiter);
  }

  /** Three delimiter-free fields joined by the delimiter cut back into
      three pieces. */
  lemma ThreePieces(a: string, b: string, c: string)
    requires '|' !in a && '|' !in b && '|' !in c
    ensures Split(a + FieldDelimiter + b + FieldDelimiter + c, FieldDelimiter) == [a, b, c]
  {
    assert a + FieldDelimiter + b + FieldDelimiter + c == a + FieldDelimiter + (b + FieldDelimiter + c);
    SplitPrefix(a, b + FieldDelimiter + c, FieldDelimiter);
    SplitPrefix(b, c, FieldDelimiter);
    NoOccurrenceWithoutFirstChar(c, FieldDelimiter);
  }

  /** With both inputs, an answer without the delimiter stops the run; the
      corrected version falls back to the sentinels. */
  lemma UndelimitedAnswerStopsRun(description: Option<string>, company: Option<string>, t: string)
    requires !IsBlank(description) && !IsBlank(company)
    requires '|' !in t && '\n' !in t
    ensures SplitFields(GenerateLlm(description, company, Some(t))).None?
    ensures Classify(description, company, Some(t)) == (SkillsFailed, UnknownSector)
  {
    RemoveAbsentChar(t, '\n');
    NoOccurrenceWithoutFirstChar(t, FieldDelimiter);
  }

  /** Why the agreement lemmas ask for `CutsCleanly`: with only a
      description, an answer ending in a bar (`a + "|"`) as written is cut
      one character early, so the bar moves into the sector, while the
      corrected version keeps the whole answer as skills. */
  lemma TrailingBarShiftsCut(description: Option<string>, a: string)
    requires !IsBlank(description)
    requires '|' !in a && '\n' !in a
    ensures !CutsCleanly(description, None, Some(a + "|"))
    ensures SplitFields(GenerateLlm(description, None, Some(a + "|"))) == Some((Strip(a), "|" + UnknownSector))
    ensures Classify(description, None, Some(a + "|")) == (Strip(a + "|"), UnknownSector)
  {
    assert !CutsCleanly(description, None, Some(a + "|")) by {
      RemoveAbsentChar(a + "|", '\n');
      assert (a + "|")[|a|] == '|';
    }
    TrailingBarAsWritten(description, a);
    TrailingBarCorrected(description, a);
  }

  lemma TrailingBarAsWritten(description: Option<string>, a: string)
    requires !IsBlank(description)
    requires '|' !in a && '\n' !in a
    ensures SplitFields(GenerateLlm(description, None, Some(a + "|"))) == Some((Strip(a), "|" + UnknownSector))
  {
    var w := a + "|";
    RemoveAbsentChar(w, '\n');
    var u := "|" + UnknownSector;
    var g := GenerateLlm(description, None, Some(w));
    assert g == a + FieldDelimiter + u;
    SentinelsFree();
    SplitPrefix(a, u, FieldDelimiter);
    BarThenSentinelUncut();
    assert Split(g, FieldDelimiter) == [a, u];
    SplitFieldsOfTwo(g, a, u);
    BarThenSentinelTrimmed();
  }

  lemma BarThenSentinelTrimmed()
    ensures Strip("|" + UnknownSector) == "|" + UnknownSector
  {
    var u := "|" + UnknownSector;
    SentinelsTrimmed();
    assert u[0] == '|' && u[|u| - 1] == UnknownSector[|UnknownSector| - 1];
    StripTrimmed(u);
  }

  lemma TrailingBarCorrected(description: Option<string>, a: string)
    requires !IsBlank(description)
    requires '|' !in a && '\n' !in a
    ensures Classify(description, None, Some(a + "|")) == (Strip(a + "|"), UnknownSector)
  {
    var w := a + "|";
    TrailingBarUncut(a);
    NewlineFreePieces(w);
    RemoveAbsentChar(w, '\n');
  }

  /** An answer without newlines is cut as it stands. */
  lemma NewlineFreePieces(w: string)
    requires '\n' !in w
    ensures AnswerPieces(w) == Split(w, FieldDelimiter)
  {
    RemoveAbsentChar(w, '\n');
  }

  /** A bar followed by the sector sentinel holds no delimiter. */
  lemma BarThenSentinelUncut()
    ensures Split("|" + UnknownSector, FieldDelimiter) == ["|" + UnknownSector]
  {
    var u := "|" + UnknownSector;
    SentinelsFree();
    forall j ensures !OccursAt(u, FieldDelimiter, j) {
      if 0 <= j && j + |FieldDelimiter| <= |u| {
        if j == 0 {
          assert u[j..j + |FieldDelimiter|][1] == UnknownSector[0];
        } else {
          assert u[j..j + |FieldDelimiter|][0] == UnknownSector[j - 1];
          assert UnknownSector[j - 1] in UnknownSector;
        }
      }
    }
  }

  /** A bar-free text followed by a single bar holds no delimiter. */
  lemma TrailingBarUncut(a: string)
    requires '|' !in a
    ensures Split(a + "|", FieldDelimiter) == [a + "|"]
  {
    var w := a + "|";
    forall j ensures !OccursAt(w, FieldDelimiter, j) {
      if 0 <= j && j + |FieldDelimiter| <= |w| {
        assert w[j..j + |FieldDelimiter|][0] == a[j];
        assert a[j] in a;
      }
    }
  }
}

=== FILE: seqs.dfy ===
/** Generic facts about sequences: order-preserving filtering, the
    subsequence relation, occurrence counting, and collecting a sequence of
    results up to the first failure. */
module Seqs {
  import opened Types

  /** Keeps the elements that satisfy `p`, in their original order. */
  function Filter<T(==)>(p: T -> bool, s: seq<T>): (r: seq<T>)
    ensures |r| <= |s|
    ensures forall i :: 0 <= i < |r| ==> p(r[i]) && r[i] in s
    ensures forall i :: 0 <= i < |s| && p(s[i]) ==> s[i] in r
  {
    if s == [] then []
    else if p(s[0]) then [s[0]] + Filter(p, s[1..])
    else Filter(p, s[1..])
  }

  /** `a` is obtained from `b` by deleting some elements. */
  predicate IsSubseq<T(==)>(a: seq<T>, b: seq<T>)
    decreases |b|
  {
    a == [] ||
    (b != [] && ((a[0] == b[0] && IsSubseq(a[1..], b[1..])) || IsSubseq(a, b[1..])))
  }

  /** Number of occurrences of `x` in `s`. */
  function Occ<T(==)>(s: seq<T>, x: T): nat
  {
    if s == [] then 0 else (if s[0] == x then 1 else 0) + Occ(s[1..], x)
  }

  /** No element occurs twice. */
  predicate Distinct<T(==)>(s: seq<T>)
  {
    forall i, j :: 0 <= i < j < |s| ==> s[i] != s[j]
  }

  /** The filtered sequence is a subsequence of its input. */
  lemma {:induction false} FilterIsSubseq<T>(p: T -> bool, s: seq<T>)
    ensures IsSubseq(Filter(p, s), s)
  {
    if s != [] {
      FilterIsSubseq(p, s[1..]);
      if p(s[0]) {
        assert Filter(p, s)[1..] == Filter(p, s[1..]);
      }
    }
  }

  lemma {:induction false} FilterAppend<T>(p: T -> bool, a: seq<T>, b: seq<T>)
    ensures Filter(p, a + b) == Filter(p, a) + Filter(p, b)
  {
    if a != [] {
      assert (a + b)[0] == a[0];
      assert (a + b)[1..] == a[1..] + b;
      FilterAppend(p, a[1..], b);
      var x, fa, fb := a[0], Filter(p, a[1..]), Filter(p, b);
      assert [x] + (fa + fb) == ([x] + fa) + fb;
    } else {
      assert a + b == b;
    }
  }

  /** Filtering a sequence all of whose elements pass leaves it unchanged. */
  lemma {:induction false} FilterAll<T>(p: T -> bool, s: seq<T>)
    requires forall x :: x in s ==> p(x)
    ensures Filter(p, s) == s
  {
    if s != [] {
      FilterAll(p, s[1..]);
    }
  }

  /** Filtering a sequence none of whose elements pass yields nothing. */
  lemma {:induction false} FilterNone<T>(p: T -> bool, s: seq<T>)
    requires forall x :: x in s ==> !p(x)
    ensures Filter(p, s) == []
  {
    if s != [] {
      FilterNone(p, s[1..]);
    }
  }

  /** A filter keeps each element exactly as often as the input holds it,
      if it passes, and never otherwise. */
  lemma {:induction false} FilterMultiset<T>(p: T -> bool, s: seq<T>)
    ensures forall x :: multiset(Filter(p, s))[x] == if p(x) then multiset(s)[x] else 0
  {
    if s != [] {
      FilterMultiset(p, s[1..]);
      assert s == [s[0]] + s[1..];
    }
  }

  lemma {:induction false} OccAppend<T>(a: seq<T>, b: seq<T>, x: T)
    ensures Occ(a + b, x) == Occ(a, x) + Occ(b, x)
  {
    if a != [] {
      assert (a + b)[1..] == a[1..] + b;
      OccAppend(a[1..], b, x);
    } else {
      assert a + b == b;
    }
  }

  /** A distinct sequence holds each value at most once. */
  lemma {:induction false} DistinctOccAtMostOne<T>(s: seq<T>, x: T)
    requires Distinct(s)
    ensures Occ(s, x) <= 1
    ensures Occ(s, x) == 1 <==> x in s
  {
    if s != [] {
      DistinctOccAtMostOne(s[1..], x);
      if s[0] == x {
        assert x !in s[1..] by {
          forall k | 1 <= k < |s| ensures s[k] != x { }
        }
      }
    }
  }

  /** Appending to the longer sequence keeps a subsequence a subsequence. */
  lemma {:induction false} SubseqAppendRight<T>(a: seq<T>, b: seq<T>, x: T)
    requires IsSubseq(a, b)
    ensures IsSubseq(a, b + [x])
    decreases |b|
  {
    if a != [] {
      assert (b + [x])[1..] == b[1..] + [x];
      if a[0] == b[0] && IsSubseq(a[1..], b[1..]) {
        SubseqAppendRight(a[1..], b[1..], x);
      } else {
        SubseqAppendRight(a, b[1..], x);
      }
    }
  }

  /** Appending the same element to both keeps a subsequence a subsequence. */
  lemma {:induction false} SubseqAppendBoth<T>(a: seq<T>, b: seq<T>, x: T)
    requires IsSubseq(a, b)
    ensures IsSubseq(a + [x], b + [x])
    decreases |b|
  {
    if a == [] {
      if b == [] {
        assert IsSubseq(([] + [x])[1..], ([] + [x])[1..]);
      } else {
        assert (b + [x])[1..] == b[1..] + [x];
        SubseqAppendBoth(a, b[1..], x);
      }
    } else {
      assert (a + [x])[1..] == a[1..] + [x];
      assert (b + [x])[1..] == b[1..] + [x];
      if a[0] == b[0] && IsSubseq(a[1..], b[1..]) {
        SubseqAppendBoth(a[1..], b[1..], x);
      } else {
        SubseqAppendBoth(a, b[1..], x);
      }
    }
  }

  /** Every sequence is a subsequence of itself. */
  lemma {:induction false} SubseqReflexive<T>(a: seq<T>)
    ensures IsSubseq(a, a)
  {
    if a != [] {
      SubseqReflexive(a[1..]);
    }
  }

  /** `s` with every occurrence of `x` removed. */
  function Without<T(==)>(s: seq<T>, x: T): (r: seq<T>)
    ensures |r| + Occ(s, x) == |s|
  {
    if s == [] then []
    else if s[0] == x then Without(s[1..], x)
    else [s[0]] + Without(s[1..], x)
  }

  /** Removing `x` leaves the other values' counts alone. */
  lemma {:induction false} WithoutOcc<T>(s: seq<T>, x: T, y: T)
    requires y != x
    ensures Occ(Without(s, x), y) == Occ(s, y)
  {
    if s != [] {
      WithoutOcc(s[1..], x, y);
      if s[0] != x {
        assert ([s[0]] + Without(s[1..], x))[1..] == Without(s[1..], x);
      }
    }
  }

  /** How often the values `ks` occur in `vs`, added up. */
  function SumOcc<T(==)>(ks: seq<T>, vs: seq<T>): nat
  {
    if ks == [] then 0 else Occ(vs, ks[0]) + SumOcc(ks[1..], vs)
  }

  lemma {:induction false} SumOccSame<T>(ks: seq<T>, vs: seq<T>, ws: seq<T>)
    requires forall i :: 0 <= i < |ks| ==> Occ(vs, ks[i]) == Occ(ws, ks[i])
    ensures SumOcc(ks, vs) == SumOcc(ks, ws)
  {
    if ks != [] {
      SumOccSame(ks[1..], vs, ws);
    }
  }

  /** Distinct values together occur at most as often as `vs` is long. */
  lemma {:induction false} SumOccBound<T>(ks: seq<T>, vs: seq<T>)
    requires Distinct(ks)
    ensures SumOcc(ks, vs) <= |vs|
  {
    if ks != [] {
      var ws := Without(vs, ks[0]);
      forall i | 0 <= i < |ks[1..]| ensures Occ(vs, ks[1..][i]) == Occ(ws, ks[1..][i]) {
        WithoutOcc(vs, ks[0], ks[1..][i]);
      }
      SumOccSame(ks[1..], vs, ws);
      SumOccBound(ks[1..], ws);
    }
  }

  /** In a distinct sequence every value has multiplicity at most one. */
  lemma {:induction false} DistinctMultiplicity<T>(s: seq<T>, x: T)
    requires Distinct(s)
    ensures multiset(s)[x] <= 1
  {
    if s != [] {
      assert s == [s[0]] + s[1..];
      DistinctMultiplicity(s[1..], x);
      if s[0] == x {
        assert x !in s[1..] by {
          forall k | 0 <= k < |s[1..]| ensures s[1..][k] != x {
            assert s[1..][k] == s[k + 1];
          }
        }
      }
    }
  }

  /** A value at two positions has multiplicity at least two. */
  lemma RepeatedMultiplicity<T>(s: seq<T>, i: int, j: int)
    requires 0 <= i < j < |s| && s[i] == s[j]
    ensures multiset(s)[s[i]] >= 2
  {
    assert s == s[..j] + [s[j]] + s[j + 1..];
    assert s[..j][i] == s[i];
  }

  /** A rearrangement of a distinct sequence is distinct. */
  lemma DistinctPermutation<T>(a: seq<T>, b: seq<T>)
    requires Distinct(a) && multiset(a) == multiset(b)
    ensures Distinct(b)
  {
    forall i, j | 0 <= i < j < |b| ensures b[i] != b[j] {
      if b[i] == b[j] {
        RepeatedMultiplicity(b, i, j);
        DistinctMultiplicity(a, b[i]);
        assert false;
      }
    }
  }

  /** Sequences with the same elements, counted, hold the same values. */
  lemma SameMembers<T>(a: seq<T>, b: seq<T>)
    requires multiset(a) == multiset(b)
    ensures forall x :: x in a <==> x in b
  {
    forall x ensures x in a <==> x in b {
      assert x in a <==> x in multiset(a);
      assert x in b <==> x in multiset(b);
    }
  }

  /** All the values of `rs` when every element succeeded; otherwise the
      position of the first failure. */
  function Collect<T, E>(rs: seq<Result<T, E>>): (r: Result<seq<T>, nat>)
    ensures r.Ok? <==> forall i :: 0 <= i < |rs| ==> rs[i].Ok?
    ensures r.Ok? ==> |r.value| == |rs|
    ensures r.Ok? ==> forall i :: 0 <= i < |rs| ==> r.value[i] == rs[i].value
    ensures r.Err? ==> r.error < |rs| && rs[r.error].Err?
    ensures r.Err? ==> forall i :: 0 <= i < r.error ==> rs[i].Ok?
  {
    if rs == [] then Ok([])
    else
      var n := |rs| - 1;
      match Collect(rs[..n])
      case Err(k) => Err(k)
      case Ok(prev) => if rs[n].Ok? then Ok(prev + [rs[n].value]) else Err(n)
  }
}

=== FILE: serving_to_mysql.dfy ===
/** `load_parquet_to_mysql`: the serving data, every value turned into a
    string, upserted into the MySQL table `jobs`, which is created first if
    it does not exist. A refused batch is rolled back and the error only
    logged. */
module ServingToMysql {
  import opened Types
  import opened Jobs
  import opened Upsert

  /** The `jobs` table's columns, in CREATE TABLE and INSERT order. */
  const MysqlColumns: seq<string> := [
    "id", "title", "company", "skills_llm_gen", "sector_llm_gen", "location",
    "employmentType", "salaryRange", "urls", "datePosted", "date_captured"]

  /** `CREATE TABLE IF NOT EXISTS jobs`, committed on its own: a fresh empty
      table when there is none, otherwise the table as it stands. */
  function CreateIfAbsent(db: Option<Table>): Table
  {
    match db
    case None => map[]
    case Some(t) => t
  }

  /** One load of a data frame (rows of cells in column order) into the
      table `db`, which is `None` when it does not exist yet. `rejects` says
      which rows the server refuses; the server's own checks are not
      modelled. */
  function LoadParquetToMysql(db: Option<Table>, frame: seq<seq<Option<string>>>, rejects: Record -> bool)
    : (r: Load)
    ensures r.outcome != Raised
    ensures r.outcome == Committed <==>
              forall i :: 0 <= i < |frame| ==> Accepted(StringifyFrame(frame)[i], |MysqlColumns|, rejects)
    ensures r.outcome == Committed ==> Upserted(CreateIfAbsent(db), StringifyFrame(frame), r.table)
    ensures r.outcome == RolledBack ==> r.table == CreateIfAbsent(db)
    ensures db.Some? ==> db.value.Keys <= r.table.Keys
  {
    var created := CreateIfAbsent(db);
    match ExecuteMany(created, StringifyFrame(frame), |MysqlColumns|, rejects)
    case Ok(t) => Load(Committed, t)
    case Err(_) => Load(RolledBack, created)
  }

  /** Loading the same data a second time leaves the table as the first
      load left it. */
  lemma LoadTwiceMysql(db: Option<Table>, frame: seq<seq<Option<string>>>, rejects: Record -> bool)
    ensures var once := LoadParquetToMysql(db, frame, rejects);
            LoadParquetToMysql(Some(once.table), frame, rejects) == once
  {
    var once := LoadParquetToMysql(db, frame, rejects);
    var twice := LoadParquetToMysql(Some(once.table), frame, rejects);
    if once.outcome == Committed {
      UpsertedTwice(CreateIfAbsent(db), StringifyFrame(frame), once.table, twice.table);
    }
  }

  /** A serving row's ten non-key values, as strings, in INSERT order. */
  function NonKeyValues(r: ServingRow): seq<string>
  {
    [Stringify(r.title), Stringify(r.company), r.skills, r.sector, Stringify(r.location),
     Stringify(r.employmentType), Stringify(r.salaryRange), r.urls, Stringify(r.datePosted),
     r.dateCaptured]
  }

  /** The serving data as the data frame it is read back into. */
  function Frame(rows: seq<ServingRow>): seq<seq<Option<string>>>
  {
    seq(|rows|, i requires 0 <= i < |rows| => ServingCells(rows[i]))
  }

  predicate LastRowWithId(rows: seq<ServingRow>, k: int)
  {
    0 <= k < |rows| && forall j :: k < j < |rows| ==> rows[j].id != rows[k].id
  }

  predicate HasId(rows: seq<ServingRow>, id: string)
  {
    exists k :: 0 <= k < |rows| && rows[k].id == id
  }

  lemma ServingRecords(rows: seq<ServingRow>)
    ensures |StringifyFrame(Frame(rows))| == |rows|
    ensures forall i :: 0 <= i < |rows| ==> StringifyFrame(Frame(rows))[i] == [rows[i].id] + NonKeyValues(rows[i])
  {
    var recs := StringifyFrame(Frame(rows));
    forall i | 0 <= i < |rows| ensures recs[i] == [rows[i].id] + NonKeyValues(rows[i]) {
      assert Frame(rows)[i] == ServingCells(rows[i]);
    }
  }

  /** Serving rows line up with the table: the serving columns are the
      table's columns in the same order, so every row has the right number
      of values and each stored row holds the last serving row with its id. */
  lemma ServingRowsLoadIntoMysql(db: Option<Table>, rows: seq<ServingRow>, rejects: Record -> bool)
    ensures MysqlColumns == ServingColumns
    ensures var r := LoadParquetToMysql(db, Frame(rows), rejects);
            r.outcome == Committed <==>
            forall i :: 0 <= i < |rows| ==> !rejects([rows[i].id] + NonKeyValues(rows[i]))
    ensures var r := LoadParquetToMysql(db, Frame(rows), rejects);
            r.outcome == Committed ==>
            forall id :: id in r.table <==> id in CreateIfAbsent(db) || HasId(rows, id)
    ensures var r := LoadParquetToMysql(db, Frame(rows), rejects);
            r.outcome == Committed ==>
            forall k :: LastRowWithId(rows, k) ==> rows[k].id in r.table && r.table[rows[k].id] == NonKeyValues(rows[k])
  {
    var r := LoadParquetToMysql(db, Frame(rows), rejects);
    ServingRecords(rows);
    if r.outcome == Committed {
      ServingTable(CreateIfAbsent(db), rows, r.table);
    }
  }

  /** A table upserted with the serving records holds the base keys and
      the serving ids, each id with the values of its last row. */
  lemma ServingTable(base: Table, rows: seq<ServingRow>, t: Table)
    requires Upserted(base, StringifyFrame(Frame(rows)), t)
    ensures forall id :: id in t <==> id in base || HasId(rows, id)
    ensures forall k :: LastRowWithId(rows, k) ==> rows[k].id in t && t[rows[k].id] == NonKeyValues(rows[k])
  {
    var recs := StringifyFrame(Frame(rows));
    ServingRecords(rows);
    forall id ensures InBatch(recs, id) <==> HasId(rows, id) {
      if HasId(rows, id) {
        var k :| 0 <= k < |rows| && rows[k].id == id;
        assert recs[k][0] == id;
      }
    }
    forall k | LastRowWithId(rows, k)
      ensures rows[k].id in t && t[rows[k].id] == NonKeyValues(rows[k])
    {
      assert LastWith(recs, k);
      assert recs[k][1..] == NonKeyValues(rows[k]);
    }
  }
}

=== FILE: serving_to_postgres.dfy ===
/** `load_parquet_to_postgres`: the PostgreSQL variant of the loader. It
    drops the table `jobs` and creates it again, committing that before the
    batch, so every run starts from an empty table whatever was there; the
    table has nine columns, one of them `jobProviders`. */
module ServingToPostgres {
  import opened Types
  import opened Jobs
  import opened Upsert
  import ServingToMysql

  /** The `jobs` table's columns, in CREATE TABLE and INSERT order. */
  const PostgresColumns: seq<string> := [
    "id", "title", "company", "location", "employmentType", "datePosted",
    "salaryRange", "jobProviders", "date_captured"]

  /** One load of a data frame. A record that does not have nine values
      makes the driver raise `TypeError` or `IndexError` while binding it;
      the handler only catches the driver's database errors, so that error
      propagates with the batch uncommitted. A record the server refuses is
      caught and the batch rolled back. Either way the committed table is
      the freshly created, empty one. */
  function LoadParquetToPostgres(frame: seq<seq<Option<string>>>, rejects: Record -> bool): (r: Load)
    ensures r.outcome != Committed ==> r.table == map[]
    ensures r.outcome == Committed <==>
              forall i :: 0 <= i < |frame| ==> Accepted(StringifyFrame(frame)[i], |PostgresColumns|, rejects)
    ensures r.outcome == Committed ==> Upserted(map[], StringifyFrame(frame), r.table)
    ensures r.outcome == Raised ==>
              exists i :: 0 <= i < |frame| && |frame[i]| != |PostgresColumns| &&
                forall j :: 0 <= j < i ==> Accepted(StringifyFrame(frame)[j], |PostgresColumns|, rejects)
    ensures r.outcome == RolledBack ==>
              exists i :: 0 <= i < |frame| && |frame[i]| == |PostgresColumns| && rejects(StringifyFrame(frame)[i]) &&
                forall j :: 0 <= j < i ==> Accepted(StringifyFrame(frame)[j], |PostgresColumns|, rejects)
  {
    match ExecuteMany(map[], StringifyFrame(frame), |PostgresColumns|, rejects)
    case Ok(t) => Load(Committed, t)
    case Err((_, WrongArity)) => Load(Raised, map[])
    case Err((_, Rejected)) => Load(RolledBack, map[])
  }

  /** The serving data has eleven columns, so this loader raises on its
      first row whenever there is one, and leaves the table empty. */
  lemma ServingRowsRaiseOnPostgres(rows: seq<ServingRow>, rejects: Record -> bool)
    requires |rows| > 0
    ensures LoadParquetToPostgres(ServingToMysql.Frame(rows), rejects) == Load(Raised, map[])
  {
    var frame := ServingToMysql.Frame(rows);
    var recs := StringifyFrame(frame);
    assert |frame[0]| == |ServingColumns|;
    assert !Accepted(recs[0], |PostgresColumns|, rejects);
    var e := ExecuteMany(map[], recs, |PostgresColumns|, rejects);
    assert e.Err? && e.error.0 == 0;
  }
}

=== FILE: staged_to_serving.dfy ===
/** Enrichment (`process_staged_to_serving.py`): keep the listings whose
    location or description suggests the region or remote work, build each
    listing's provider URL field, ask a generative model for its skills and
    sector, then project the serving columns and sort by capture date. The
    model is a parameter: given a row's position and a prompt it returns
    the response text, or `None` when the call raises. */
module StagedToServing {
  import opened Types
  import opened Seqs
  import opened Text
  import opened Dates
  import opened Jobs
  import opened LlmFields

  // ---------------------------------------------------------------------
  // Relevance filter (`get_feasible_location_data`)

  const LocationTokens: seq<string> := ["bc", "anywhere", "vancouver"]
  const DescriptionTokens: seq<string> := ["remote", "anywhere"]

  /** `str.contains("t1|t2|...", case=False, na=False)` on one cell: some
      token occurs, ignoring case; a missing cell never matches. */
  predicate MatchesAny(cell: Option<string>, tokens: seq<string>)
  {
    cell.Some? && ContainsAnyIgnoreCase(cell.value, tokens)
  }

  /** The filter's row condition. */
  predicate IsFeasible(row: StagedRow)
  {
    MatchesAny(row.job.location, LocationTokens) || MatchesAny(row.job.description, DescriptionTokens)
  }

  /** `get_feasible_location_data`: the rows meeting the condition, each as
      often as in the input, in input order, with their columns untouched. */
  function GetFeasibleLocationData(rows: seq<StagedRow>): (r: seq<StagedRow>)
    ensures IsSubseq(r, rows)
    ensures forall i :: 0 <= i < |r| ==> IsFeasible(r[i])
    ensures forall i :: 0 <= i < |rows| && IsFeasible(rows[i]) ==> rows[i] in r
    ensures forall x :: multiset(r)[x] == if IsFeasible(x) then multiset(rows)[x] else 0
  {
    FilterIsSubseq(IsFeasible, rows);
    FilterMultiset(IsFeasible, rows);
    Filter(IsFeasible, rows)
  }

  /** The condition in lower-case terms: a row is kept exactly when its
      lower-cased location contains "bc", "anywhere" or "vancouver", or its
      lower-cased description contains "remote" or "anywhere". */
  lemma FeasibleIffLowerContains(row: StagedRow)
    ensures IsFeasible(row) <==>
      (row.job.location.Some? &&
        (Contains(Lower(row.job.location.value), "bc") ||
         Contains(Lower(row.job.location.value), "anywhere") ||
         Contains(Lower(row.job.location.value), "vancouver"))) ||
      (row.job.description.Some? &&
        (Contains(Lower(row.job.description.value), "remote") ||
         Contains(Lower(row.job.description.value), "anywhere")))
  {
    LowerOfLowerCase("bc");
    LowerOfLowerCase("anywhere");
    LowerOfLowerCase("vancouver");
    LowerOfLowerCase("remote");
    assert LocationTokens[1..] == ["anywhere", "vancouver"] && LocationTokens[2..] == ["vancouver"];
    assert DescriptionTokens[1..] == ["anywhere"];
    if row.job.location.Some? {
      var loc := row.job.location.value;
      IgnoreCaseIsLowerContains(loc, "bc");
      IgnoreCaseIsLowerContains(loc, "anywhere");
      IgnoreCaseIsLowerContains(loc, "vancouver");
      assert ContainsAnyIgnoreCase(loc, LocationTokens) <==>
        ContainsIgnoreCase(loc, "bc") || ContainsIgnoreCase(loc, "anywhere") || ContainsIgnoreCase(loc, "vancouver") by {
        assert ContainsAnyIgnoreCase(loc, LocationTokens[2..]) <==> ContainsIgnoreCase(loc, "vancouver") by {
          assert LocationTokens[2..][1..] == [];
        }
      }
    }
    if row.job.description.Some? {
      var desc := row.job.description.value;
      IgnoreCaseIsLowerContains(desc, "remote");
      IgnoreCaseIsLowerContains(desc, "anywhere");
      assert ContainsAnyIgnoreCase(desc, DescriptionTokens) <==>
        ContainsIgnoreCase(desc, "remote") || ContainsIgnoreCase(desc, "anywhere") by {
        assert ContainsAnyIgnoreCase(desc, DescriptionTokens[1..]) <==> ContainsIgnoreCase(desc, "anywhere") by {
          assert DescriptionTokens[1..][1..] == [];
        }
      }
    }
  }

  /** "bc" is a bare substring: a company-like location "ABC Ltd" is kept. */
  lemma BareSubstringMatches(j: Job, captured: string)
    requires j.location == Some("ABC Ltd")
    ensures IsFeasible(StagedRow(j, captured))
  {
    assert OccursAtIgnoreCase("ABC Ltd", "bc", 1) by {
      assert LowerChar('B') == 'b' && LowerChar('C') == 'c';
    }
    assert ContainsIgnoreCase("ABC Ltd", "bc");
  }

  // ---------------------------------------------------------------------
  // Provider URLs (`create_urls_field` / `fetch_urls`)

  const PriorityProviders: seq<string> := ["linkedin", "glassdoor", "indeed"]
  const UrlSeparator: string := "\n\n"

  /** A URL naming a preferred job board anywhere in it (case-sensitive). */
  predicate IsPriorityUrl(u: string)
  {
    ContainsAny(u, PriorityProviders)
  }

  predicate IsOtherUrl(u: string)
  {
    !IsPriorityUrl(u)
  }

  /** The urls `if url:` lets through: present and non-empty. */
  function KeptUrl(p: Provider): seq<string>
  {
    if p.url.Some? && p.url.value != "" then [p.url.value] else []
  }

  /** The kept urls of a provider list, in list order. */
  function ProviderUrls(ps: seq<Provider>): (urls: seq<string>)
    ensures forall k :: 0 <= k < |urls| ==> urls[k] != ""
  {
    if ps == [] then [] else ProviderUrls(ps[..|ps| - 1]) + KeptUrl(ps[|ps| - 1])
  }

  /** The two lists `fetch_urls` fills in its loop: `urls` (priority) and
      `other_urls`; each equals the corresponding filter of the kept urls. */
  function CollectTiers(ps: seq<Provider>): (tiers: (seq<string>, seq<string>))
    ensures tiers.0 == Filter(IsPriorityUrl, ProviderUrls(ps))
    ensures tiers.1 == Filter(IsOtherUrl, ProviderUrls(ps))
  {
    if ps == [] then ([], [])
    else
      var init, last := ps[..|ps| - 1], ps[|ps| - 1];
      var (pri, oth) := CollectTiers(init);
      FilterAppend(IsPriorityUrl, ProviderUrls(init), KeptUrl(last));
      FilterAppend(IsOtherUrl, ProviderUrls(init), KeptUrl(last));
      if last.url.Some? && last.url.value != "" then
        if IsPriorityUrl(last.url.value) then (pri + [last.url.value], oth)
        else (pri, oth + [last.url.value])
      else (pri, oth)
  }

  /** Index `k` separates the priority urls before it from the others. */
  predicate TierBoundary(urls: seq<string>, k: int)
  {
    0 <= k <= |urls| &&
    (forall i :: 0 <= i < k ==> IsPriorityUrl(urls[i])) &&
    (forall i :: k <= i < |urls| ==> !IsPriorityUrl(urls[i]))
  }

  /** The two tiers together hold every kept url exactly as often. */
  lemma TiersArePermutation(u: seq<string>)
    ensures multiset(Filter(IsPriorityUrl, u) + Filter(IsOtherUrl, u)) == multiset(u)
  {
    FilterMultiset(IsPriorityUrl, u);
    FilterMultiset(IsOtherUrl, u);
  }

  /** `all_urls`: the kept urls reordered so that the priority ones come
      first; within each tier the input order is kept. */
  function OrderedUrls(ps: seq<Provider>): (urls: seq<string>)
    ensures multiset(urls) == multiset(ProviderUrls(ps))
    ensures exists k :: TierBoundary(urls, k)
    ensures urls == Filter(IsPriorityUrl, ProviderUrls(ps)) + Filter(IsOtherUrl, ProviderUrls(ps))
  {
    var t := CollectTiers(ps);
    TiersArePermutation(ProviderUrls(ps));
    TiersBoundary(t.0, t.1);
    t.0 + t.1
  }

  lemma TiersBoundary(pri: seq<string>, oth: seq<string>)
    requires forall i :: 0 <= i < |pri| ==> IsPriorityUrl(pri[i])
    requires forall i :: 0 <= i < |oth| ==> IsOtherUrl(oth[i])
    ensures TierBoundary(pri + oth, |pri|)
  {
    var urls := pri + oth;
    assert forall i :: |pri| <= i < |urls| ==> urls[i] == oth[i - |pri|];
  }

  /** `fetch_urls`: the ordered urls joined by a blank line. */
  function FetchUrls(ps: seq<Provider>): (joined: string)
    ensures joined == "" <==> ProviderUrls(ps) == []
    ensures ProviderUrls(ps) != [] && (forall u :: u in ProviderUrls(ps) ==> '\n' !in u) ==>
      Split(joined, UrlSeparator) == OrderedUrls(ps)
  {
    JoinedUrlsFacts(ps);
    Join(OrderedUrls(ps), UrlSeparator)
  }

  lemma JoinedUrlsFacts(ps: seq<Provider>)
    ensures Join(OrderedUrls(ps), UrlSeparator) == "" <==> ProviderUrls(ps) == []
    ensures ProviderUrls(ps) != [] && (forall u :: u in ProviderUrls(ps) ==> '\n' !in u) ==>
      Split(Join(OrderedUrls(ps), UrlSeparator), UrlSeparator) == OrderedUrls(ps)
  {
    var urls := OrderedUrls(ps);
    assert |urls| == |ProviderUrls(ps)| by {
      assert |multiset(urls)| == |multiset(ProviderUrls(ps))|;
    }
    if urls != [] {
      assert urls[0] in multiset(ProviderUrls(ps));
      JoinNonEmpty(urls, UrlSeparator);
      if forall u :: u in ProviderUrls(ps) ==> '\n' !in u {
        forall k | 0 <= k < |urls| ensures UrlSeparator[0] !in urls[k] {
          assert urls[k] in multiset(ProviderUrls(ps));
        }
        SplitJoin(urls, UrlSeparator);
      }
    }
  }

  lemma JoinNonEmpty(parts: seq<string>, sep: string)
    requires |parts| >= 1 && parts[0] != ""
    ensures Join(parts, sep) != ""
  {
    if |parts| > 1 {
      assert Join(parts, sep)[0] == parts[0][0];
    }
  }

  /** Providers whose urls are the given strings. */
  function AsProviders(urls: seq<string>): (ps: seq<Provider>)
    ensures |ps| == |urls|
    ensures forall k :: 0 <= k < |urls| ==> ps[k] == Provider(Some(urls[k]))
  {
    seq(|urls|, k requires 0 <= k < |urls| => Provider(Some(urls[k])))
  }

  lemma {:induction false} ProviderUrlsOfNonEmpty(urls: seq<string>)
    requires forall k :: 0 <= k < |urls| ==> urls[k] != ""
    ensures ProviderUrls(AsProviders(urls)) == urls
  {
    if urls != [] {
      var init := urls[..|urls| - 1];
      assert AsProviders(urls)[..|urls| - 1] == AsProviders(init);
      ProviderUrlsOfNonEmpty(init);
      assert urls == init + [urls[|urls| - 1]];
    }
  }

  /** The tiers of a list already ordered priority-first are its two parts. */
  lemma TiersOfOrdered(pri: seq<string>, oth: seq<string>)
    requires forall k :: 0 <= k < |pri + oth| ==> (pri + oth)[k] != ""
    requires forall k :: 0 <= k < |pri| ==> IsPriorityUrl(pri[k])
    requires forall k :: 0 <= k < |oth| ==> IsOtherUrl(oth[k])
    ensures CollectTiers(AsProviders(pri + oth)) == (pri, oth)
  {
    var ps := AsProviders(pri + oth);
    ProviderUrlsOfNonEmpty(pri + oth);
    assert ProviderUrls(ps) == pri + oth;
    calc {
      CollectTiers(ps).0;
      Filter(IsPriorityUrl, pri + oth);
      { FilterAppend(IsPriorityUrl, pri, oth); }
      Filter(IsPriorityUrl, pri) + Filter(IsPriorityUrl, oth);
      { FilterAll(IsPriorityUrl, pri); FilterNone(IsPriorityUrl, oth); }
      pri;
    }
    calc {
      CollectTiers(ps).1;
      Filter(IsOtherUrl, pri + oth);
      { FilterAppend(IsOtherUrl, pri, oth); }
      Filter(IsOtherUrl, pri) + Filter(IsOtherUrl, oth);
      { FilterNone(IsOtherUrl, pri); FilterAll(IsOtherUrl, oth); }
      oth;
    }
  }

  /** Normalising is idempotent: rebuilding the field from the urls of an
      already built field gives the same string (urls without line breaks). */
  lemma FetchUrlsIdempotent(ps: seq<Provider>)
    requires forall u :: u in ProviderUrls(ps) ==> '\n' !in u
    ensures FetchUrls(AsProviders(Split(FetchUrls(ps), UrlSeparator))) == FetchUrls(ps)
  {
    var u := ProviderUrls(ps);
    if u == [] {
      assert FetchUrls(ps) == "";
      assert Split("", UrlSeparator) == [""];
      assert ProviderUrls(AsProviders([""])) == [] by {
        assert AsProviders([""])[..0] == [];
      }
    } else {
      var urls := OrderedUrls(ps);
      assert Split(FetchUrls(ps), UrlSeparator) == urls;
      var t := CollectTiers(ps);
      assert urls == t.0 + t.1;
      forall k | 0 <= k < |urls| ensures urls[k] != "" {
        assert urls[k] in multiset(u);
      }
      forall k | 0 <= k < |t.0| ensures IsPriorityUrl(t.0[k]) {
        assert t.0[k] == Filter(IsPriorityUrl, u)[k];
      }
      forall k | 0 <= k < |t.1| ensures IsOtherUrl(t.1[k]) {
        assert t.1[k] == Filter(IsOtherUrl, u)[k];
      }
      TiersOfOrdered(t.0, t.1);
      assert OrderedUrls(AsProviders(urls)) == urls;
    }
  }

  /** The relevance test's table: of four rows (locations "BC",
      "Vancouver", "Toronto" and none), three are kept. */
  lemma SampleTableKeepsThree(j1: Job, j2: Job, j3: Job, j4: Job, captured: string)
    requires j1.location == Some("BC") && j1.description == Some("Remote work available")
    requires j2.location == Some("Vancouver") && j2.description == Some("On-site work only")
    requires j3.location == Some("Toronto") && j3.description == Some("Remote work anywhere")
    requires j4.location == None && j4.description == Some("No location specified")
    ensures |GetFeasibleLocationData([StagedRow(j1, captured), StagedRow(j2, captured),
      StagedRow(j3, captured), StagedRow(j4, captured)])| == 3
  {
    var rows := [StagedRow(j1, captured), StagedRow(j2, captured), StagedRow(j3, captured), StagedRow(j4, captured)];
    SampleRowKept(rows[0], "BC", 0);
    SampleRowKept(rows[1], "Vancouver", 2);
    SampleRemoteRowKept(rows[2]);
    SampleRowDropped(rows[3]);
    assert rows[3..][1..] == [];
    assert Filter(IsFeasible, rows[3..]) == [];
    assert rows[2..][1..] == rows[3..];
    assert |Filter(IsFeasible, rows[2..])| == 1;
    assert rows[1..][1..] == rows[2..];
    assert |Filter(IsFeasible, rows[1..])| == 2;
    assert |Filter(IsFeasible, rows)| == 3;
  }

  lemma SampleRowKept(row: StagedRow, loc: string, k: nat)
    requires k < |LocationTokens| && row.job.location == Some(loc)
    requires Lower(loc) == LocationTokens[k]
    ensures IsFeasible(row)
  {
    assert OccursAt(Lower(loc), LocationTokens[k], 0);
    IgnoreCaseIsLowerContains(loc, LocationTokens[k]);
    LowerOfLowerCase(LocationTokens[k]);
    ContainsAnyIgnoreCaseAt(loc, LocationTokens, k);
  }

  lemma SampleRemoteRowKept(row: StagedRow)
    requires row.job.description == Some("Remote work anywhere")
    ensures IsFeasible(row)
  {
    assert OccursAtIgnoreCase("Remote work anywhere", "remote", 0) by {
      assert LowerChar('R') == 'r';
    }
    assert ContainsIgnoreCase("Remote work anywhere", "remote");
  }

  lemma SampleRowDropped(row: StagedRow)
    requires row.job.location == None && row.job.description == Some("No location specified")
    ensures !IsFeasible(row)
  {
    var d := "No location specified";
    forall i | 0 <= i < |d| ensures LowerChar(d[i]) != 'm' && LowerChar(d[i]) != 'y' {
    }
    NotContainsIgnoreCaseMissingChar(d, "remote", 2);
    NotContainsIgnoreCaseMissingChar(d, "anywhere", 2);
    assert DescriptionTokens[1..][1..] == [];
  }

  /** The ordering on three providers: a priority url, another url and a
      second priority url give "first priority, second priority, other",
      separated by blank lines (e.g. linkedin, example, glassdoor). */
  lemma PriorityUrlsComeFirst(p1: string, p2: string, p3: string)
    requires p1 != "" && p2 != "" && p3 != ""
    requires IsPriorityUrl(p1) && !IsPriorityUrl(p2) && IsPriorityUrl(p3)
    ensures FetchUrls([Provider(Some(p1)), Provider(Some(p2)), Provider(Some(p3))]) ==
      p1 + UrlSeparator + p3 + UrlSeparator + p2
  {
    var ps := [Provider(Some(p1)), Provider(Some(p2)), Provider(Some(p3))];
    OrderedThree(p1, p2, p3);
    assert FetchUrls(ps) == Join([p1, p3, p2], UrlSeparator);
    JoinThree(p1, p3, p2, UrlSeparator);
  }

  lemma OrderedThree(p1: string, p2: string, p3: string)
    requires p1 != "" && p2 != "" && p3 != ""
    requires IsPriorityUrl(p1) && !IsPriorityUrl(p2) && IsPriorityUrl(p3)
    ensures OrderedUrls([Provider(Some(p1)), Provider(Some(p2)), Provider(Some(p3))]) == [p1, p3, p2]
  {
    var ps := [Provider(Some(p1)), Provider(Some(p2)), Provider(Some(p3))];
    ProviderUrlsOfThree(p1, p2, p3);
    TiersOfThree(p1, p2, p3);
    assert CollectTiers(ps) == ([p1, p3], [p2]);
  }

  lemma JoinThree(a: string, b: string, c: string, sep: string)
    ensures Join([a, b, c], sep) == a + sep + b + sep + c
  {
    JoinCons(a, [b, c], sep);
    JoinCons(b, [c], sep);
    assert [a] + [b, c] == [a, b, c];
    assert [b] + [c] == [b, c];
  }

  lemma ProviderUrlsOfThree(p1: string, p2: string, p3: string)
    requires p1 != "" && p2 != "" && p3 != ""
    ensures ProviderUrls([Provider(Some(p1)), Provider(Some(p2)), Provider(Some(p3))]) == [p1, p2, p3]
  {
    var ps := [Provider(Some(p1)), Provider(Some(p2)), Provider(Some(p3))];
    assert ps[..1][..0] == [];
    assert ProviderUrls(ps[..1]) == [p1];
    assert ps[..2][..1] == ps[..1];
    assert ProviderUrls(ps[..2]) == [p1, p2];
    assert ps[..3] == ps;
  }

  lemma TiersOfThree(p1: string, p2: string, p3: string)
    requires IsPriorityUrl(p1) && !IsPriorityUrl(p2) && IsPriorityUrl(p3)
    ensures Filter(IsPriorityUrl, [p1, p2, p3]) == [p1, p3]
    ensures Filter(IsOtherUrl, [p1, p2, p3]) == [p2]
  {
    var u := [p1, p2, p3];
    assert u[1..][1..] == u[2..] && u[2..][1..] == [];
    assert !IsOtherUrl(p1) && IsOtherUrl(p2) && !IsOtherUrl(p3);
    assert Filter(IsPriorityUrl, u[2..]) == [p3];
    assert Filter(IsPriorityUrl, u[1..]) == [p3];
    assert Filter(IsOtherUrl, u[2..]) == [];
    assert Filter(IsOtherUrl, u[1..]) == [p2];
  }

  /** When all urls are in one tier (all priority or all other), the field
      keeps the providers' order, as for the lists linkedin, glassdoor,
      indeed and example, anotherexample. */
  lemma SameTierKeepsOrder(ps: seq<Provider>)
    requires (forall u :: u in ProviderUrls(ps) ==> IsPriorityUrl(u)) ||
             (forall u :: u in ProviderUrls(ps) ==> !IsPriorityUrl(u))
    ensures FetchUrls(ps) == Join(ProviderUrls(ps), UrlSeparator)
  {
    var u := ProviderUrls(ps);
    var t := CollectTiers(ps);
    if forall x :: x in u ==> IsPriorityUrl(x) {
      assert t == (u, []) by {
        FilterAll(IsPriorityUrl, u);
        FilterNone(IsOtherUrl, u);
      }
    } else {
      assert t == ([], u) by {
        FilterNone(IsPriorityUrl, u);
        FilterAll(IsOtherUrl, u);
      }
    }
    assert t.0 + t.1 == u;
    assert OrderedUrls(ps) == u;
  }

  /** Whether the test's urls count as priority urls. */
  lemma ExamplePriorityUrls()
    ensures IsPriorityUrl("https://www.linkedin.com")
    ensures IsPriorityUrl("https://www.glassdoor.com")
    ensures IsPriorityUrl("https://www.indeed.com")
  {
    assert OccursAt("https://www.linkedin.com", "linkedin", 12);
    assert OccursAt("https://www.glassdoor.com", "glassdoor", 12);
    assert OccursAt("https://www.indeed.com", "indeed", 12);
    assert PriorityProviders[1..][0] == "glassdoor" && PriorityProviders[1..][1..][0] == "indeed";
  }

  /** The test's two other urls name no preferred board. */
  lemma ExampleOtherUrls()
    ensures !IsPriorityUrl("https://www.example.com")
    ensures !IsPriorityUrl("https://www.anotherexample.com")
  {
    NoBoardLetters("https://www.example.com");
    NoBoardLetters("https://www.anotherexample.com");
  }

  /** A URL without the letter 'd' names no preferred board: each board's
      name holds one. */
  lemma NoBoardLetters(u: string)
    requires 'd' !in u
    ensures !IsPriorityUrl(u)
  {
    assert PriorityProviders[1..][0] == "glassdoor" && PriorityProviders[1..][1..][0] == "indeed";
    assert PriorityProviders[1..][1..][1..] == [];
    NotContainsMissingChar(u, "linkedin", 5);
    NotContainsMissingChar(u, "glassdoor", 5);
    NotContainsMissingChar(u, "indeed", 2);
    assert !ContainsAny(u, PriorityProviders[1..][1..]);
    assert !ContainsAny(u, PriorityProviders[1..]);
  }

  // ---------------------------------------------------------------------
  // Serving data (`generate_serving_data`)

  /** The serving row built from a staged row, its URL field and its
      generated skills and sector. */
  function Project(row: StagedRow, fields: (string, string)): (r: ServingRow)
    ensures r.id == row.job.id && r.dateCaptured == row.dateCaptured
    ensures r.urls == FetchUrls(row.job.jobProviders)
    ensures (r.skills, r.sector) == fields
    ensures r.title == row.job.title && r.company == row.job.company && r.location == row.job.location
    ensures r.employmentType == row.job.employmentType && r.salaryRange == row.job.salaryRange
    ensures r.datePosted == row.job.datePosted
  {
    var j := row.job;
    ServingRow(j.id, j.title, j.company, fields.0, fields.1, j.location,
               j.employmentType, j.salaryRange, FetchUrls(j.jobProviders), j.datePosted,
               row.dateCaptured)
  }

  /** Newest capture first, comparing the `date_captured` text. */
  predicate SortedByCaptureDesc(rows: seq<ServingRow>)
  {
    forall i, j :: 0 <= i < j < |rows| ==> LexLe(rows[j].dateCaptured, rows[i].dateCaptured)
  }

  /** Every row of `rows` is captured no later (as text) than `x`. */
  predicate AllCapturedBefore(rows: seq<ServingRow>, x: ServingRow)
  {
    forall i :: 0 <= i < |rows| ==> LexLe(rows[i].dateCaptured, x.dateCaptured)
  }

  lemma ConsSorted(x: ServingRow, s: seq<ServingRow>)
    requires SortedByCaptureDesc(s) && AllCapturedBefore(s, x)
    ensures SortedByCaptureDesc([x] + s)
  {
    var r := [x] + s;
    forall i, j | 0 <= i < j < |r| ensures LexLe(r[j].dateCaptured, r[i].dateCaptured) {
      if i > 0 {
        assert r[i] == s[i - 1] && r[j] == s[j - 1];
      } else {
        assert r[j] == s[j - 1];
      }
    }
  }

  lemma HeadBoundsSorted(s: seq<ServingRow>)
    requires SortedByCaptureDesc(s) && s != []
    ensures AllCapturedBefore(s, s[0])
  {
    forall i | 0 <= i < |s| ensures LexLe(s[i].dateCaptured, s[0].dateCaptured) {
      if i == 0 {
        LexLeReflexive(s[0].dateCaptured);
      }
    }
  }

  lemma BoundByHead(s: seq<ServingRow>, x: ServingRow)
    requires SortedByCaptureDesc(s) && s != [] && LexLe(s[0].dateCaptured, x.dateCaptured)
    ensures AllCapturedBefore(s, x)
  {
    HeadBoundsSorted(s);
    forall i | 0 <= i < |s| ensures LexLe(s[i].dateCaptured, x.dateCaptured) {
      LexLeTransitive(s[i].dateCaptured, s[0].dateCaptured, x.dateCaptured);
    }
  }

  lemma BoundOfSameElements(r: seq<ServingRow>, s: seq<ServingRow>, x: ServingRow, y: ServingRow)
    requires multiset(r) == multiset(s) + multiset{x}
    requires AllCapturedBefore(s, y) && LexLe(x.dateCaptured, y.dateCaptured)
    ensures AllCapturedBefore(r, y)
  {
    forall i | 0 <= i < |r| ensures LexLe(r[i].dateCaptured, y.dateCaptured) {
      assert r[i] in multiset(r);
      if r[i] != x {
        assert r[i] in multiset(s);
        var k :| 0 <= k < |s| && s[k] == r[i];
      }
    }
  }

  /** Puts `x` into a sorted sequence at its place. */
  function InsertByCapture(x: ServingRow, s: seq<ServingRow>): (r: seq<ServingRow>)
    requires SortedByCaptureDesc(s)
    ensures SortedByCaptureDesc(r)
    ensures multiset(r) == multiset(s) + multiset{x}
    decreases |s|
  {
    if s == [] then [x]
    else if LexLe(s[0].dateCaptured, x.dateCaptured) then
      BoundByHead(s, x);
      ConsSorted(x, s);
      [x] + s
    else
      var rest := InsertByCapture(x, s[1..]);
      LexLeTotal(s[0].dateCaptured, x.dateCaptured);
      HeadBoundsSorted(s);
      assert s == [s[0]] + s[1..];
      BoundOfSameElements(rest, s[1..], x, s[0]);
      ConsSorted(s[0], rest);
      [s[0]] + rest
  }

  /** `sort_values(by="date_captured", ascending=False)`: the same rows,
      newest capture first. Rows with equal capture text may come in any
      order (the default sort is not stable), so only the order and the
      contents are stated. */
  function SortByCaptureDesc(rows: seq<ServingRow>): (r: seq<ServingRow>)
    ensures SortedByCaptureDesc(r)
    ensures multiset(r) == multiset(rows)
  {
    if rows == [] then []
    else
      assert rows == [rows[0]] + rows[1..];
      InsertByCapture(rows[0], SortByCaptureDesc(rows[1..]))
  }

  /** The serving rows before sorting: each relevant row with its URL field
      and its fields from `GenerateLlmFields`. */
  function EnrichRows(rows: seq<StagedRow>, fields: seq<(string, string)>): (r: seq<ServingRow>)
    requires |fields| == |rows|
    ensures |r| == |rows|
    ensures forall i :: 0 <= i < |rows| ==> r[i] == Project(rows[i], fields[i])
  {
    seq(|rows|, i requires 0 <= i < |rows| => Project(rows[i], fields[i]))
  }

  /** The serving data: the relevant staged rows, enriched with URLs and
      generated fields (corrected version), newest capture first. */
  function GenerateServingData(staged: seq<StagedRow>, model: Model): (out: seq<ServingRow>)
    ensures SortedByCaptureDesc(out)
    ensures |out| == |GetFeasibleLocationData(staged)|
    ensures multiset(out) == multiset(EnrichRows(GetFeasibleLocationData(staged), GenerateLlmFields(GetFeasibleLocationData(staged), model)))
  {
    var feasible := GetFeasibleLocationData(staged);
    var out := SortByCaptureDesc(EnrichRows(feasible, GenerateLlmFields(feasible, model)));
    assert |out| == |multiset(out)|;
    out
  }

  /** Every serving row comes from a relevant staged row: same id and
      capture tag, its URL field, and the fields generated for it; and every
      relevant staged row gives a serving row. */
  lemma ServingRowsFromFeasible(staged: seq<StagedRow>, model: Model)
    ensures var feasible := GetFeasibleLocationData(staged);
      var out := GenerateServingData(staged, model);
      (forall r :: r in out ==> exists k :: 0 <= k < |feasible| && r == Project(feasible[k], ClassifyRow(feasible[k], k, model))) &&
      (forall k :: 0 <= k < |feasible| ==> Project(feasible[k], ClassifyRow(feasible[k], k, model)) in out)
  {
    var feasible := GetFeasibleLocationData(staged);
    EnrichedMembers(feasible, GenerateServingData(staged, model), model);
  }

  /** Rows with the same elements as the enriched rows are exactly the
      enriched rows. */
  lemma EnrichedMembers(feasible: seq<StagedRow>, out: seq<ServingRow>, model: Model)
    requires multiset(out) == multiset(EnrichRows(feasible, GenerateLlmFields(feasible, model)))
    ensures forall r :: r in out ==> exists k :: 0 <= k < |feasible| && r == Project(feasible[k], ClassifyRow(feasible[k], k, model))
    ensures forall k :: 0 <= k < |feasible| ==> Project(feasible[k], ClassifyRow(feasible[k], k, model)) in out
  {
    var enriched := EnrichRows(feasible, GenerateLlmFields(feasible, model));
    SameMembers(out, enriched);
    forall r | r in out ensures exists k :: 0 <= k < |feasible| && r == Project(feasible[k], ClassifyRow(feasible[k], k, model)) {
      var k :| 0 <= k < |enriched| && enriched[k] == r;
    }
    forall k | 0 <= k < |feasible| ensures Project(feasible[k], ClassifyRow(feasible[k], k, model)) in out {
      assert enriched[k] in enriched;
    }
  }

  /** The pipeline as written: the run stops at the first row whose model
      text does not cut into two pieces. */
  function GenerateServingDataAsWritten(staged: seq<StagedRow>, model: Model): (r: Result<seq<ServingRow>, EnrichError>)
    ensures r.Ok? <==> GenerateLlmFieldsAsWritten(GetFeasibleLocationData(staged), model).Ok?
    ensures r.Ok? ==> SortedByCaptureDesc(r.value)
    ensures r.Ok? ==> |r.value| == |GetFeasibleLocationData(staged)|
    ensures r.Ok? ==>
      var feasible := GetFeasibleLocationData(staged);
      var fields := GenerateLlmFieldsAsWritten(feasible, model).value;
      |fields| == |feasible| && multiset(r.value) == multiset(EnrichRows(feasible, fields))
    ensures r.Err? ==> r.error == GenerateLlmFieldsAsWritten(GetFeasibleLocationData(staged), model).error
  {
    var feasible := GetFeasibleLocationData(staged);
    match GenerateLlmFieldsAsWritten(feasible, model)
    case Err(e) => Err(e)
    case Ok(fields) =>
      var out := SortByCaptureDesc(EnrichRows(feasible, fields));
      assert |out| == |multiset(out)|;
      Ok(out)
  }

  /** When the run as written completes, and every description-only answer
      cuts cleanly, it writes exactly the corrected serving data. */
  lemma ServingDataAgreesWithAsWritten(staged: seq<StagedRow>, model: Model)
    requires GenerateServingDataAsWritten(staged, model).Ok?
    requires var feasible := GetFeasibleLocationData(staged);
      forall i :: 0 <= i < |feasible| ==>
        CutsCleanly(feasible[i].job.description, feasible[i].job.company, Reply(feasible[i], i, model))
    ensures GenerateServingDataAsWritten(staged, model).value == GenerateServingData(staged, model)
  {
    var feasible := GetFeasibleLocationData(staged);
    GenerateLlmFieldsAgrees(feasible, model);
  }

  /** The capture tag is compared as text, not as a date: the day's tens
      digit decides before the month or the year do, so a row captured on
      31 January sorts ahead of one captured on 1 February. */
  lemma CaptureOrderIsTextual(a: ServingRow, b: ServingRow, da: Date, db: Date)
    requires ValidDate(da) && ValidDate(db)
    requires a.dateCaptured == FormatDate(da) && b.dateCaptured == FormatDate(db)
    requires da.day / 10 > db.day / 10
    ensures SortedByCaptureDesc([a, b]) && !SortedByCaptureDesc([b, a])
  {
    assert a.dateCaptured[0] == DigitChar(da.day / 10);
    assert b.dateCaptured[0] == DigitChar(db.day / 10);
    assert a.dateCaptured[0] > b.dateCaptured[0];
    assert [a, b][0] == a && [a, b][1] == b;
    assert [b, a][0] == b && [b, a][1] == a;
    assert LexLe(b.dateCaptured, a.dateCaptured);
    assert !LexLe(a.dateCaptured, b.dateCaptured);
  }
}

=== FILE: text.dfy ===
/** The string operations of Python the pipeline relies on: `lower()`,
    `in`, case-insensitive regular-expression search, `endswith`,
    `split`/`join` on a literal separator, `strip()`, `replace` of one
    character, and the code-point order used by string comparison. */
module Text {
  import opened Types
  import opened Seqs

  /** Lower-casing of one character, for the ASCII letters. */
  function LowerChar(c: char): char
  {
    if 'A' <= c <= 'Z' then (c as int - 'A' as int + 'a' as int) as char else c
  }

  /** `s.lower()`, character by character. */
  function Lower(s: string): (r: string)
    ensures |r| == |s|
    ensures forall i :: 0 <= i < |s| ==> r[i] == LowerChar(s[i])
  {
    seq(|s|, i requires 0 <= i < |s| => LowerChar(s[i]))
  }

  /** A string without capital letters is its own lower-case form. */
  lemma LowerOfLowerCase(s: string)
    requires forall i :: 0 <= i < |s| ==> !('A' <= s[i] <= 'Z')
    ensures Lower(s) == s
  {
  }

  /** `p` occurs in `s` starting at index `i`. */
  predicate OccursAt(s: string, p: string, i: int)
  {
    0 <= i && i + |p| <= |s| && s[i..i + |p|] == p
  }

  /** Python's `p in s`. */
  predicate Contains(s: string, p: string)
  {
    exists i | 0 <= i <= |s| - |p| :: OccursAt(s, p, i)
  }

  /** `p` occurs at index `i` of `s` when letter case is ignored. */
  predicate OccursAtIgnoreCase(s: string, p: string, i: int)
  {
    0 <= i && i + |p| <= |s| &&
    forall k :: 0 <= k < |p| ==> LowerChar(s[i + k]) == LowerChar(p[k])
  }

  /** A search for the literal `p` with `re.IGNORECASE`, as pandas'
      `str.contains(p, case=False)` performs it. */
  predicate ContainsIgnoreCase(s: string, p: string)
  {
    exists i | 0 <= i <= |s| - |p| :: OccursAtIgnoreCase(s, p, i)
  }

  /** The two case-insensitive tests the source uses agree: a search with
      `case=False` finds `p` exactly when `p.lower() in s.lower()`. */
  lemma IgnoreCaseIsLowerContains(s: string, p: string)
    ensures ContainsIgnoreCase(s, p) <==> Contains(Lower(s), Lower(p))
  {
    forall i | 0 <= i <= |s| - |p|
      ensures OccursAtIgnoreCase(s, p, i) <==> OccursAt(Lower(s), Lower(p), i)
    {
      if OccursAtIgnoreCase(s, p, i) {
        assert Lower(s)[i..i + |p|] == Lower(p);
      }
      if OccursAt(Lower(s), Lower(p), i) {
        forall k | 0 <= k < |p| ensures LowerChar(s[i + k]) == LowerChar(p[k]) {
          assert Lower(s)[i..i + |p|][k] == Lower(p)[k];
        }
      }
    }
    if Contains(Lower(s), Lower(p)) {
      var i :| 0 <= i <= |Lower(s)| - |Lower(p)| && OccursAt(Lower(s), Lower(p), i);
      assert OccursAtIgnoreCase(s, p, i);
    }
  }

  /** Containing one token ignoring case is enough for ContainsAnyIgnoreCase. */
  lemma {:induction false} ContainsAnyIgnoreCaseAt(s: string, tokens: seq<string>, k: nat)
    requires k < |tokens| && ContainsIgnoreCase(s, tokens[k])
    ensures ContainsAnyIgnoreCase(s, tokens)
    decreases k
  {
    if k > 0 {
      ContainsAnyIgnoreCaseAt(s, tokens[1..], k - 1);
    }
  }

  /** A pattern with a character that `s` lacks does not occur in `s`. */
  lemma NotContainsMissingChar(s: string, p: string, k: int)
    requires 0 <= k < |p| && p[k] !in s
    ensures !Contains(s, p)
  {
    forall i | 0 <= i <= |s| - |p| ensures !OccursAt(s, p, i) {
      assert s[i + k] in s;
      assert s[i..i + |p|][k] == s[i + k];
    }
  }

  /** The same, ignoring case: no character of `s` lower-cases to the
      lower-case form of `p[k]`. */
  lemma NotContainsIgnoreCaseMissingChar(s: string, p: string, k: int)
    requires 0 <= k < |p|
    requires forall i :: 0 <= i < |s| ==> LowerChar(s[i]) != LowerChar(p[k])
    ensures !ContainsIgnoreCase(s, p)
  {
    forall i | 0 <= i <= |s| - |p| ensures !OccursAtIgnoreCase(s, p, i) {
      assert LowerChar(s[i + k]) != LowerChar(p[k]);
    }
  }

  /** Some token of `tokens` occurs in `s`: `any(t in s for t in tokens)`. */
  predicate ContainsAny(s: string, tokens: seq<string>)
  {
    tokens != [] && (Contains(s, tokens[0]) || ContainsAny(s, tokens[1..]))
  }

  /** Some token occurs in `s`, ignoring case: a search for the regular
      expression "t1|t2|..." with `re.IGNORECASE`. */
  predicate ContainsAnyIgnoreCase(s: string, tokens: seq<string>)
  {
    tokens != [] && (ContainsIgnoreCase(s, tokens[0]) || ContainsAnyIgnoreCase(s, tokens[1..]))
  }

  /** `s.endswith(suffix)`. */
  predicate EndsWith(s: string, suffix: string)
  {
    |suffix| <= |s| && s[|s| - |suffix|..] == suffix
  }

  /** The first index at or after `i` where `p` occurs, as `s.find(p, i)`. */
  function FindFrom(s: string, p: string, i: nat): (r: Option<nat>)
    requires i <= |s|
    decreases |s| - i
    ensures r.Some? ==> i <= r.value && OccursAt(s, p, r.value)
  {
    if i + |p| > |s| then None
    else if s[i..i + |p|] == p then Some(i)
    else FindFrom(s, p, i + 1)
  }

  /** `FindFrom` finds the first occurrence: none lies before the index it
      returns, and none at all when it returns `None`. */
  lemma {:induction false} FindFromFirst(s: string, p: string, i: nat)
    requires i <= |s|
    ensures FindFrom(s, p, i).Some? ==> forall j :: i <= j < FindFrom(s, p, i).value ==> !OccursAt(s, p, j)
    ensures FindFrom(s, p, i).None? ==> forall j :: i <= j ==> !OccursAt(s, p, j)
    decreases |s| - i
  {
    if i + |p| <= |s| && s[i..i + |p|] != p {
      FindFromFirst(s, p, i + 1);
    }
  }

  /** `s.split(sep)` for a non-empty literal separator: cut at the leftmost
      occurrence, then split what follows it. */
  function Split(s: string, sep: string): (parts: seq<string>)
    requires |sep| > 0
    ensures |parts| >= 1
    decreases |s|
  {
    match FindFrom(s, sep, 0)
    case None => [s]
    case Some(i) => [s[..i]] + Split(s[i + |sep|..], sep)
  }

  /** `sep.join(parts)`. */
  function Join(parts: seq<string>, sep: string): string
  {
    if |parts| == 0 then ""
    else if |parts| == 1 then parts[0]
    else parts[0] + sep + Join(parts[1..], sep)
  }

  lemma JoinCons(a: string, rest: seq<string>, sep: string)
    requires |rest| >= 1
    ensures Join([a] + rest, sep) == a + sep + Join(rest, sep)
  {
    assert ([a] + rest)[1..] == rest;
  }

  /** A string is the part before an occurrence, the occurrence and the
      part after it. */
  lemma ConcatAround(s: string, p: string, i: nat)
    requires OccursAt(s, p, i)
    ensures s[..i] + p + s[i + |p|..] == s
  {
    assert s[i..i + |p|] == p;
  }

  /** Joining the pieces of a split gives back the original string. */
  lemma {:induction false} JoinSplit(s: string, sep: string)
    requires |sep| > 0
    ensures Join(Split(s, sep), sep) == s
    decreases |s|
  {
    var f := FindFrom(s, sep, 0);
    if f.Some? {
      var i := f.value;
      SplitAt(s, sep, i);
      var rest := s[i + |sep|..];
      var pieces := Split(rest, sep);
      JoinCons(s[..i], pieces, sep);
      JoinSplit(rest, sep);
      ConcatAround(s, sep, i);
    } else {
      assert Split(s, sep) == [s];
    }
  }

  /** A string free of the separator's first character contains no
      occurrence of the separator. */
  lemma NoOccurrenceWithoutFirstChar(s: string, sep: string)
    requires |sep| > 0 && sep[0] !in s
    ensures forall j :: !OccursAt(s, sep, j)
  {
    forall j ensures !OccursAt(s, sep, j) {
      if 0 <= j && j + |sep| <= |s| {
        assert s[j..j + |sep|][0] == s[j];
        assert s[j] in s;
      }
    }
  }

  /** The leftmost occurrence decides where FindFrom stops. */
  lemma FindFromIs(s: string, p: string, i: nat)
    requires i <= |s| && OccursAt(s, p, i)
    requires forall j :: 0 <= j < i ==> !OccursAt(s, p, j)
    ensures FindFrom(s, p, 0) == Some(i)
  {
    FindFromFirst(s, p, 0);
  }

  /** A piece free of the separator's first character is cut off whole. */
  lemma SplitPrefix(a: string, t: string, sep: string)
    requires |sep| > 0 && sep[0] !in a
    ensures Split(a + sep + t, sep) == [a] + Split(t, sep)
  {
    var s := a + sep + t;
    assert OccursAt(s, sep, |a|) by {
      assert s[|a|..|a| + |sep|] == sep;
    }
    forall j | 0 <= j < |a| ensures !OccursAt(s, sep, j) {
      assert s[j] == a[j] && a[j] in a;
      if j + |sep| <= |s| {
        assert s[j..j + |sep|][0] == s[j];
      }
    }
    FindFromIs(s, sep, |a|);
    assert s[|a| + |sep|..] == t;
    assert s[..|a|] == a;
  }

  /** Splitting a join gives back the pieces, provided no piece contains
      the separator's first character. */
  lemma {:induction false} SplitJoin(parts: seq<string>, sep: string)
    requires |sep| > 0 && |parts| >= 1
    requires forall k :: 0 <= k < |parts| ==> sep[0] !in parts[k]
    ensures Split(Join(parts, sep), sep) == parts
  {
    if |parts| == 1 {
      NoOccurrenceWithoutFirstChar(parts[0], sep);
    } else {
      JoinCons(parts[0], parts[1..], sep);
      assert [parts[0]] + parts[1..] == parts;
      SplitPrefix(parts[0], Join(parts[1..], sep), sep);
      SplitJoin(parts[1..], sep);
    }
  }

  /** A separator made of one repeated character. */
  predicate IsRun(sep: string)
  {
    |sep| > 0 && forall k :: 0 <= k < |sep| ==> sep[k] == sep[0]
  }

  /** `t` does not end with the character `c`. */
  predicate EndsOtherThan(t: string, c: char)
  {
    t == [] || t[|t| - 1] != c
  }

  /** With no occurrence in `t`, the first occurrence in `t + sep + u` is
      the appended separator. */
  lemma SeamOccurrence(t: string, u: string, sep: string)
    requires IsRun(sep) && EndsOtherThan(t, sep[0])
    requires FindFrom(t, sep, 0).None?
    ensures FindFrom(t + sep + u, sep, 0) == Some(|t|)
  {
    var s := t + sep + u;
    assert OccursAt(s, sep, |t|) by {
      assert s[|t|..|t| + |sep|] == sep;
    }
    FindFromFirst(t, sep, 0);
    forall j | 0 <= j < |t| ensures !OccursAt(s, sep, j) {
      if j + |sep| <= |t| {
        assert !OccursAt(t, sep, j);
        assert s[j..j + |sep|] == t[j..j + |sep|];
      } else if j + |sep| <= |s| {
        assert s[j..j + |sep|][|t| - 1 - j] == t[|t| - 1];
      }
    }
    FindFromIs(s, sep, |t|);
  }

  /** Appending does not change whether the pattern occurs at a position
      that ends inside `t`. */
  lemma OccurrenceExtends(t: string, v: string, sep: string, j: nat)
    requires j + |sep| <= |t|
    ensures OccursAt(t + v, sep, j) <==> OccursAt(t, sep, j)
  {
    assert (t + v)[j..j + |sep|] == t[j..j + |sep|];
  }

  /** The first occurrence in `t` stays the first after appending. */
  lemma EarlierOccurrence(t: string, v: string, sep: string, i: nat)
    requires |sep| > 0 && FindFrom(t, sep, 0) == Some(i)
    ensures FindFrom(t + v, sep, 0) == Some(i)
  {
    var s := t + v;
    FindFromFirst(t, sep, 0);
    OccurrenceExtends(t, v, sep, i);
    forall j | 0 <= j < i ensures !OccursAt(s, sep, j) {
      OccurrenceExtends(t, v, sep, j);
    }
    FindFromIs(s, sep, i);
  }

  /** The case of `SplitSuffix` where `t` holds no separator. */
  lemma SplitSuffixBase(t: string, u: string, sep: string)
    requires IsRun(sep) && EndsOtherThan(t, sep[0]) && sep[0] !in u
    requires FindFrom(t, sep, 0).None?
    ensures Split(t + sep + u, sep) == Split(t, sep) + [u]
  {
    var s := t + sep + u;
    SeamOccurrence(t, u, sep);
    assert s[|t| + |sep|..] == u;
    assert s[..|t|] == t;
    NoOccurrenceWithoutFirstChar(u, sep);
    assert Split(u, sep) == [u];
  }

  /** A split cuts at the first occurrence of the separator. */
  lemma SplitAt(s: string, sep: string, i: nat)
    requires |sep| > 0 && FindFrom(s, sep, 0) == Some(i)
    ensures i + |sep| <= |s|
    ensures Split(s, sep) == [s[..i]] + Split(s[i + |sep|..], sep)
  {
    FoundFits(s, sep, i);
    var rest := s[i + |sep|..];
    var parts := Split(s, sep);
    assert parts == [s[..i]] + Split(rest, sep);
  }

  lemma FoundFits(s: string, sep: string, i: nat)
    requires FindFrom(s, sep, 0) == Some(i)
    ensures i + |sep| <= |s|
  {
    assert OccursAt(s, sep, i);
  }

  /** The first cut of `s`, which is `t` followed by `v`, is the first cut
      of `t`, when `t` holds a separator; `w` is what follows the cut. */
  lemma SplitSuffixStep(t: string, v: string, sep: string, i: nat, s: string, w: string)
    requires |sep| > 0 && FindFrom(t, sep, 0) == Some(i)
    requires s == t + v && i + |sep| <= |t| && w == t[i + |sep|..] + v
    ensures Split(s, sep) == [t[..i]] + Split(w, sep)
  {
    EarlierOccurrence(t, v, sep, i);
    assert s[..i] == t[..i];
    assert s[i + |sep|..] == w;
    SplitAt(s, sep, i);
  }

  /** Cutting `t + a + b` around a piece that ends inside `t`. */
  lemma SlicesOfAppend(t: string, a: string, b: string, i: nat, n: nat)
    requires i + n <= |t|
    ensures t + a + b == t + (a + b)
    ensures (t + a + b)[..i] == t[..i]
    ensures (t + a + b)[i + n..] == t[i + n..] + a + b
  {
  }

  /** Appending a separator and a separator-free tail to `t` adds exactly one
      piece, when the separator is a run of one character that `t` does not
      end with (so no occurrence can straddle the seam). */
  lemma {:induction false} SplitSuffix(t: string, u: string, sep: string)
    requires IsRun(sep) && EndsOtherThan(t, sep[0]) && sep[0] !in u
    ensures Split(t + sep + u, sep) == Split(t, sep) + [u]
    decreases |t|, 1
  {
    match FindFrom(t, sep, 0)
    case None => SplitSuffixBase(t, u, sep);
    case Some(i) => SplitSuffixCut(t, u, sep, i);
  }

  /** The case of `SplitSuffix` where `t` holds a separator at `i`: cut
      there and continue with the rest. */
  lemma {:induction false} SplitSuffixCut(t: string, u: string, sep: string, i: nat)
    requires IsRun(sep) && EndsOtherThan(t, sep[0]) && sep[0] !in u
    requires FindFrom(t, sep, 0) == Some(i)
    ensures Split(t + sep + u, sep) == Split(t, sep) + [u]
    decreases |t|, 0
  {
    FoundFits(t, sep, i);
    var rest := t[i + |sep|..];
    SplitAt(t, sep, i);
    CutBeforeSeparator(t, u, sep, i);
    assert EndsOtherThan(rest, sep[0]) by {
      assert rest != [] ==> rest[|rest| - 1] == t[|t| - 1];
    }
    SplitSuffix(rest, u, sep);
    ConsThenAppend(t[..i], Split(rest, sep), u);
  }

  /** The first cut of `t + sep + u` is the first cut of `t`. */
  lemma CutBeforeSeparator(t: string, u: string, sep: string, i: nat)
    requires |sep| > 0 && FindFrom(t, sep, 0) == Some(i)
    ensures i + |sep| <= |t|
    ensures Split(t + sep + u, sep) == [t[..i]] + Split(t[i + |sep|..] + sep + u, sep)
  {
    FoundFits(t, sep, i);
    SlicesOfAppend(t, sep, u, i, |sep|);
    var rest := t[i + |sep|..];
    assert rest + sep + u == rest + (sep + u);
    SplitSuffixStep(t, sep + u, sep, i, t + sep + u, rest + sep + u);
  }

  lemma ConsThenAppend(h: string, p: seq<string>, u: string)
    ensures [h] + (p + [u]) == ([h] + p) + [u]
  {
  }

  /** A split into one piece is the string itself. */
  lemma SplitSingle(s: string, sep: string)
    requires |sep| > 0 && |Split(s, sep)| == 1
    ensures Split(s, sep) == [s]
  {
  }

  /** Python's `str.isspace()` for one character. */
  predicate IsSpace(c: char)
  {
    var n := c as int;
    9 <= n <= 13 || 28 <= n <= 32 || n == 0x85 || n == 0xA0 || n == 0x1680 ||
    0x2000 <= n <= 0x200A || n == 0x2028 || n == 0x2029 || n == 0x202F ||
    n == 0x205F || n == 0x3000
  }

  /** `s.lstrip()`: the suffix left after the leading white space. */
  function StripStart(s: string): (r: string)
    ensures |r| <= |s| && r == s[|s| - |r|..]
    ensures forall i :: 0 <= i < |s| - |r| ==> IsSpace(s[i])
    ensures r != [] ==> !IsSpace(r[0])
  {
    if s != [] && IsSpace(s[0]) then StripStart(s[1..]) else s
  }

  /** `s.rstrip()`: the prefix left before the trailing white space. */
  function StripEnd(s: string): (r: string)
    ensures |r| <= |s| && r == s[..|r|]
    ensures forall i :: |r| <= i < |s| ==> IsSpace(s[i])
    ensures r != [] ==> !IsSpace(r[|r| - 1])
  {
    if s != [] && IsSpace(s[|s| - 1]) then StripEnd(s[..|s| - 1]) else s
  }

  /** `r` is the piece of `s` starting at `a` with only white space
      around it. */
  predicate StripsTo(s: string, r: string, a: int)
  {
    0 <= a <= |s| - |r| && r == s[a..a + |r|] &&
    (forall i :: 0 <= i < a ==> IsSpace(s[i])) &&
    (forall i :: a + |r| <= i < |s| ==> IsSpace(s[i]))
  }

  /** `s` neither starts nor ends with white space. */
  predicate IsTrimmed(s: string)
  {
    s == [] || (!IsSpace(s[0]) && !IsSpace(s[|s| - 1]))
  }

  /** `s.strip()`: a contiguous piece of `s` that neither starts nor ends
      with white space, and only white space lies around it. */
  function Strip(s: string): (r: string)
    ensures exists a :: StripsTo(s, r, a)
    ensures IsTrimmed(r)
  {
    StripParts(s);
    StripEnd(StripStart(s))
  }

  lemma StripParts(s: string)
    ensures StripsTo(s, StripEnd(StripStart(s)), |s| - |StripStart(s)|)
    ensures IsTrimmed(StripEnd(StripStart(s)))
  {
    StripCompose(s, StripStart(s), StripEnd(StripStart(s)));
  }

  /** A suffix of `s` after white space, then a prefix of that before
      white space, is a piece of `s` with only white space around it. */
  lemma StripCompose(s: string, t: string, r: string)
    requires |t| <= |s| && t == s[|s| - |t|..]
    requires forall i :: 0 <= i < |s| - |t| ==> IsSpace(s[i])
    requires t != [] ==> !IsSpace(t[0])
    requires |r| <= |t| && r == t[..|r|]
    requires forall i :: |r| <= i < |t| ==> IsSpace(t[i])
    requires r != [] ==> !IsSpace(r[|r| - 1])
    ensures StripsTo(s, r, |s| - |t|)
    ensures IsTrimmed(r)
  {
    var a := |s| - |t|;
    assert r == s[a..a + |r|];
    forall i | a + |r| <= i < |s| ensures IsSpace(s[i]) {
      assert s[i] == t[i - a];
    }
  }

  /** Stripping a string that neither starts nor ends with white space
      leaves it unchanged. */
  lemma StripTrimmed(s: string)
    requires IsTrimmed(s)
    ensures Strip(s) == s
  {
    assert StripStart(s) == s;
    assert StripEnd(s) == s;
  }

  /** `s.replace(c, "")` for a one-character `c`. */
  function RemoveChar(s: string, c: char): (r: string)
    ensures c !in r
    ensures IsSubseq(r, s)
    ensures forall i :: 0 <= i < |s| && s[i] != c ==> s[i] in r
  {
    FilterIsSubseq(x => x != c, s);
    Filter(x => x != c, s)
  }

  /** Removing a character that does not occur changes nothing. */
  lemma RemoveAbsentChar(s: string, c: char)
    requires c !in s
    ensures RemoveChar(s, c) == s
  {
    FilterAll(x => x != c, s);
  }

  /** `s.replace(c, d)` for one-character `c` and `d`. */
  function ReplaceChar(s: string, c: char, d: char): (r: string)
    requires c != d
    ensures |r| == |s|
    ensures c !in r
    ensures forall i :: 0 <= i < |s| ==> r[i] == (if s[i] == c then d else s[i])
  {
    seq(|s|, i requires 0 <= i < |s| => if s[i] == c then d else s[i])
  }

  /** Python's `a <= b` on strings: code-point lexicographic order. */
  predicate LexLe(a: string, b: string)
  {
    if a == [] then true
    else if b == [] then false
    else if a[0] != b[0] then a[0] < b[0]
    else LexLe(a[1..], b[1..])
  }

  lemma {:induction false} LexLeTotal(a: string, b: string)
    ensures LexLe(a, b) || LexLe(b, a)
  {
    if a != [] && b != [] && a[0] == b[0] {
      LexLeTotal(a[1..], b[1..]);
    }
  }

  lemma {:induction false} LexLeReflexive(a: string)
    ensures LexLe(a, a)
  {
    if a != [] {
      LexLeReflexive(a[1..]);
    }
  }

  lemma {:induction false} LexLeTransitive(a: string, b: string, c: string)
    requires LexLe(a, b) && LexLe(b, c)
    ensures LexLe(a, c)
  {
    if a != [] && b != [] && c != [] && a[0] == b[0] && b[0] == c[0] {
      LexLeTransitive(a[1..], b[1..], c[1..]);
    }
  }
}

=== FILE: types.dfy ===
/** Failure-compatible wrappers shared by every module of the model. */
module Types {

  /** A value that may be absent: a missing JSON field, a failed model call. */
  datatype Option<+T> = None | Some(value: T)

  /** The outcome of a step that can raise: `Err` stands for the exception. */
  datatype Result<+T, +E> = Ok(value: T) | Err(error: E)
}

=== FILE: upsert.dfy ===
/** The core both database loaders share: a table keyed by `id`, the
    insert-or-overwrite that `INSERT ... ON DUPLICATE KEY UPDATE` (MySQL)
    and `INSERT ... ON CONFLICT (id) DO UPDATE` (PostgreSQL) perform when
    every non-key column is overwritten, and `executemany`, which applies a
    batch record by record, in order, and stops at the first record the
    driver or the server refuses. */
module Upsert {
  import opened Types
  import opened Seqs

  /** One record as bound to the INSERT placeholders: the `id` first, then
      the other columns in INSERT order. */
  type Record = seq<string>

  /** A table: every stored `id` with its other columns in INSERT order. */
  type Table = map<string, seq<string>>

  /** Why a record is refused: the driver cannot bind it to the statement's
      placeholders, or the server rejects the row. */
  datatype Fault = WrongArity | Rejected

  /** How a load ends: the batch committed; the error caught, logged and the
      batch rolled back; or the error left to propagate to the caller. */
  datatype Outcome = Committed | RolledBack | Raised

  /** A load's outcome and the committed table it leaves behind. */
  datatype Load = Load(outcome: Outcome, table: Table)

  /** `str(v)`, as `astype(str)` applies it to a cell: a missing value
      becomes the text "None". */
  function Stringify(v: Option<string>): string
  {
    match v
    case None => "None"
    case Some(s) => s
  }

  /** A data frame's rows as the tuples `itertuples` yields once every
      column went through `astype(str)`. */
  function StringifyFrame(frame: seq<seq<Option<string>>>): (recs: seq<Record>)
    ensures |recs| == |frame|
    ensures forall i :: 0 <= i < |frame| ==> |recs[i]| == |frame[i]|
    ensures forall i, j :: 0 <= i < |frame| && 0 <= j < |frame[i]| ==> recs[i][j] == Stringify(frame[i][j])
  {
    seq(|frame|, i requires 0 <= i < |frame| =>
      seq(|frame[i]|, j requires 0 <= j < |frame[i]| => Stringify(frame[i][j])))
  }

  /** Every record carries a key. */
  predicate Keyed(recs: seq<Record>)
  {
    forall i :: 0 <= i < |recs| ==> |recs[i]| >= 1
  }

  /** Some record of the batch has key `id`. */
  predicate InBatch(recs: seq<Record>, id: string)
  {
    exists k :: 0 <= k < |recs| && |recs[k]| >= 1 && recs[k][0] == id
  }

  /** Record `k` is the last one of the batch with its key. */
  predicate LastWith(recs: seq<Record>, k: int)
  {
    0 <= k < |recs| && |recs[k]| >= 1 &&
    forall j :: k < j < |recs| && |recs[j]| >= 1 ==> recs[j][0] != recs[k][0]
  }

  /** What an upsert of `recs` into `base` must leave: exactly the keys of
      `base` and of the batch; a key the batch does not mention keeps its
      row; a key it mentions holds the columns of its last record. */
  ghost predicate Upserted(base: Table, recs: seq<Record>, t: Table)
  {
    (forall id :: id in t <==> id in base || InBatch(recs, id)) &&
    (forall id :: id in base && !InBatch(recs, id) ==> t[id] == base[id]) &&
    (forall k :: LastWith(recs, k) ==> recs[k][1..] == t[recs[k][0]])
  }

  /** One INSERT: a new key is added, an existing key has all its other
      columns overwritten. */
  function UpsertOne(t: Table, rec: Record): (r: Table)
    requires |rec| >= 1
    ensures r.Keys == t.Keys + {rec[0]}
    ensures r[rec[0]] == rec[1..]
    ensures forall id :: id in t && id != rec[0] ==> r[id] == t[id]
  {
    t[rec[0] := rec[1..]]
  }

  /** The batch applied record by record, in order. */
  function Fold(t: Table, recs: seq<Record>): Table
    requires Keyed(recs)
    decreases |recs|
  {
    if recs == [] then t else Fold(UpsertOne(t, recs[0]), recs[1..])
  }

  lemma InBatchCons(recs: seq<Record>, id: string)
    requires recs != [] && |recs[0]| >= 1
    ensures InBatch(recs, id) <==> recs[0][0] == id || InBatch(recs[1..], id)
  {
    if InBatch(recs, id) {
      var k :| 0 <= k < |recs| && |recs[k]| >= 1 && recs[k][0] == id;
      if k > 0 {
        assert recs[1..][k - 1] == recs[k];
      }
    }
    if InBatch(recs[1..], id) {
      var k :| 0 <= k < |recs[1..]| && |recs[1..][k]| >= 1 && recs[1..][k][0] == id;
      assert recs[k + 1] == recs[1..][k];
    }
  }

  /** The keys after the fold are those of the table and of the batch. */
  lemma {:induction false} FoldKeys(t: Table, recs: seq<Record>)
    requires Keyed(recs)
    ensures forall id :: id in Fold(t, recs) <==> id in t || InBatch(recs, id)
    decreases |recs|
  {
    if recs != [] {
      FoldKeys(UpsertOne(t, recs[0]), recs[1..]);
      forall id ensures InBatch(recs, id) <==> recs[0][0] == id || InBatch(recs[1..], id) {
        InBatchCons(recs, id);
      }
    }
  }

  /** A key the batch does not mention keeps its row. */
  lemma {:induction false} FoldUntouched(t: Table, recs: seq<Record>, id: string)
    requires Keyed(recs) && id in t && !InBatch(recs, id)
    ensures id in Fold(t, recs) && Fold(t, recs)[id] == t[id]
    decreases |recs|
  {
    if recs != [] {
      InBatchCons(recs, id);
      FoldUntouched(UpsertOne(t, recs[0]), recs[1..], id);
    }
  }

  /** The last record with a key decides that key's row. */
  lemma {:induction false} FoldLastWins(t: Table, recs: seq<Record>, k: int)
    requires Keyed(recs) && LastWith(recs, k)
    ensures recs[k][0] in Fold(t, recs) && Fold(t, recs)[recs[k][0]] == recs[k][1..]
    decreases |recs|
  {
    var t1 := UpsertOne(t, recs[0]);
    if k == 0 {
      assert !InBatch(recs[1..], recs[0][0]) by {
        forall j | 0 <= j < |recs[1..]| && |recs[1..][j]| >= 1
          ensures recs[1..][j][0] != recs[0][0]
        {
          assert recs[1..][j] == recs[j + 1];
        }
      }
      FoldUntouched(t1, recs[1..], recs[0][0]);
    } else {
      assert LastWith(recs[1..], k - 1) by {
        forall j | k - 1 < j < |recs[1..]| && |recs[1..][j]| >= 1
          ensures recs[1..][j][0] != recs[1..][k - 1][0]
        {
          assert recs[1..][j] == recs[j + 1];
        }
      }
      FoldLastWins(t1, recs[1..], k - 1);
    }
  }

  /** The fold meets the upsert specification. */
  lemma FoldUpserts(t: Table, recs: seq<Record>)
    requires Keyed(recs)
    ensures Upserted(t, recs, Fold(t, recs))
  {
    FoldKeys(t, recs);
    forall id | id in t && !InBatch(recs, id) ensures Fold(t, recs)[id] == t[id] {
      FoldUntouched(t, recs, id);
    }
    forall k | LastWith(recs, k) ensures recs[k][1..] == Fold(t, recs)[recs[k][0]] {
      FoldLastWins(t, recs, k);
    }
  }

  /** The position of the last record with key `id`, or -1. */
  function LastIndexOf(recs: seq<Record>, id: string): (r: int)
    ensures -1 <= r < |recs|
    ensures r == -1 <==> !InBatch(recs, id)
    ensures r >= 0 ==> LastWith(recs, r) && recs[r][0] == id
  {
    if recs == [] then -1
    else
      var n := |recs| - 1;
      if |recs[n]| >= 1 && recs[n][0] == id then n
      else
        var r := LastIndexOf(recs[..n], id);
        assert forall k :: 0 <= k < n ==> recs[..n][k] == recs[k];
        if r == -1 then
          assert !InBatch(recs, id) by {
            forall k | 0 <= k < |recs| && |recs[k]| >= 1 ensures recs[k][0] != id {
              if k < n {
                assert recs[..n][k] == recs[k];
              }
            }
          }
          -1
        else r
  }

  /** The specification fixes the table: two tables that both meet it
      are the same table. */
  lemma UpsertedUnique(base: Table, recs: seq<Record>, t1: Table, t2: Table)
    requires Upserted(base, recs, t1) && Upserted(base, recs, t2)
    ensures t1 == t2
  {
    forall id | id in t1 ensures t1[id] == t2[id] {
      var k := LastIndexOf(recs, id);
      if k < 0 {
        assert t1[id] == base[id] == t2[id];
      }
    }
  }

  /** Upserting the same batch a second time changes nothing. */
  lemma UpsertedTwice(base: Table, recs: seq<Record>, t1: Table, t2: Table)
    requires Upserted(base, recs, t1) && Upserted(t1, recs, t2)
    ensures t2 == t1
  {
    forall id | id in t2 ensures t2[id] == t1[id] {
      var k := LastIndexOf(recs, id);
      if k < 0 {
        assert t2[id] == t1[id];
      }
    }
    assert t2.Keys == t1.Keys;
  }

  /** Whether the driver and the server take a record: the driver checks
      the number of values before the server sees the row. */
  function Verdict(rec: Record, arity: nat, rejects: Record -> bool): Result<(), Fault>
  {
    if |rec| != arity then Err(WrongArity)
    else if rejects(rec) then Err(Rejected)
    else Ok(())
  }

  predicate Accepted(rec: Record, arity: nat, rejects: Record -> bool)
  {
    |rec| == arity && !rejects(rec)
  }

  /** `executemany` of the upsert statement over the batch, inside one
      transaction: the table the batch produces when every record is
      accepted, otherwise the first refused record and why. */
  function ExecuteMany(t: Table, recs: seq<Record>, arity: nat, rejects: Record -> bool)
    : (r: Result<Table, (nat, Fault)>)
    requires arity >= 1
    ensures r.Ok? <==> forall i :: 0 <= i < |recs| ==> Accepted(recs[i], arity, rejects)
    ensures r.Ok? ==> Upserted(t, recs, r.value)
    ensures r.Err? ==> r.error.0 < |recs| && Verdict(recs[r.error.0], arity, rejects) == Err(r.error.1)
    ensures r.Err? ==> forall j :: 0 <= j < r.error.0 ==> Accepted(recs[j], arity, rejects)
  {
    var verdicts := seq(|recs|, i requires 0 <= i < |recs| => Verdict(recs[i], arity, rejects));
    assert forall i :: 0 <= i < |recs| ==> (verdicts[i].Ok? <==> Accepted(recs[i], arity, rejects));
    match Collect(verdicts)
    case Err(i) => Err((i, verdicts[i].error))
    case Ok(_) =>
      FoldUpserts(t, recs);
      Ok(Fold(t, recs))
  }
}
